=== FILE: README.md ===
# Dirt marketplace — a Dafny model of its listing logic

The dirt marketplace lets construction companies list surplus or wanted fill material: topsoil, gravel, sand and
concrete. Other companies find nearby listings and record a completed trade with a partner company. This project
models the parts of the web application where the behaviour is decided, as pure Dafny functions with proved
contracts:

- **Dashboard filtering.** Listing filters on the dashboard page and the older dashboard component: the
  my-listings and active-listings tabs, the transaction, material, quantity-range and status filters, and the
  distance annotation. The quantity range is parsed the way JavaScript's `Number` parses it.
- **Listing lists.** The legacy `MyListings` and `AvailableListings` filters, the `ListingList` tab filter and
  phone formatting, and the `ListViewItem` badges and actions.
- **Paging.** The paged `ListingsView`.
- **Dialogs.** The create, edit and complete dialogs: address simplification, the picked map position, and the
  validation of the quantity moved.
- **Analytics.** Status counts, the top three partner companies, the monthly material chart (the last twelve
  months, sorted by date) and the total moved.
- **Sign-up form.** The e-mail pattern (a finite automaton proved equal to a declarative description), the form
  state and the submit and response steps.
- **Filter panel.** The change and clear operations of the filter panel.
- **`cn`.** The class-name helper.
- **HTTP routes.** Each route is a function from its inputs to an outcome carrying the HTTP status:
  - listings: get by id, complete by RPC, create;
  - nearby listings;
  - the current user's listings;
  - sign-up (with `safeStringify`);
  - user creation with its compensating delete.

Several source files contain unresolved merge conflicts. Both branches are modelled as separate members where they
differ. The branch a member follows is named in its doc comment.

Supporting modules:

- `Seqs`: order-preserving filters and counts.
- `JsText`: case mapping, `split`/`join`, `slice`, digits, decimal rendering.
- `JsNumber`: `Number`, `parseFloat` and `parseInt` over a decimal grammar, with NaN as `None`.
- `Json`: request bodies as JSON values, with `Object` property lookup where the last key wins.

Computations the application delegates to other services are parameters:

- the haversine distance (`DistanceFn`);
- geocoding answers;
- database rows and answers;
- password hashing;
- month extraction from a timestamp.

## Model

| member | source | states |
|---|---|---|
| Listings.DistanceTo | app/dashboard/page.tsx:273-276 | a distance exists exactly when the user position is known and both listing coordinates are truthy; it is then the distance function applied to the user's and the listing's coordinates |
| Listings.Annotate | app/dashboard/page.tsx:271-277 | every listing is kept in place, each paired with its distance (or none) |
| Listings.Present | app/dashboard/page.tsx:249 | dropping null entries keeps the present listings in their order: the result, re-wrapped, is exactly the sub-list of present entries, and its length is their count |
| Listings.ReplaceWhereId | app/dashboard/page.tsx:163-166 | the list keeps its length; entries with the updated id become the replacement, all others are unchanged |
| Listings.SetStatusById | app/dashboard/page.tsx:240 | the list keeps its length; entries with the id get the new status and nothing else changes |
| DashboardPage.FilteredListings | app/dashboard/page.tsx:247-278 | the result is an ordered sub-list of the present listings, each carrying its distance; my-listings shows only the user's own, filtered by status unless "all"; active-listings shows only others' active listings; the attribute filters hold; every listing the tab admits appears |
| DashboardPage.StatusFilterOnlyOnMyListings | app/dashboard/page.tsx:255 | outside the my-listings tab the status filter has no effect on the result |
| DashboardPage.TabsAreDisjoint | app/dashboard/page.tsx:251-253 | no listing appears on both the my-listings and the active-listings tab |
| DashboardPage.StatusAfterTabChange | app/dashboard/page.tsx:286-295 | the status filter becomes "active" exactly for the two listing tabs, "all" otherwise |
| DashboardPage.TabChangeShowsActiveOnly | app/dashboard/page.tsx:251-255 | after switching to either listing tab only active listings are shown, whatever the earlier status selection |
| DashboardPage.UpdateListing | app/dashboard/page.tsx:163-166 | the listing with the updated id is replaced, every other listing is kept in place; the older dashboard component does the same at components/Dashboard.tsx:143-146 |
| DashboardPage.InactivateListing | app/dashboard/page.tsx:232-245 | the listing with the id becomes "inactive", every other listing is kept; the older dashboard component does the same at components/Dashboard.tsx:204-206 |
| DashboardPage.CompleteListing | app/dashboard/page.tsx:200-208 | the listing with the id becomes the updated row, others stay; a newly created remainder listing is appended at the end |
| DashboardPage.UpdateListingIdempotent | app/dashboard/page.tsx:163-166 | applying the same update twice equals applying it once |
| DashboardPage.InactivateListingIdempotent | app/dashboard/page.tsx:232-245 | inactivating twice equals inactivating once, and ids never change |
| DashboardPage.FullCompletionIsUpdate | app/dashboard/page.tsx:200-208 | a completion that creates no new record gives the same list as editing the listing to the updated row |
| DashboardPage.ViewAndPageCompleteAlike | components/ListingsView.tsx:54-58 | the list view's completion handler builds the same list as the dashboard page's |
| DashboardComponent.FilteredListings | components/Dashboard.tsx:213-240 | an ordered sub-list whose ownership matches the tab, whose attribute and status filters hold, each with its distance; every admitted listing appears |
| DashboardComponent.TabsPartition | components/Dashboard.tsx:215-216 | without filters the two tabs split the listings: the counts add up and no listing is on both |
| DashboardComponent.CompleteListing | components/Dashboard.tsx:171-175 | the completed listing gets status "completed", the moved quantity and the recipient; others unchanged |
| DashboardComponent.CompletedListingLeavesActiveFilter | components/Dashboard.tsx:157-191 | after completion the listing no longer shows under the "active" status filter |
| QuantityRange.ParseRange | app/dashboard/page.tsx:261 | the minimum is `Number` of the text before the first dash; without a dash there is no maximum |
| QuantityRange.RangeIsInclusive | app/dashboard/page.tsx:260-267 | a range "a-b" with b > 0 keeps exactly the quantities from a to b inclusive |
| QuantityRange.ClientKeeps | app/dashboard/page.tsx:260-267 | the dashboard's quantity test; its meaning for "a-b" and for a bare "a" is stated by RangeIsInclusive and BareNumberIsStrict |
| QuantityRange.BoundsOfPair | app/dashboard/page.tsx:261 | "a-b" parses to the bounds a and b |
| QuantityRange.BareNumberIsStrict | app/dashboard/page.tsx:264-266 | a bare number "a" keeps exactly the quantities strictly above a |
| QuantityRange.PlusSuffixKeepsAll | app/dashboard/page.tsx:260-267 | "a+" parses to NaN bounds, so no quantity is rejected |
| LegacyListings.MyListings | components/MyListings.tsx:32-37 | an ordered sub-list whose members have the chosen status, meet the minimum quantity, material and distance filters (a missing distance counts as 0); every such listing appears |
| LegacyListings.AvailableListings | components/AvailableListings.tsx:19-24 | an ordered sub-list of other sellers' listings meeting the filters: each shown listing has the chosen material (or "all" is chosen) and lies within the maximum distance; every listing meeting the filters appears |
| LegacyListings.MissingDistancePasses | components/MyListings.tsx:25-30 | with the initial filters a listing without a distance is not excluded by distance |
| LegacyListings.UnparsedMinimumHidesAll | components/AvailableListings.tsx:22 | a NaN minimum quantity hides every listing from both views |
| LegacyListings.MyListingsOfOthersAreAvailable | components/MyListings.tsx:32-37 | when no listing is the user's own, what the my-listings filter keeps is a sub-list of the available view |
| ListingList.FormatPhoneNumber | components/ListingList.tsx:49-56 | ten digits give `ddd-ddd-dddd` made of exactly those digits in order; anything else is returned unchanged |
| ListingList.FormatKeepsDigits | components/ListingList.tsx:49-56 | formatting never changes the digits of a number |
| ListingList.FormatIdempotent | components/ListingList.tsx:49-56 | formatting a formatted number changes nothing |
| ListingList.DigitsOfDashed | components/ListingList.tsx:50 | stripping non-digits from dash-joined digit groups gives the groups concatenated |
| ListingList.ColorScheme | components/ListingList.tsx:34-47 | unknown material kinds get the default scheme, soil gets the soil scheme |
| ListingList.ColorSchemeIgnoresCase | components/ListingList.tsx:35 | kinds that lower-case alike get the same scheme |
| ListingList.ColorSchemeOfLowered | components/ListingList.tsx:35 | lower-casing the kind first does not change the scheme |
| ListingList.ShownListings | components/ListingList.tsx:83-85 | the user tab shows exactly the non-deleted listings, the other tab exactly the active ones, in order |
| ListingList.AvailableWithinUserTab | components/ListingList.tsx:83-85 | what the available tab shows is a sub-list of what the user tab shows |
| ListViewItem.Actions | components/ListViewItem.tsx:117-157 | edit and complete are offered exactly on the owner's non-completed listings, inactivate exactly on the owner's active ones, details exactly on others' listings |
| ListViewItem.ActionsByOwnership | components/ListViewItem.tsx:117-157 | the action lists for a completed own listing, any available listing and an active own listing |
| ListViewItem.ToggleExpand | components/ListViewItem.tsx:60-62 | the expanded flag flips |
| ListViewItem.ToggleFlipsDetails | components/ListViewItem.tsx:138-160 | the button reads "Hide Details" exactly while the details are open, each press flips what it reads, and the contact block shows only on rows that offer the toggle |
| ListViewItem.ToggleLabel | components/ListViewItem.tsx:145-154 | the toggle button's text, one of the two labels; its link to the expanded flag is stated by ToggleFlipsDetails |
| ListViewItem.ShowsContact | components/ListViewItem.tsx:179-183 | the contact block's condition; that only rows with the toggle show it is stated by ToggleFlipsDetails |
| ListViewItem.StatusColor | components/ListViewItem.tsx:47-58 | every status other than active and completed gets the grey colour |
| ListViewItem.ColorDistinguishesStatus | components/ListViewItem.tsx:47-58 | two statuses get the same colour exactly when they are equal or neither is active nor completed |
| ListViewItem.StatusLabel | components/ListViewItem.tsx:100 | the label has the status's length, with the first letter upper-cased and the rest unchanged |
| ListViewItem.StatusLabelRoundTrip | components/ListViewItem.tsx:100 | lower-casing the first letter of the label gives back a lower-case status |
| ListViewItem.TransactionBadge | components/ListViewItem.tsx:84-98 | the badge reads "Import" exactly for import listings and "Export" otherwise |
| ListViewItem.BadgesExclusive | components/ListViewItem.tsx:78-110 | the moved badge and the traded-with line never show together |
| ListViewItem.ShowsMovedBadge | components/ListViewItem.tsx:78-82 | the moved badge's condition; its exclusion with the traded-with line is stated by BadgesExclusive |
| ListViewItem.ShowsTradedWith | components/ListViewItem.tsx:106-110 | the traded-with line's condition; see BadgesExclusive |
| ListingsView.StatusFiltered | components/ListingsView.tsx:41-45 | an ordered sub-list; "all" without completed-only is the whole list; completed-only and a chosen status constrain every result; every admitted listing appears |
| ListingsView.CompletedOnlyIsCompletedStatus | components/ListingsView.tsx:41-45 | completed-only with "all" shows what selecting "completed" shows; completed-only with another status shows nothing |
| ListingsView.TotalPages | components/ListingsView.tsx:47 | the least page count whose pages hold every listing; zero exactly for no listings |
| ListingsView.Page | components/ListingsView.tsx:48-50 | a page holds at most nine listings, is non-empty within range, empty past the end, and is the matching window of the list |
| ListingsView.PagesUpToIsPrefix | components/ListingsView.tsx:48-50 | the first k pages concatenated are the list's prefix of k pages |
| ListingsView.PagesCoverAll | components/ListingsView.tsx:47-50 | all pages concatenated give the whole list back |
| ListingsView.PaginationControls | components/ListingsView.tsx:149-166 | the controls show exactly with more than one page; previous is disabled exactly on page 1, next exactly on the last |
| ListingsView.NavigationStaysInRange | components/ListingsView.tsx:149-166 | navigating from a page in range stays in range; pages past the last one, which a status change can leave behind, are covered by StalePageAfterStatusChange |
| ListingsView.Navigate | components/ListingsView.tsx:149-166 | a pagination click: an enabled button moves one page, a disabled one does nothing; from a page in range it stays in range (NavigationStaysInRange), from a stale page past the last one Next keeps moving away (StalePageAfterStatusChange) |
| ListingsView.CompleteListing | components/ListingsView.tsx:54-58 | the list the handler evidently means to store: the completed listing is replaced, others are kept, a new remainder listing is appended; the dashboard page computes the same list |
| ListingsView.CompleteListingAsWritten | components/ListingsView.tsx:54-69 | the view keeps showing the list it was given; only the success toast, partial exactly when a new record was made, reflects the completion |
| ListingsView.CompletionNotShown | components/ListingsView.tsx:59-61 | after a completion the view still shows the listing as not completed, while the intended list shows it completed |
| ListingsView.ToastMatchesListGrowth | components/ListingsView.tsx:54-68 | the view's toast is the partial-completion text exactly when its intended list grows by one, and the full-completion text exactly when the length is unchanged |
| ListingsView.SelectStatusAsWritten | components/ListingsView.tsx:33-35 | choosing a status changes the selection and keeps the page number |
| ListingsView.StalePageAfterStatusChange | components/ListingsView.tsx:41-50 | after a status choice that leaves fewer pages than the page shown, that page is empty, Next stays enabled and moves further past the end, and Previous goes back one |
| ListingsView.StrandedOnEmptyPage | components/ListingsView.tsx:149-166 | on page 2, a choice that leaves one listing shows an empty page with the pagination controls hidden |
| ListingsView.SelectStatus | components/ListingsView.tsx:95 | the corrected choice: the selection changes and the page returns to the first |
| ListingsView.SelectStatusShowsListings | components/ListingsView.tsx:41-50 | after the corrected choice, whenever a listing passes the selection the page shown is non-empty and in range, and the buttons keep it in range |
| CompleteListingModal.ResetForm | components/CompleteListingModal.tsx:67-75 | the quantity field parses back to the listing's quantity; company and error are cleared |
| CompleteListingModal.HandleComplete | components/CompleteListingModal.tsx:77-99 | a missing company, quantity or listing does nothing; an unparsable or non-positive quantity and a quantity above the listing's are rejected with their messages; otherwise the listing, quantity and company are sent |
| CompleteListingModal.ErrorAfter | components/CompleteListingModal.tsx:77-99 | a rejection shows its message, a send clears the error, missing input keeps the old error |
| CompleteListingModal.ResetThenCompleteMovesEverything | components/CompleteListingModal.tsx:67-99 | after a reset and a chosen company, completing moves the listing's whole quantity |
| CompleteListingModal.SuccessMessage | components/CompleteListingModal.tsx:117-127 | the partial-completion message shows exactly when a remainder listing was created |
| CreateListingModal.SimplifyAddress | components/CreateListingModal.tsx:42-44 | a trailing ", United States" is removed and nothing else changes |
| CreateListingModal.SimplifyRoundTrip | components/CreateListingModal.tsx:42-44 | simplifying an address with the suffix appended gives the address back |
| CreateListingModal.InitialDraft | components/CreateListingModal.tsx:22-32 | the company defaults to the user's company or empty; material, quantity and position start empty |
| CreateListingModal.ListingToCreate | components/CreateListingModal.tsx:53-64 | the new listing carries the simplified address, the picked position or none, the user's contact fields, the company fallback and the draft's fields |
| CreateListingModal.MeasurementAfterMaterial | components/CreateListingModal.tsx:146-152 | topsoil fixes cubic yards, structural fill fixes tons, other materials keep the measurement |
| CreateListingModal.LockedMeasurementIsFixed | components/CreateListingModal.tsx:146-152 | for the two locking materials the measurement does not depend on the previous one |
| CreateListingModal.MeasurementLocked | components/CreateListingModal.tsx:247 | the measurement selector is disabled for topsoil and structural fill; that the measurement is then fixed is stated by LockedMeasurementIsFixed |
| CreateListingModal.HandleAddressChange | components/CreateListingModal.tsx:92-102 | the address is taken; a picked position is stored in both the state and the draft; no position changes neither |
| CreateListingModal.PickThenCreate | components/CreateListingModal.tsx:53-102 | picking an address and creating gives a listing at the picked position with the simplified address |
| EditListingModal.LoadFetched | components/EditListingModal.tsx:61-98 | the fetched listing is shown and any earlier error is cleared; a position is kept exactly when both coordinates are truthy |
| EditListingModal.OpenWithoutListing | components/EditListingModal.tsx:90-92 | opening without a listing shows the no-listing error and changes nothing else |
| EditListingModal.LoadClearsOpenError | components/EditListingModal.tsx:61-92 | opening without a listing and then loading one leaves no error shown |
| EditListingModal.HandleSubmit | components/EditListingModal.tsx:104-123 | no listing or no id gives the error message; otherwise the listing with the simplified address and the picked position (or none) and nothing else changed |
| EditListingModal.HandleAddressChange | components/EditListingModal.tsx:150-164 | the address is taken; a picked position moves both the state and the listing; none changes neither |
| EditListingModal.ChangeThenSubmit | components/EditListingModal.tsx:104-164 | typing an address and submitting sends an update with the simplified address and, when one was picked, the picked position |
| EditListingModal.LoadThenSubmit | components/EditListingModal.tsx:61-123 | loading and submitting unchanged writes back the same position with the simplified address, or no position when a coordinate is falsy |
| EditListingModal.HandleMapClick | components/EditListingModal.tsx:320-335 | a click moves the listing to the clicked position and takes the reverse-geocoded address when there is one; nothing else changes |
| EditListingModal.HandleSave | components/EditListingModal.tsx:290-295 | the edited listing is handed over and the dialog closes |
| EditListingModal.HandleAddressSelect | components/EditListingModal.tsx:297-318 | the selected address is taken at once; a geocoded position replaces the coordinates; nothing else changes |
| EditListingModal.SelectThenSave | components/EditListingModal.tsx:290-318 | selecting an address and saving hands over the listing with that address and the geocoded position, if any |
| EditListingModal.ClickThenSave | components/EditListingModal.tsx:290-335 | clicking and saving hands over the listing at the clicked position with the reverse-geocoded address, if any |
| AnalyticsPartners.CountStatuses | components/AnalyticsDashboard.tsx:15-17 | the total is the number of listings; active and completed are the counts of those statuses and never exceed it |
| AnalyticsPartners.PartnerCountsAreTallies | components/AnalyticsDashboard.tsx:20-28 | the tally has one row per named partner and each row's count is the number of listings with that partner |
| AnalyticsPartners.PartnerCounts | components/AnalyticsDashboard.tsx:20-28 | the per-partner tally; its rows are stated by PartnerCountsAreTallies |
| AnalyticsPartners.BumpCount | components/AnalyticsDashboard.tsx:23 | one increment adds one to that partner's count and nothing to others |
| AnalyticsPartners.BumpDistinct | components/AnalyticsDashboard.tsx:23 | incrementing keeps partner names distinct |
| AnalyticsPartners.SortByCount | components/AnalyticsDashboard.tsx:31 | sorting gives a permutation ordered by descending count, with the same distinct names |
| AnalyticsPartners.TopPartners | components/AnalyticsDashboard.tsx:19-34 | at most three rows, in descending count, each the true count of a distinct named partner; any partner left out has no more transactions than the third |
| AnalyticsPartners.ChartLabel | components/AnalyticsDashboard.tsx:37 | names up to ten characters are shown whole; longer ones as their first ten characters followed by "..." |
| AnalyticsPartners.PartnerChartData | components/AnalyticsDashboard.tsx:36-39 | one bar per top partner, with its count and its shortened label |
| AnalyticsMonthly.MonthlyBucketsAreSums | components/AnalyticsDashboard.tsx:43-53 | each month bucket holds, per material, the quantity moved by completed listings of that month; its total is the month's sum; months are distinct and are exactly the months of completed listings |
| AnalyticsMonthly.MonthlyBuckets | components/AnalyticsDashboard.tsx:43-53 | the month-by-material tally of completed listings; what it holds is stated by MonthlyBucketsAreSums |
| AnalyticsMonthly.AddToMonthSpec | components/AnalyticsDashboard.tsx:47-51 | adding an amount changes only that month's materials and keeps months distinct |
| AnalyticsMonthly.AddAmountSpec | components/AnalyticsDashboard.tsx:50-51 | adding an amount changes only that material and the total by the amount |
| AnalyticsMonthly.SortByDate | components/AnalyticsDashboard.tsx:62 | a permutation of the month entries in date order |
| AnalyticsMonthly.MonthlyChartOrdered | components/AnalyticsDashboard.tsx:56-63 | at most twelve entries, strictly increasing by date |
| AnalyticsMonthly.MonthlyChartFigures | components/AnalyticsDashboard.tsx:56-61 | each entry's total and per-material amounts are the sums of the completed listings of that month, and the month occurs in the data |
| AnalyticsMonthly.MonthlyMaterialMoved | components/AnalyticsDashboard.tsx:56-63 | the chart entries; their order and length are stated by MonthlyChartOrdered, their figures by MonthlyChartFigures |
| AnalyticsMonthly.MonthlyChartKeepsLatest | components/AnalyticsDashboard.tsx:62-63 | a month with a completed listing appears unless twelve later months fill the chart |
| AnalyticsMonthly.ChartIsSuffix | components/AnalyticsDashboard.tsx:63 | the chart is the last twelve entries of the sorted list |
| AnalyticsMonthly.TotalMaterialMoved | components/AnalyticsDashboard.tsx:66-68 | the total is the moved quantity summed over all listings, missing amounts counting zero; see TotalSplitsByStatus |
| AnalyticsMonthly.MovedWhereSplit | components/AnalyticsDashboard.tsx:66-68 | splitting the listings by a test and its negation splits the total into the two partial sums |
| AnalyticsMonthly.TotalSplitsByStatus | components/AnalyticsDashboard.tsx:66-68 | the total moved is the amount moved by completed listings plus the amount moved by all others, so it counts non-completed listings too |
| FilterOptions.HandleChange | components/FilterOptions.tsx:16-18 | the changed filter takes the new value and every other filter is kept |
| FilterOptions.HandleChangeIdempotent | components/FilterOptions.tsx:16-18 | repeating the same change changes nothing |
| FilterOptions.HandleFilterChange | components/FilterOptions.tsx:112-116 | the key takes the value, other keys are kept, and the parent hears exactly that one change |
| FilterOptions.ChangeKeepsParentInStep | components/FilterOptions.tsx:112-116 | replaying the reported change on the old filters gives the panel's new filters |
| FilterOptions.HandleClearFilters | components/FilterOptions.tsx:118-128 | the cleared filters are distance 10, material and quantity "all", and status "all" unless disabled; the parent hears each of them and then the clear |
| FilterOptions.ClearResetsParent | components/FilterOptions.tsx:118-128 | replaying the reported changes on the parent's filters sets every cleared key |
| ClassNames.Kept | lib/utils.ts:1-3 | the kept names are non-empty, their number is the number of truthy arguments, and re-wrapped they are an ordered sub-list of the arguments: nothing is invented or reordered |
| ClassNames.KeptCons | lib/utils.ts:1-3 | the names kept from a list are the first argument's name when it is truthy, followed by those kept from the rest |
| ClassNames.CnOfFalsy | lib/utils.ts:1-3 | only falsy arguments give the empty string |
| ClassNames.CnSplitsBack | lib/utils.ts:1-3 | splitting the result on spaces gives back the kept names when no name holds a space |
| ClassNames.CnOfOne | lib/utils.ts:1-3 | one non-empty name is returned unchanged |
| ApiListings.GetListing | app/api/listings/route.ts:6-23 | a listing is returned exactly when exactly one row has the id; it is that row |
| ApiListings.GetListingFindsUniqueId | app/api/listings/route.ts:11 | with unique ids, asking for a row's id returns that row |
| ApiListings.UniqueIdFilter | app/api/listings/route.ts:11 | with unique ids, selecting by a row's id gives exactly that row |
| ApiListings.CompleteListing | app/api/listings/route.ts:25-64 | an unparsable or null body is a server error, a missing id is 400, no user is 401; otherwise the RPC gets the id, quantity moved and partner company and its answer is returned |
| ApiListings.PatchCallsProcedureOnlyWhenAllowed | app/api/listings/route.ts:25-64 | the procedure is called exactly when the body is readable, the id present and a user signed in; 200 is answered exactly when it then returns data |
| ApiListings.PatchReadsOnlyTwoFields | app/api/listings/route.ts:27 | two readable bodies that agree on quantity moved and partner company give the same outcome |
| ApiListings.ParseFloatValue | app/api/listings/route.ts:132-134 | numbers are kept, strings go through `parseFloat`, every other value is NaN |
| ApiListings.MissingFieldsOf | app/api/listings/route.ts:101-107 | the missing fields are listed in declaration order, and a field is listed exactly when it is absent from the body |
| ApiListings.NonObjectBodyMissesAll | app/api/listings/route.ts:101-107 | a truthy body that is not an object misses every field |
| ApiListings.CreateListing | app/api/listings/route.ts:70-158 | no session is 401, invalid JSON and an empty body are 400, missing fields are 400 and listed; a complete body is created with the parsed numbers, the owner, "New" and "ACTIVE" exactly when the store accepts it |
| ApiListings.Chosen | app/api/listings/nearby/route.ts:40-42 | a filter applies exactly when its value is present, non-empty and not "all" |
| ApiListings.QuantityClause | app/api/listings/nearby/route.ts:44-51 | no chosen quantity gives no clause; a truthy maximum gives an inclusive range; otherwise an at-least clause on the minimum |
| ApiListings.FindMany | app/api/listings/nearby/route.ts:53-66 | the rows returned are an ordered sub-list of the table, all match the clause, and every matching row is returned |
| ApiListings.NearbyWhere | app/api/listings/nearby/route.ts:35-51 | others' listings only; status "ACTIVE" only when asked; material and quantity from the parameters |
| ApiListings.AddDistance | app/api/listings/nearby/route.ts:68-79 | each row is paired with its distance from the user's home position |
| ApiListings.Nearby | app/api/listings/nearby/route.ts:10-88 | 401 without a session, 404 without the user's zip, 400 when the zip does not geocode; otherwise only matching others' listings within the cutoff, with their distances, and every such listing |
| ApiListings.NoCutoffKeepsAll | app/api/listings/nearby/route.ts:83-86 | without a distance cutoff every matched listing is returned |
| ApiListings.UnparsedCutoffKeepsNothing | app/api/listings/nearby/route.ts:83-86 | a cutoff that does not parse as an integer removes every listing |
| ApiListings.ServerAndClientQuantity | app/api/listings/nearby/route.ts:44-51 | the route and the dashboard agree on "a-b", but on a bare "a" the route keeps quantities of at least a and the dashboard only those above a |
| ApiListings.UserWhere | app/api/listings/user/route.ts:19-38 | the user's own listings, with the chosen status, material and quantity |
| ApiListings.UserListings | app/api/listings/user/route.ts:9-53 | 401 without a session; otherwise only the user's listings, with the chosen status |
| ApiListings.UserAndNearbyDisjoint | app/api/listings/user/route.ts:19-21 | no row matches both the user-listings and the nearby clause |
| ApiSignup.Trunc | app/api/signup/route.ts:30-31 | truncation toward zero, as `parseInt` applies to a number |
| ApiSignup.ParseIntValue | app/api/signup/route.ts:30-31 | strings go through `parseInt`, numbers are truncated, bigints are kept, other values are NaN |
| ApiSignup.Signup | app/api/signup/route.ts:17-86 | a body that does not parse or is null is 500 with no effect; a missing field 400, an unparsable zip 400, a taken e-mail 400; otherwise one user is appended with the parsed zip and the hashed password, and only public fields are answered |
| ApiSignup.SecondSignupFails | app/api/signup/route.ts:38-47 | signing up twice with the same body fails the second time |
| ApiSignup.SignupKeepsEmailsDistinct | app/api/signup/route.ts:38-64 | distinct e-mails stay distinct after a sign-up |
| ApiSignup.DigitZipIsStored | app/api/signup/route.ts:30-35 | a zip given as a decimal string is stored as that number |
| ApiSignup.ReplacerRemovesBigInt | app/api/signup/route.ts:7-15 | after the replacer no bigint remains at any depth |
| ApiSignup.ReplacerKeepsPlain | app/api/signup/route.ts:7-15 | the replacer leaves values without bigints unchanged |
| ApiSignup.Stringify | app/api/signup/route.ts:7-15 | stringification throws exactly when a bigint is present, and gives no text exactly for `undefined` |
| ApiSignup.SafeStringify | app/api/signup/route.ts:7-15 | never throws, and renders a bigint as its quoted decimal text; the fallback text carries the error message |
| ApiSignup.SafeStringifyOfPlain | app/api/signup/route.ts:7-15 | without bigints the result is plain stringification; with them plain stringification would throw but this does not |
| ApiUsers.ProfileFor | app/api/users/route.ts:47-62 | the profile row is keyed by the new auth user's id and carries the body's e-mail |
| ApiUsers.CreateUser | app/api/users/route.ts:13-83 | a body that does not parse or is null is 500 with no effect; otherwise the auth user is created first; its failure or absence is 400; a profile is then inserted, and 201 is answered exactly when the insert returns a row, otherwise the auth user is deleted and 500 answered |
| ApiUsers.NoOrphanedAuthUser | app/api/users/route.ts:64-77 | 201 is answered exactly when the profile row for the new user was inserted and its auth user was not deleted |
| SignUpForm.IsValidEmail | components/SignUpForm.tsx:26-29 | the pattern accepts exactly a non-empty local part of allowed characters, one "@", and a domain of allowed characters and single dots that neither starts nor ends with a dot |
| SignUpForm.ValidEmailIsShaped | components/SignUpForm.tsx:26-29 | the character-by-character matcher ends accepting exactly on the addresses of that shape |
| SignUpForm.LocalRun | components/SignUpForm.tsx:26-29 | from inside the local part, the matcher accepts exactly when the rest splits into more local part, "@" and a valid domain |
| SignUpForm.DomainRun | components/SignUpForm.tsx:26-29 | from the start or inside of the domain, the matcher accepts exactly a valid domain |
| SignUpForm.InitialForm | components/SignUpForm.tsx:33-43 | eight fields start empty, the contact preference starts as "Email", no error and not loading |
| SignUpForm.InitialFormIsRefused | components/SignUpForm.tsx:33-81 | submitting the untouched form is refused with the invalid-address message and posts nothing |
| SignUpForm.HandleChange | components/SignUpForm.tsx:47-53 | the field takes the value and others are kept; for the e-mail the error is cleared exactly when the address is valid |
| SignUpForm.HandleSelect | components/SignUpForm.tsx:55-61 | the selected field takes the value; nothing else changes |
| SignUpForm.HandleSubmit | components/SignUpForm.tsx:63-81 | an invalid e-mail is refused with the message; otherwise the form data is posted with loading set |
| SignUpForm.HandleResponse | components/SignUpForm.tsx:85-97 | a success response leaves the page; a failure stays, stops loading and shows the server's error or the fallback message |
| SignUpForm.TypedAddressIsPosted | components/SignUpForm.tsx:47-81 | typing a valid address and submitting posts that address |
| SignUpForm.InvalidAddressIsNotPosted | components/SignUpForm.tsx:47-72 | typing an address of the wrong shape and submitting posts nothing |
| JsNumber.ParseIntOfIntToString | app/api/signup/route.ts:30 | `parseInt` of an integer's decimal rendering gives the integer back |
| JsNumber.NumberOfNatToString | app/dashboard/page.tsx:261 | `Number` of a natural number's decimal rendering gives the number back |
| JsNumber.NumberOfTrailingJunk | app/dashboard/page.tsx:261 | `Number` of digits followed by another character is NaN |
| Json.Put | components/SignUpForm.tsx:47-53 | after spreading a new key into an object, that key reads the new value and all others read as before |

## Left out

- The haversine distance in `lib/utils.ts` is the parameter `DistanceFn`; floating-point trigonometry is not
  modelled.
- Geocoding is not modelled. Zip-code lookup, forward geocoding of an address and reverse geocoding on a map click
  call Mapbox over the network; their answers are parameters (`home`, `picked`, `geocoded`, `reverse`).
- The database, authentication and password hashing are not modelled:
  - Prisma, Supabase and bcrypt are replaced by row sequences, answer datatypes and the `hash` parameter;
  - `findMany` returns rows in table order;
  - a NaN bound in a Prisma clause admits no row.
- Dates and locale are not modelled. The month of a timestamp is the parameter `monthOf`; `localeCompare` is taken
  as code-unit order, which agrees with it on `YYYY-MM` keys.
- React plumbing is not modelled: effects, timers, toasts, routing and modal open/close flags beyond those listed,
  and console logging.
- The JavaScript number grammar is restricted. `Number`, `parseFloat` and `parseInt` accept a sign, digits, and an
  optional fraction; exponents, surrounding whitespace, hexadecimal and `Infinity` are not modelled. An array passed
  to them is taken as NaN.
- `Object.entries` lists integer-like keys first; the partner and month tallies keep insertion order instead.
- In the monthly chart, a material named "date" or "total" would overwrite those entry fields. The model keeps the
  materials apart.
- The `../types` module is not part of this model. The listing records are written out in `listing.dfy`,
  `store_listing.dfy` and `legacy_listings.dfy`.
- The catch-all 500 paths and error texts are only partly modelled:
  - 500 paths other than an unparsable body are not modelled;
  - the Supabase error messages of the GET and PATCH routes are not modelled, and the GET route's `single()` failure
    is one outcome;
  - the sign-up form takes a non-string `error` value in a response as the fallback case.
- Listings.Listing, StoreListings.StoreListing and LegacyListings.LegacyListing: listing quantities and moved quantities are whole
  numbers (`int`), while the source stores what `parseFloat` gives. The completion dialog accepts a fractional
  amount such as 2.5 (CompleteListingModal.HandleComplete sends it as a `real`), but DashboardComponent.CompleteListing
  and the listing records cannot hold it, and the rows the listing routes return hold whole quantities although
  ApiListings.CreateListing parses them as reals. Every property stated holds for whole quantities.
- DashboardComponent.CompleteListing: the moved quantity is a whole number, so a fractional amount cannot be recorded.
- CompleteListingModal.ResetForm: renders a whole-number quantity; the rendering of a fractional one is not modelled.
- ApiSignup.Stringify: string escaping and number formatting are not modelled; numbers are rendered by the
  parameter `numText`. Values are acyclic trees
  with no `toJSON` methods or getters, so the only throw modelled is the one on a bigint; `JSON.stringify` also
  throws on a cyclic object, which `safeStringify` can receive as a caught error and then renders with its
  fallback text.
- ApiSignup.ParseIntValue: a number whose `String` form uses an exponent is taken at its truncated value, which
  `parseInt` would not give.
- AnalyticsPartners.PartnerCounts and AnalyticsMonthly.MonthlyBuckets: partner and material names are assumed not
  to be keys of `Object.prototype`. In the source the tallies are plain objects, so a name such as "constructor"
  or "toString" reads an inherited function and its count becomes text, and "__proto__" is never stored; the
  tallies, PartnerCountsAreTallies, TopPartners and the monthly figures hold for every other name.
- AnalyticsPartners.ChartLabel: states the two cases of the label but not the converse; a ten-character prefix
  followed by "..." is also what a thirteen-character name ending in "..." shows. Length and prefix count
  characters, so a character outside the Basic Multilingual Plane counts once here but as two UTF-16 code units
  in `slice` and `length`: "ABCDEFGHI" followed by one such character is shown whole here, while the source cuts
  it after a lone surrogate and adds "...".
- FilterOptions.HandleChange: the HEAD branch's slider and number inputs are taken as already-converted values.
- JsText.ToLower, JsText.ToUpper, JsText.LowerChar and JsText.UpperChar: map only the ASCII letters; `toUpperCase` and `toLowerCase` also map
  letters outside ASCII, which the model leaves unchanged.
- CompleteListingModal.HandleComplete: the network call that follows a send is left to the dashboard members.

## Findings

| source | as written | input that shows it | evidently intended | confidence | as-written member | corrected member |
|---|---|---|---|---|---|---|
| components/ListingsView.tsx:54-69 | the completion handler builds the updated list but never stores it; the storing call is commented out and the list is a prop | one active listing completed in full: the view still shows it active | the view shows the updated list, as the dashboard page's handler does | medium, not executed; the commented-out call is marked as a placeholder | ListingsView.CompleteListingAsWritten, ListingsView.CompletionNotShown | ListingsView.CompleteListing, DashboardPage.ViewAndPageCompleteAlike |
| components/ListingsView.tsx:33-50 | the page number is kept when the status selection changes, so a selection with fewer pages leaves the view past its last page | on page 2, choosing a status that leaves one listing: an empty page, and with one page no controls to go back | the page returns to the first when the selection changes | medium, not executed | ListingsView.SelectStatusAsWritten, ListingsView.StrandedOnEmptyPage, ListingsView.StalePageAfterStatusChange | ListingsView.SelectStatus, ListingsView.SelectStatusShowsListings |

=== FILE: analytics_monthly.dfy ===
/** The analytics dashboard's monthly material chart and its "total material moved" figure. */
module AnalyticsMonthly {
  import opened JsText
  import opened Listings

  /** The calendar month of a creation timestamp, `YYYY-MM`; the date arithmetic is left to the caller. */
  type MonthOf = string -> string

  /** `listing.quantity_moved || 0`. */
  function Moved(l: Listing): int {
    if l.quantityMoved.Some? then l.quantityMoved.value else 0
  }

  predicate Completed(l: Listing) {
    l.status == "completed"
  }

  function InMonth(monthOf: MonthOf, month: string): Listing -> bool {
    (l: Listing) => Completed(l) && monthOf(l.createdAt) == month
  }

  function InMonthWith(monthOf: MonthOf, month: string, material: string): Listing -> bool {
    (l: Listing) => Completed(l) && monthOf(l.createdAt) == month && l.material == material
  }

  /** Reference definition: the quantity moved by the listings that satisfy `p`. */
  function MovedWhere(ls: seq<Listing>, p: Listing -> bool): int
    decreases |ls|
  {
    if ls == [] then 0
    else MovedWhere(ls[..|ls| - 1], p) + (if p(ls[|ls| - 1]) then Moved(ls[|ls| - 1]) else 0)
  }

  /** One material's amount within a month. */
  datatype MaterialAmount = MaterialAmount(material: string, amount: int)

  /** The amount recorded for `material`, 0 when it has no row. */
  function AmountOf(ms: seq<MaterialAmount>, material: string): int
    decreases |ms|
  {
    if ms == [] then 0 else if ms[0].material == material then ms[0].amount else AmountOf(ms[1..], material)
  }

  /** `Object.values(materials).reduce((sum, quantity) => sum + quantity, 0)`. */
  function SumAmounts(ms: seq<MaterialAmount>): int
    decreases |ms|
  {
    if ms == [] then 0 else ms[0].amount + SumAmounts(ms[1..])
  }

  /** `m[material] = (m[material] || 0) + amount`. */
  function AddAmount(ms: seq<MaterialAmount>, material: string, amount: int): seq<MaterialAmount>
    decreases |ms|
  {
    if ms == [] then [MaterialAmount(material, amount)]
    else if ms[0].material == material then [ms[0].(amount := ms[0].amount + amount)] + ms[1..]
    else [ms[0]] + AddAmount(ms[1..], material, amount)
  }

  /** Adding an amount to one material raises that material's figure and the month's sum by exactly that amount. */
  lemma {:induction false} AddAmountSpec(ms: seq<MaterialAmount>, material: string, amount: int)
    ensures forall m :: AmountOf(AddAmount(ms, material, amount), m) == AmountOf(ms, m) + (if m == material then amount else 0)
    ensures SumAmounts(AddAmount(ms, material, amount)) == SumAmounts(ms) + amount
    decreases |ms|
  {
    if ms != [] {
      var r := AddAmount(ms, material, amount);
      if ms[0].material == material {
        assert r[1..] == ms[1..];
      } else {
        AddAmountSpec(ms[1..], material, amount);
        assert r[1..] == AddAmount(ms[1..], material, amount);
      }
    }
  }

  /** One month of `monthlyData`. */
  datatype MonthBucket = MonthBucket(month: string, materials: seq<MaterialAmount>)

  /** The materials recorded for `month`, empty when it has no bucket. */
  function MaterialsOf(bs: seq<MonthBucket>, month: string): seq<MaterialAmount>
    decreases |bs|
  {
    if bs == [] then [] else if bs[0].month == month then bs[0].materials else MaterialsOf(bs[1..], month)
  }

  function Months(bs: seq<MonthBucket>): set<string> {
    set b | b in bs :: b.month
  }

  predicate DistinctMonths(bs: seq<MonthBucket>) {
    forall i, j :: 0 <= i < j < |bs| ==> bs[i].month != bs[j].month
  }

  /** `monthlyData[month] ||= {}` followed by adding `amount` to `material` in it. */
  function AddToMonth(bs: seq<MonthBucket>, month: string, material: string, amount: int): seq<MonthBucket>
    decreases |bs|
  {
    if bs == [] then [MonthBucket(month, AddAmount([], material, amount))]
    else if bs[0].month == month then [bs[0].(materials := AddAmount(bs[0].materials, material, amount))] + bs[1..]
    else [bs[0]] + AddToMonth(bs[1..], month, material, amount)
  }

  lemma MonthsCons(b: MonthBucket, bs: seq<MonthBucket>)
    ensures Months([b] + bs) == {b.month} + Months(bs)
  {
    assert forall x :: x in [b] + bs <==> x == b || x in bs;
  }

  lemma DistinctMonthsCons(b: MonthBucket, bs: seq<MonthBucket>)
    ensures DistinctMonths([b] + bs) <==> b.month !in Months(bs) && DistinctMonths(bs)
  {
    var u := [b] + bs;
    if b.month in Months(bs) {
      var x :| x in bs && x.month == b.month;
      var k :| 0 <= k < |bs| && bs[k] == x;
      assert u[0].month == u[k + 1].month;
    }
    if DistinctMonths(u) {
      forall i, j | 0 <= i < j < |bs| ensures bs[i].month != bs[j].month {
        assert bs[i] == u[i + 1] && bs[j] == u[j + 1];
      }
    }
    if b.month !in Months(bs) && DistinctMonths(bs) {
      forall i, j | 0 <= i < j < |u| ensures u[i].month != u[j].month {
        assert u[j] == bs[j - 1] && u[j] in bs;
        if i > 0 {
          assert u[i] == bs[i - 1];
        }
      }
    }
  }

  /** Adding to a month changes only that month's materials, and adds the month if it was new. */
  lemma {:induction false} AddToMonthSpec(bs: seq<MonthBucket>, month: string, material: string, amount: int)
    ensures forall m :: (MaterialsOf(AddToMonth(bs, month, material, amount), m)
      == if m == month then AddAmount(MaterialsOf(bs, month), material, amount) else MaterialsOf(bs, m))
    ensures Months(AddToMonth(bs, month, material, amount)) == Months(bs) + {month}
    ensures DistinctMonths(bs) ==> DistinctMonths(AddToMonth(bs, month, material, amount))
    decreases |bs|
  {
    var r := AddToMonth(bs, month, material, amount);
    if bs == [] {
      MonthsCons(r[0], []);
      assert r == [r[0]] + [];
    } else {
      assert bs == [bs[0]] + bs[1..];
      MonthsCons(bs[0], bs[1..]);
      DistinctMonthsCons(bs[0], bs[1..]);
      MonthsCons(r[0], r[1..]);
      DistinctMonthsCons(r[0], r[1..]);
      assert r == [r[0]] + r[1..];
      if bs[0].month == month {
        assert r[1..] == bs[1..];
      } else {
        AddToMonthSpec(bs[1..], month, material, amount);
        assert r[1..] == AddToMonth(bs[1..], month, material, amount);
      }
    }
  }

  /** The `forEach` over listings: completed listings only, keyed by month and then material. */
  function MonthlyBuckets(monthOf: MonthOf, ls: seq<Listing>): seq<MonthBucket>
    decreases |ls|
  {
    if ls == [] then []
    else
      var acc := MonthlyBuckets(monthOf, ls[..|ls| - 1]);
      var l := ls[|ls| - 1];
      if Completed(l) then AddToMonth(acc, monthOf(l.createdAt), l.material, Moved(l)) else acc
  }

  /** Every figure in the buckets is the quantity moved by the completed listings of that month (and material);
      the months are distinct and are exactly those of completed listings. */
  lemma {:induction false} MonthlyBucketsAreSums(monthOf: MonthOf, ls: seq<Listing>)
    ensures forall month, material :: (AmountOf(MaterialsOf(MonthlyBuckets(monthOf, ls), month), material)
      == MovedWhere(ls, InMonthWith(monthOf, month, material)))
    ensures forall month :: (SumAmounts(MaterialsOf(MonthlyBuckets(monthOf, ls), month))
      == MovedWhere(ls, InMonth(monthOf, month)))
    ensures DistinctMonths(MonthlyBuckets(monthOf, ls))
    ensures Months(MonthlyBuckets(monthOf, ls)) == set l | l in ls && Completed(l) :: monthOf(l.createdAt)
    decreases |ls|
  {
    if ls != [] {
      var init := ls[..|ls| - 1];
      var l := ls[|ls| - 1];
      var acc := MonthlyBuckets(monthOf, init);
      MonthlyBucketsAreSums(monthOf, init);
      assert ls == init + [l];
      assert forall x :: x in ls <==> x in init || x == l;
      if Completed(l) {
        var month := monthOf(l.createdAt);
        AddToMonthSpec(acc, month, l.material, Moved(l));
        AddAmountSpec(MaterialsOf(acc, month), l.material, Moved(l));
      }
    }
  }

  /** One point of the chart: the month, its materials, and their total. */
  datatype MonthEntry = MonthEntry(date: string, materials: seq<MaterialAmount>, total: int)

  function ToEntry(b: MonthBucket): MonthEntry {
    MonthEntry(b.month, b.materials, SumAmounts(b.materials))
  }

  predicate SortedByDate(es: seq<MonthEntry>) {
    forall i, j :: 0 <= i < j < |es| ==> LexLe(es[i].date, es[j].date)
  }

  lemma SortedByDateCons(e: MonthEntry, es: seq<MonthEntry>)
    requires SortedByDate(es)
    requires forall y :: y in es ==> LexLe(e.date, y.date)
    ensures SortedByDate([e] + es)
  {
    var u := [e] + es;
    forall i, j | 0 <= i < j < |u| ensures LexLe(u[i].date, u[j].date) {
      assert u[j] == es[j - 1] && u[j] in es;
      if i > 0 {
        assert u[i] == es[i - 1];
      }
    }
  }

  /** Inserts an entry before the first entry that does not precede it. */
  function InsertByDate(x: MonthEntry, es: seq<MonthEntry>): (r: seq<MonthEntry>)
    requires SortedByDate(es)
    ensures SortedByDate(r)
    ensures multiset(r) == multiset(es) + multiset{x}
    decreases |es|
  {
    if es == [] || LexLe(x.date, es[0].date) then
      forall y | y in es ensures LexLe(x.date, y.date) {
        var k :| 0 <= k < |es| && es[k] == y;
        if k > 0 {
          LexLeTransitive(x.date, es[0].date, y.date);
        }
      }
      SortedByDateCons(x, es);
      [x] + es
    else
      LexLeTotal(x.date, es[0].date);
      var rest := InsertByDate(x, es[1..]);
      assert es == [es[0]] + es[1..];
      forall y | y in rest ensures LexLe(es[0].date, y.date) {
        assert y in multiset(rest);
      }
      SortedByDateCons(es[0], rest);
      [es[0]] + rest
  }

  /** `.sort((a, b) => a.date.localeCompare(b.date))`: a stable sort by date. */
  function SortByDate(es: seq<MonthEntry>): (r: seq<MonthEntry>)
    ensures SortedByDate(r)
    ensures multiset(r) == multiset(es) && |r| == |es|
    decreases |es|
  {
    if es == [] then []
    else
      assert es == [es[0]] + es[1..];
      var r := InsertByDate(es[0], SortByDate(es[1..]));
      assert |multiset(r)| == |multiset(es)|;
      r
  }

  /** `Object.entries(monthlyData).map(...)`: one entry per bucket, in the same order. */
  function Entries(bs: seq<MonthBucket>): (es: seq<MonthEntry>)
    ensures |es| == |bs|
    ensures forall i :: 0 <= i < |bs| ==> es[i] == ToEntry(bs[i])
  {
    seq(|bs|, i requires 0 <= i < |bs| => ToEntry(bs[i]))
  }

  /** `monthlyMaterialMoved`: buckets turned into entries, sorted by date, the last twelve kept. */
  function MonthlyMaterialMoved(monthOf: MonthOf, ls: seq<Listing>): seq<MonthEntry>
  {
    var s := SortByDate(Entries(MonthlyBuckets(monthOf, ls)));
    Slice(s, -12, |s|)
  }

  /** A month's bucket in a tally with distinct months holds that month's materials. */
  lemma {:induction false} MaterialsOfRow(bs: seq<MonthBucket>, i: nat)
    requires DistinctMonths(bs) && i < |bs|
    ensures MaterialsOf(bs, bs[i].month) == bs[i].materials
    decreases |bs|
  {
    if i > 0 {
      assert bs[0].month != bs[i].month;
      DistinctMonthsCons(bs[0], bs[1..]);
      assert bs == [bs[0]] + bs[1..];
      MaterialsOfRow(bs[1..], i - 1);
    }
  }

  /** A sorted entry is its month's bucket, with that month's materials. */
  lemma SortedEntryFacts(bs: seq<MonthBucket>, s: seq<MonthEntry>, k: nat)
    requires DistinctMonths(bs)
    requires multiset(s) == multiset(Entries(bs)) && k < |s|
    ensures s[k].date in Months(bs) && s[k].materials == MaterialsOf(bs, s[k].date)
    ensures s[k].total == SumAmounts(s[k].materials)
  {
    var es := Entries(bs);
    assert s[k] in multiset(es);
    var a :| 0 <= a < |es| && es[a] == s[k];
    assert bs[a] in bs;
    MaterialsOfRow(bs, a);
  }

  /** Sorting the entries of a tally with distinct months keeps each month once. */
  lemma SortedEntriesDistinct(bs: seq<MonthBucket>, s: seq<MonthEntry>, i: nat, j: nat)
    requires DistinctMonths(bs)
    requires multiset(s) == multiset(Entries(bs))
    requires i < j < |s|
    ensures s[i].date != s[j].date
  {
    var es := Entries(bs);
    if s[i].date == s[j].date {
      assert s[i] in multiset(es) && s[j] in multiset(es);
      var a :| 0 <= a < |es| && es[a] == s[i];
      var b :| 0 <= b < |es| && es[b] == s[j];
      assert a == b;
      TwiceInMultiset(s, i, j);
      EntryOnce(bs, es, a);
    }
  }

  /** Every month of the tally has a sorted entry. */
  lemma SortedEntriesCover(bs: seq<MonthBucket>, s: seq<MonthEntry>, month: string)
    requires multiset(s) == multiset(Entries(bs))
    requires month in Months(bs)
    ensures exists k :: 0 <= k < |s| && s[k].date == month
  {
    var es := Entries(bs);
    var b :| b in bs && b.month == month;
    var a :| 0 <= a < |bs| && bs[a] == b;
    assert es[a] in multiset(s);
    var k :| 0 <= k < |s| && s[k] == es[a];
  }

  /** The sorted entries, before the last twelve are taken. */
  function SortedChart(monthOf: MonthOf, ls: seq<Listing>): seq<MonthEntry> {
    SortByDate(Entries(MonthlyBuckets(monthOf, ls)))
  }

  lemma ChartIsSuffix(monthOf: MonthOf, ls: seq<Listing>)
    ensures var s := SortedChart(monthOf, ls);
      MonthlyMaterialMoved(monthOf, ls) == s[(if |s| <= 12 then 0 else |s| - 12)..]
  {
    SliceLast(SortedChart(monthOf, ls), 12);
  }

  /** The chart has at most twelve points, in strictly increasing month order. */
  lemma MonthlyChartOrdered(monthOf: MonthOf, ls: seq<Listing>)
    ensures var r := MonthlyMaterialMoved(monthOf, ls);
      && |r| <= 12
      && (forall i, j :: 0 <= i < j < |r| ==> LexLe(r[i].date, r[j].date) && r[i].date != r[j].date)
  {
    var s := SortedChart(monthOf, ls);
    MonthlyBucketsAreSums(monthOf, ls);
    ChartIsSuffix(monthOf, ls);
    var off := if |s| <= 12 then 0 else |s| - 12;
    var r := MonthlyMaterialMoved(monthOf, ls);
    forall i, j | 0 <= i < j < |r| ensures LexLe(r[i].date, r[j].date) && r[i].date != r[j].date {
      assert r[i] == s[off + i] && r[j] == s[off + j];
      SortedEntriesDistinct(MonthlyBuckets(monthOf, ls), s, off + i, off + j);
    }
  }

  /** Each point's total and per-material figures are what its month's completed listings moved,
      and each point's month has a completed listing. */
  lemma MonthlyChartFigures(monthOf: MonthOf, ls: seq<Listing>, i: nat)
    requires i < |MonthlyMaterialMoved(monthOf, ls)|
    ensures var e := MonthlyMaterialMoved(monthOf, ls)[i];
      && e.total == MovedWhere(ls, InMonth(monthOf, e.date))
      && (forall material :: AmountOf(e.materials, material) == MovedWhere(ls, InMonthWith(monthOf, e.date, material)))
      && (exists l :: l in ls && Completed(l) && monthOf(l.createdAt) == e.date)
  {
    var s := SortedChart(monthOf, ls);
    MonthlyBucketsAreSums(monthOf, ls);
    ChartIsSuffix(monthOf, ls);
    var off := if |s| <= 12 then 0 else |s| - 12;
    assert MonthlyMaterialMoved(monthOf, ls)[i] == s[off + i];
    SortedEntryFacts(MonthlyBuckets(monthOf, ls), s, off + i);
  }

  /** Every month with a completed listing is shown, or the chart is full and the month is older than every
      point shown. */
  lemma MonthlyChartKeepsLatest(monthOf: MonthOf, ls: seq<Listing>, l: Listing)
    requires l in ls && Completed(l)
    ensures var r := MonthlyMaterialMoved(monthOf, ls);
      (exists i :: 0 <= i < |r| && r[i].date == monthOf(l.createdAt))
      || (|r| == 12 && LexLe(monthOf(l.createdAt), r[0].date) && monthOf(l.createdAt) != r[0].date)
  {
    var s := SortedChart(monthOf, ls);
    var bs := MonthlyBuckets(monthOf, ls);
    MonthlyBucketsAreSums(monthOf, ls);
    ChartIsSuffix(monthOf, ls);
    var off := if |s| <= 12 then 0 else |s| - 12;
    var r := MonthlyMaterialMoved(monthOf, ls);
    var month := monthOf(l.createdAt);
    assert month in Months(bs);
    SortedEntriesCover(bs, s, month);
    var j :| 0 <= j < |s| && s[j].date == month;
    if j >= off {
      assert r[j - off] == s[j];
    } else {
      assert r[0] == s[off];
      SortedEntriesDistinct(bs, s, j, off);
    }
  }

  lemma TwiceInMultiset<T>(s: seq<T>, i: nat, j: nat)
    requires i < j < |s| && s[i] == s[j]
    ensures multiset(s)[s[i]] >= 2
  {
    assert s == s[..i] + [s[i]] + s[i + 1..j] + [s[j]] + s[j + 1..];
  }

  lemma EntryOnce(bs: seq<MonthBucket>, es: seq<MonthEntry>, a: nat)
    requires DistinctMonths(bs) && |es| == |bs| && a < |es|
    requires forall i :: 0 <= i < |bs| ==> es[i] == ToEntry(bs[i])
    ensures multiset(es)[es[a]] == 1
  {
    assert es == es[..a] + [es[a]] + es[a + 1..];
    assert es[a] !in es[..a];
    assert es[a] !in es[a + 1..];
  }

  /** `totalMaterialMoved`: the quantity moved over every listing, whatever its status. */
  function TotalMaterialMoved(ls: seq<Listing>): (total: int)
    ensures total == MovedWhere(ls, (l: Listing) => true)
    decreases |ls|
  {
    if ls == [] then 0 else TotalMaterialMoved(ls[..|ls| - 1]) + Moved(ls[|ls| - 1])
  }

  function CompletedFn(): Listing -> bool {
    (l: Listing) => Completed(l)
  }

  function NotCompletedFn(): Listing -> bool {
    (l: Listing) => !Completed(l)
  }

  /** Two complementary tests split the quantity moved between them. */
  lemma {:induction false} MovedWhereSplit(ls: seq<Listing>, p: Listing -> bool, q: Listing -> bool)
    requires forall l :: p(l) == !q(l)
    ensures MovedWhere(ls, (l: Listing) => true) == MovedWhere(ls, p) + MovedWhere(ls, q)
    decreases |ls|
  {
    if ls != [] {
      MovedWhereSplit(ls[..|ls| - 1], p, q);
    }
  }

  /**
   * The total counts every listing, not only completed ones: it is the completed listings' quantity, which the
   * monthly chart is built from, plus whatever the other listings record as moved.
   */
  lemma TotalSplitsByStatus(ls: seq<Listing>)
    ensures TotalMaterialMoved(ls) == MovedWhere(ls, CompletedFn()) + MovedWhere(ls, NotCompletedFn())
  {
    MovedWhereSplit(ls, CompletedFn(), NotCompletedFn());
  }
}

=== FILE: analytics_partners.dfy ===
/** The analytics dashboard's status counts, partner tallies, top-three partners and chart labels. */
module AnalyticsPartners {
  import opened Wrappers
  import opened Seqs
  import opened Listings

  datatype StatusCounts = StatusCounts(total: nat, active: nat, completed: nat)

  function StatusIs(status: string): Listing -> bool {
    (l: Listing) => l.status == status
  }

  /** The three headline counts: all listings, active ones, completed ones. */
  function CountStatuses(ls: seq<Listing>): (c: StatusCounts)
    ensures c.total == |ls|
    ensures c.active == |Filter(ls, StatusIs("active"))|
    ensures c.completed == |Filter(ls, StatusIs("completed"))|
    ensures c.active + c.completed <= c.total
  {
    FilterLength(ls, StatusIs("active"));
    FilterLength(ls, StatusIs("completed"));
    CountDisjoint(ls, StatusIs("active"), StatusIs("completed"));
    StatusCounts(|ls|, Count(ls, StatusIs("active")), Count(ls, StatusIs("completed")))
  }

  /** One row of the partner tally: a partner company and how many listings name it. */
  datatype PartnerCount = PartnerCount(partner: string, count: nat)

  /** `if (listing.partner_company)`: a present, non-empty partner. */
  predicate HasPartner(l: Listing) {
    l.partnerCompany.Some? && l.partnerCompany.value != ""
  }

  function PartnerIs(name: string): Listing -> bool {
    (l: Listing) => l.partnerCompany == Some(name)
  }

  /** The partners named in a tally. */
  function Names(t: seq<PartnerCount>): set<string> {
    set r | r in t :: r.partner
  }

  /** No partner appears twice in a tally. */
  predicate DistinctPartners(t: seq<PartnerCount>) {
    forall i, j :: 0 <= i < j < |t| ==> t[i].partner != t[j].partner
  }

  /** Every row names a non-empty partner with a positive count. */
  predicate RowsNamed(t: seq<PartnerCount>) {
    forall r :: r in t ==> r.partner != "" && r.count > 0
  }

  /** The tally recorded for `name`, 0 when it has no row. */
  function CountOf(t: seq<PartnerCount>, name: string): nat
    decreases |t|
  {
    if t == [] then 0 else if t[0].partner == name then t[0].count else CountOf(t[1..], name)
  }

  /** `acc[name] = (acc[name] || 0) + 1`: increments an existing row or appends a new one. */
  function Bump(t: seq<PartnerCount>, name: string): seq<PartnerCount>
    decreases |t|
  {
    if t == [] then [PartnerCount(name, 1)]
    else if t[0].partner == name then [t[0].(count := t[0].count + 1)] + t[1..]
    else [t[0]] + Bump(t[1..], name)
  }

  lemma NamesCons(a: PartnerCount, t: seq<PartnerCount>)
    ensures Names([a] + t) == {a.partner} + Names(t)
  {
    assert forall r :: r in [a] + t <==> r == a || r in t;
  }

  lemma DistinctCons(a: PartnerCount, t: seq<PartnerCount>)
    ensures DistinctPartners([a] + t) <==> a.partner !in Names(t) && DistinctPartners(t)
  {
    var u := [a] + t;
    if a.partner in Names(t) {
      var r :| r in t && r.partner == a.partner;
      var k :| 0 <= k < |t| && t[k] == r;
      assert u[0].partner == u[k + 1].partner;
    }
    if DistinctPartners(u) {
      forall i, j | 0 <= i < j < |t| ensures t[i].partner != t[j].partner {
        assert t[i] == u[i + 1] && t[j] == u[j + 1];
      }
    }
    if a.partner !in Names(t) && DistinctPartners(t) {
      forall i, j | 0 <= i < j < |u| ensures u[i].partner != u[j].partner {
        assert u[j] == t[j - 1] && u[j] in t;
        if i > 0 {
          assert u[i] == t[i - 1];
        }
      }
    }
  }

  /** Bumping `name` adds one to its tally and leaves every other tally alone. */
  lemma {:induction false} BumpCount(t: seq<PartnerCount>, name: string, m: string)
    ensures CountOf(Bump(t, name), m) == CountOf(t, m) + (if m == name then 1 else 0)
    decreases |t|
  {
    if t != [] && t[0].partner != name {
      BumpCount(t[1..], name, m);
      assert Bump(t, name)[1..] == Bump(t[1..], name);
    } else if t != [] {
      assert Bump(t, name)[1..] == t[1..];
    }
  }

  lemma {:induction false} BumpNames(t: seq<PartnerCount>, name: string)
    ensures Names(Bump(t, name)) == Names(t) + {name}
    decreases |t|
  {
    if t == [] {
      NamesCons(PartnerCount(name, 1), []);
    } else {
      assert t == [t[0]] + t[1..];
      NamesCons(t[0], t[1..]);
      if t[0].partner == name {
        NamesCons(t[0].(count := t[0].count + 1), t[1..]);
      } else {
        BumpNames(t[1..], name);
        NamesCons(t[0], Bump(t[1..], name));
      }
    }
  }

  lemma {:induction false} BumpDistinct(t: seq<PartnerCount>, name: string)
    requires DistinctPartners(t)
    ensures DistinctPartners(Bump(t, name))
    decreases |t|
  {
    if t != [] {
      assert t == [t[0]] + t[1..];
      DistinctCons(t[0], t[1..]);
      if t[0].partner == name {
        DistinctCons(t[0].(count := t[0].count + 1), t[1..]);
      } else {
        BumpDistinct(t[1..], name);
        BumpNames(t[1..], name);
        DistinctCons(t[0], Bump(t[1..], name));
      }
    }
  }

  lemma {:induction false} BumpRows(t: seq<PartnerCount>, name: string)
    requires RowsNamed(t) && name != ""
    ensures RowsNamed(Bump(t, name))
    decreases |t|
  {
    if t != [] {
      assert forall r :: r in t[1..] ==> r in t;
      if t[0].partner != name {
        BumpRows(t[1..], name);
        assert forall r :: r in Bump(t, name) ==> r == t[0] || r in Bump(t[1..], name);
      } else {
        assert forall r :: r in Bump(t, name) ==> r == t[0].(count := t[0].count + 1) || r in t[1..];
      }
    }
  }

  /** `listings.reduce(...)` over partner companies: one row per partner, in order of first appearance. */
  function PartnerCounts(ls: seq<Listing>): seq<PartnerCount>
    decreases |ls|
  {
    if ls == [] then []
    else
      var acc := PartnerCounts(ls[..|ls| - 1]);
      var last := ls[|ls| - 1];
      if HasPartner(last) then Bump(acc, last.partnerCompany.value) else acc
  }

  /** Each partner's row holds the number of listings that name it; rows are distinct, non-empty and positive. */
  lemma {:induction false} PartnerCountsAreTallies(ls: seq<Listing>)
    ensures DistinctPartners(PartnerCounts(ls))
    ensures RowsNamed(PartnerCounts(ls))
    ensures forall name :: name != "" ==> CountOf(PartnerCounts(ls), name) == Count(ls, PartnerIs(name))
    decreases |ls|
  {
    if ls != [] {
      var init := ls[..|ls| - 1];
      var last := ls[|ls| - 1];
      var acc := PartnerCounts(init);
      PartnerCountsAreTallies(init);
      assert ls == init + [last];
      if HasPartner(last) {
        BumpDistinct(acc, last.partnerCompany.value);
        BumpRows(acc, last.partnerCompany.value);
      }
      forall name | name != "" ensures CountOf(PartnerCounts(ls), name) == Count(ls, PartnerIs(name)) {
        CountAppend(init, [last], PartnerIs(name));
        assert Count([last], PartnerIs(name)) == if PartnerIs(name)(last) then 1 else 0;
        if HasPartner(last) {
          BumpCount(acc, last.partnerCompany.value, name);
        }
      }
    }
  }

  /** A row's count is the tally recorded for its partner. */
  lemma {:induction false} CountOfRow(t: seq<PartnerCount>, i: nat)
    requires DistinctPartners(t) && i < |t|
    ensures CountOf(t, t[i].partner) == t[i].count
    decreases |t|
  {
    if i > 0 {
      assert t[0].partner != t[i].partner;
      CountOfRow(t[1..], i - 1);
    }
  }

  /** A partner without a row has a tally of 0. */
  lemma {:induction false} CountOfMissing(t: seq<PartnerCount>, name: string)
    requires name !in Names(t)
    ensures CountOf(t, name) == 0
    decreases |t|
  {
    if t != [] {
      assert t == [t[0]] + t[1..];
      NamesCons(t[0], t[1..]);
      CountOfMissing(t[1..], name);
    }
  }

  predicate SortedByCountDesc(t: seq<PartnerCount>) {
    forall i, j :: 0 <= i < j < |t| ==> t[i].count >= t[j].count
  }

  /** Inserts a row after every row with a larger count and before the first with a smaller one. */
  function Insert(x: PartnerCount, t: seq<PartnerCount>): (r: seq<PartnerCount>)
    requires SortedByCountDesc(t)
    ensures SortedByCountDesc(r)
    ensures multiset(r) == multiset(t) + multiset{x}
    decreases |t|
  {
    if t == [] || x.count >= t[0].count then
      SortedCons(x, t);
      [x] + t
    else
      var rest := Insert(x, t[1..]);
      assert t == [t[0]] + t[1..];
      forall y | y in rest ensures t[0].count >= y.count {
        assert y in multiset(rest);
      }
      SortedCons(t[0], rest);
      [t[0]] + rest
  }

  lemma SortedCons(a: PartnerCount, t: seq<PartnerCount>)
    requires SortedByCountDesc(t)
    requires forall y :: y in t ==> a.count >= y.count
    ensures SortedByCountDesc([a] + t)
  {
    var u := [a] + t;
    forall i, j | 0 <= i < j < |u| ensures u[i].count >= u[j].count {
      assert u[j] == t[j - 1] && u[j] in t;
      if i > 0 {
        assert u[i] == t[i - 1];
      }
    }
  }

  lemma {:induction false} InsertNames(x: PartnerCount, t: seq<PartnerCount>)
    requires SortedByCountDesc(t)
    ensures Names(Insert(x, t)) == Names(t) + {x.partner}
    ensures DistinctPartners(t) && x.partner !in Names(t) ==> DistinctPartners(Insert(x, t))
    decreases |t|
  {
    if t == [] || x.count >= t[0].count {
      NamesCons(x, t);
      DistinctCons(x, t);
    } else {
      var rest := Insert(x, t[1..]);
      InsertNames(x, t[1..]);
      assert t == [t[0]] + t[1..];
      NamesCons(t[0], t[1..]);
      NamesCons(t[0], rest);
      DistinctCons(t[0], t[1..]);
      DistinctCons(t[0], rest);
    }
  }

  /** `.sort((a, b) => b[1] - a[1])`: a stable sort by decreasing count. */
  function SortByCount(t: seq<PartnerCount>): (r: seq<PartnerCount>)
    ensures SortedByCountDesc(r)
    ensures multiset(r) == multiset(t) && |r| == |t|
    ensures Names(r) == Names(t)
    ensures DistinctPartners(t) ==> DistinctPartners(r)
    decreases |t|
  {
    if t == [] then []
    else
      assert t == [t[0]] + t[1..];
      NamesCons(t[0], t[1..]);
      DistinctCons(t[0], t[1..]);
      InsertNames(t[0], SortByCount(t[1..]));
      var r := Insert(t[0], SortByCount(t[1..]));
      assert |multiset(r)| == |multiset(t)|;
      r
  }

  /** `topPartners`: at most three rows, largest counts first, each the true tally of a distinct named partner,
      and any partner left out has no more listings than the third row. */
  function TopPartners(ls: seq<Listing>): (r: seq<PartnerCount>)
    ensures |r| == (if |PartnerCounts(ls)| < 3 then |PartnerCounts(ls)| else 3)
    ensures SortedByCountDesc(r)
    ensures forall i :: 0 <= i < |r| ==> r[i].partner != "" && r[i].count == Count(ls, PartnerIs(r[i].partner))
    ensures DistinctPartners(r)
    ensures forall l :: l in ls && HasPartner(l) ==>
      l.partnerCompany.value in Names(r)
      || (|r| == 3 && Count(ls, PartnerIs(l.partnerCompany.value)) <= r[2].count)
  {
    var t := PartnerCounts(ls);
    PartnerCountsAreTallies(ls);
    var s := SortByCount(t);
    var r := if |s| < 3 then s else s[..3];
    TopPartnersFacts(ls, t, s, r);
    r
  }

  lemma TopPartnersFacts(ls: seq<Listing>, t: seq<PartnerCount>, s: seq<PartnerCount>, r: seq<PartnerCount>)
    requires DistinctPartners(t) && RowsNamed(t)
    requires forall name :: name != "" ==> CountOf(t, name) == Count(ls, PartnerIs(name))
    requires SortedByCountDesc(s) && multiset(s) == multiset(t) && Names(s) == Names(t) && DistinctPartners(s)
    requires r == if |s| < 3 then s else s[..3]
    ensures forall i :: 0 <= i < |r| ==> r[i].partner != "" && r[i].count == Count(ls, PartnerIs(r[i].partner))
    ensures DistinctPartners(r)
    ensures forall l :: l in ls && HasPartner(l) ==>
      l.partnerCompany.value in Names(r)
      || (|r| == 3 && Count(ls, PartnerIs(l.partnerCompany.value)) <= r[2].count)
  {
    forall i | 0 <= i < |r| ensures r[i].partner != "" && r[i].count == Count(ls, PartnerIs(r[i].partner)) {
      assert r[i] == s[i] && s[i] in multiset(t);
      var k :| 0 <= k < |t| && t[k] == s[i];
      CountOfRow(t, k);
    }
    forall l | l in ls && HasPartner(l)
      ensures l.partnerCompany.value in Names(r)
           || (|r| == 3 && Count(ls, PartnerIs(l.partnerCompany.value)) <= r[2].count)
    {
      var name := l.partnerCompany.value;
      var k :| 0 <= k < |ls| && ls[k] == l;
      CountPositive(ls, k, PartnerIs(name));
      if name !in Names(t) {
        CountOfMissing(t, name);
      }
      var y :| y in s && y.partner == name;
      var j :| 0 <= j < |s| && s[j] == y;
      if j < |r| {
        assert r[j] == y;
      } else {
        assert s[2].count >= s[j].count;
        assert y in multiset(t);
        var a :| 0 <= a < |t| && t[a] == y;
        CountOfRow(t, a);
      }
    }
  }

  lemma {:induction false} CountPositive<T>(s: seq<T>, k: nat, p: T -> bool)
    requires k < |s| && p(s[k])
    ensures Count(s, p) > 0
    decreases k
  {
    if k > 0 {
      CountPositive(s[1..], k - 1, p);
    }
  }

  /** `partner.slice(0, 10) + (partner.length > 10 ? "..." : "")`: the bar chart's axis label. */
  function ChartLabel(partner: string): (shown: string)
    ensures |partner| <= 10 ==> shown == partner
    ensures |partner| > 10 ==> |shown| == 13 && shown[..10] == partner[..10] && shown[10..] == "..."
  {
    if |partner| > 10 then partner[..10] + "..." else partner
  }

  datatype ChartBar = ChartBar(partner: string, transactions: nat)

  /** `partnerChartData`: one bar per top partner, same order, label shortened, count unchanged. */
  function PartnerChartData(top: seq<PartnerCount>): (bars: seq<ChartBar>)
    ensures |bars| == |top|
    ensures forall i :: 0 <= i < |top| ==>
      bars[i].transactions == top[i].count && bars[i].partner == ChartLabel(top[i].partner)
  {
    seq(|top|, i requires 0 <= i < |top| => ChartBar(ChartLabel(top[i].partner), top[i].count))
  }
}

=== FILE: api_listings.dfy ===
/**
 * The listing routes of the ORM-backed API: the nearby and own-listing queries, listing creation and the
 * completion call. Query results are modelled as the rows of a given table that satisfy the built `where`
 * clause, in table order.
 */
module ApiListings {
  import opened Wrappers
  import opened Seqs
  import opened JsNumber
  import opened QuantityRange
  import opened JsText
  import Listings
  import opened StoreListings
  import opened Json

  /** The quantity part of a `where` clause. `None` bounds are `NaN` and admit no row. */
  datatype QuantityWhere = AnyQuantity | AtLeast(min: Option<real>) | Between(low: Option<real>, high: real)

  /** A `where` clause: every present part must hold. */
  datatype Where = Where(ownerIs: Option<string>, ownerIsNot: Option<string>, status: Option<string>,
                         kind: Option<string>, quantity: QuantityWhere)

  /** The query string of a listing request; `None` is a parameter that is absent. */
  datatype Params = Params(status: Option<string>, distance: Option<string>, material: Option<string>,
                           quantity: Option<string>)

  /** `param && param !== 'all'`: a chosen value. */
  function Chosen(param: Option<string>): (r: Option<string>)
    ensures r.Some? <==> param.Some? && param.value != "" && param.value != "all"
    ensures r.Some? ==> r == param
  {
    if param.Some? && param.value != "" && param.value != "all" then param else None
  }

  /** The server's quantity rule: a truthy max gives both bounds, anything else only the lower one. */
  function QuantityClause(quantity: Option<string>): (q: QuantityWhere)
    ensures Chosen(quantity).None? <==> q.AnyQuantity?
    ensures q.Between? ==> (Truthy(ParseRange(quantity.value).max)
      && q == Between(ParseRange(quantity.value).min, ParseRange(quantity.value).max.value))
    ensures q.AtLeast? ==> !Truthy(ParseRange(quantity.value).max) && q.min == ParseRange(quantity.value).min
  {
    if Chosen(quantity).None? then AnyQuantity
    else
      var b := ParseRange(quantity.value);
      if Truthy(b.max) then Between(b.min, b.max.value) else AtLeast(b.min)
  }

  predicate QuantityMatches(q: QuantityWhere, n: int) {
    match q
    case AnyQuantity => true
    case AtLeast(min) => min.Some? && n as real >= min.value
    case Between(low, high) => low.Some? && low.value <= n as real <= high
  }

  predicate Matches(w: Where, row: StoreListing) {
    (w.ownerIs.Some? ==> row.userId == w.ownerIs.value)
    && (w.ownerIsNot.Some? ==> row.userId != w.ownerIsNot.value)
    && (w.status.Some? ==> row.status == w.status.value)
    && (w.kind.Some? ==> row.kind == w.kind.value)
    && QuantityMatches(w.quantity, row.quantity)
  }

  function MatchesFn(w: Where): StoreListing -> bool {
    (row: StoreListing) => Matches(w, row)
  }

  /** `findMany({ where })` over a table. */
  function FindMany(rows: seq<StoreListing>, w: Where): (r: seq<StoreListing>)
    ensures IsSubseq(r, rows)
    ensures forall i :: 0 <= i < |r| ==> Matches(w, r[i])
    ensures forall row :: row in rows && Matches(w, row) ==> row in r
  {
    FilterIsSubseq(rows, MatchesFn(w));
    Filter(rows, MatchesFn(w))
  }

  /** The nearby route's clause: never the caller's own listings; status only for exactly 'ACTIVE'. */
  function NearbyWhere(me: string, p: Params): (w: Where)
    ensures w.ownerIsNot == Some(me) && w.ownerIs.None?
    ensures w.status.Some? <==> p.status == Some("ACTIVE")
    ensures w.status.Some? ==> w.status.value == "ACTIVE"
    ensures w.kind == Chosen(p.material)
    ensures w.quantity == QuantityClause(p.quantity)
  {
    Where(None, Some(me), if p.status == Some("ACTIVE") then Some("ACTIVE") else None,
          Chosen(p.material), QuantityClause(p.quantity))
  }

  /** A row with the distance from the caller's ZIP code. */
  datatype WithDistance = WithDistance(listing: StoreListing, distance: real)

  datatype NearbyOutcome = NearbyUnauthenticated | UserNotFound | InvalidZip | NearbyListings(listings: seq<WithDistance>)

  function NearbyStatus(o: NearbyOutcome): int {
    match o
    case NearbyUnauthenticated => 401
    case UserNotFound => 404
    case InvalidZip => 400
    case NearbyListings(_) => 200
  }

  /** `distance && distance !== 'all'` then `parseInt`: the cut-off, which admits nothing when it is `NaN`. */
  predicate WithinCutoff(distance: Option<string>, d: real) {
    Chosen(distance).None? || (ParseInt(distance.value).Some? && d <= ParseInt(distance.value).value as real)
  }

  function WithinFn(distance: Option<string>): WithDistance -> bool {
    (x: WithDistance) => WithinCutoff(distance, x.distance)
  }

  function AddDistance(rows: seq<StoreListing>, home: Listings.LatLng, dist: Listings.DistanceFn): (r: seq<WithDistance>)
    ensures |r| == |rows|
    ensures forall i :: 0 <= i < |rows| ==>
      r[i].listing == rows[i] && r[i].distance == dist(home.lat, home.lng, rows[i].latitude, rows[i].longitude)
  {
    seq(|rows|, i requires 0 <= i < |rows| =>
      WithDistance(rows[i], dist(home.lat, home.lng, rows[i].latitude, rows[i].longitude)))
  }

  /** A row the nearby route returns: it matches the clause and its distance is within the cut-off. */
  predicate NearbyKeeps(me: string, p: Params, home: Listings.LatLng, dist: Listings.DistanceFn, row: StoreListing) {
    Matches(NearbyWhere(me, p), row) && WithinCutoff(p.distance, dist(home.lat, home.lng, row.latitude, row.longitude))
  }

  /**
   * `GET /api/listings/nearby`. `session` is the signed-in user's id, `zip` the user's stored ZIP code (`None`
   * when the user row is missing) and `home` what geocoding that ZIP code returned.
   */
  function Nearby(session: Option<string>, p: Params, zip: Option<int>, home: Option<Listings.LatLng>,
                  rows: seq<StoreListing>, dist: Listings.DistanceFn): (o: NearbyOutcome)
    ensures session.None? <==> o == NearbyUnauthenticated
    ensures session.Some? && zip.None? <==> o == UserNotFound
    ensures session.Some? && zip.Some? && home.None? <==> o == InvalidZip
    ensures o.NearbyListings? ==> forall i :: 0 <= i < |o.listings| ==>
      var x := o.listings[i];
      && Matches(NearbyWhere(session.value, p), x.listing)
      && x.listing.userId != session.value
      && x.distance == dist(home.value.lat, home.value.lng, x.listing.latitude, x.listing.longitude)
      && WithinCutoff(p.distance, x.distance)
    ensures o.NearbyListings? ==> forall row :: row in rows && NearbyKeeps(session.value, p, home.value, dist, row) ==>
      WithDistance(row, dist(home.value.lat, home.value.lng, row.latitude, row.longitude)) in o.listings
  {
    if session.None? then NearbyUnauthenticated
    else if zip.None? then UserNotFound
    else if home.None? then InvalidZip
    else
      var found := FindMany(rows, NearbyWhere(session.value, p));
      var annotated := AddDistance(found, home.value, dist);
      var kept := Filter(annotated, WithinFn(p.distance));
      assert forall row :: row in found ==> WithDistance(row, dist(home.value.lat, home.value.lng, row.latitude, row.longitude)) in annotated by {
        forall row | row in found
          ensures WithDistance(row, dist(home.value.lat, home.value.lng, row.latitude, row.longitude)) in annotated
        {
          var i :| 0 <= i < |found| && found[i] == row;
          assert annotated[i] == WithDistance(row, dist(home.value.lat, home.value.lng, row.latitude, row.longitude));
        }
      }
      assert forall x :: x in annotated ==> x.listing in found && Matches(NearbyWhere(session.value, p), x.listing) by {
        forall x | x in annotated ensures x.listing in found {
          var i :| 0 <= i < |annotated| && annotated[i] == x;
        }
      }
      NearbyListings(kept)
  }

  /** Without a distance parameter (or with 'all') nothing is cut: every matching row comes back, in table order. */
  lemma NoCutoffKeepsAll(session: string, p: Params, zip: int, home: Listings.LatLng, rows: seq<StoreListing>, dist: Listings.DistanceFn)
    requires Chosen(p.distance).None?
    ensures Nearby(Some(session), p, Some(zip), Some(home), rows, dist)
      == NearbyListings(AddDistance(FindMany(rows, NearbyWhere(session, p)), home, dist))
  {
    var annotated := AddDistance(FindMany(rows, NearbyWhere(session, p)), home, dist);
    FilterAll(annotated, WithinFn(p.distance));
  }

  /** A distance parameter that is not a number keeps nothing. */
  lemma UnparsedCutoffKeepsNothing(session: string, p: Params, zip: int, home: Listings.LatLng, rows: seq<StoreListing>,
                                   dist: Listings.DistanceFn)
    requires Chosen(p.distance).Some? && ParseInt(p.distance.value).None?
    ensures Nearby(Some(session), p, Some(zip), Some(home), rows, dist) == NearbyListings([])
  {
    var annotated := AddDistance(FindMany(rows, NearbyWhere(session, p)), home, dist);
    FilterNone(annotated, WithinFn(p.distance));
  }

  /** The server's quantity rule against the client's: for "a-b" with b nonzero both keep a..b inclusive; for a
      bare "a" the server keeps `q >= a` and the client `q > a`, so they differ exactly at `q == a`. */
  lemma ServerAndClientQuantity(a: nat, b: nat, q: int)
    ensures b > 0 ==>
      (QuantityMatches(QuantityClause(Some(NatToString(a) + "-" + NatToString(b))), q)
       <==> ClientKeeps(q, NatToString(a) + "-" + NatToString(b)))
    ensures QuantityMatches(QuantityClause(Some(NatToString(a))), q) <==> q >= a
    ensures QuantityMatches(QuantityClause(Some(NatToString(a))), q) != ClientKeeps(q, NatToString(a)) <==> q == a
  {
    var sa := NatToString(a);
    assert sa != "" && sa != "all" by { assert IsDigit(sa[0]); }
    if b > 0 {
      BoundsOfPair(a, b);
      RangeIsInclusive(a, b, q);
      var range := sa + "-" + NatToString(b);
      assert range != "all" by { assert IsDigit(range[0]); }
    }
    BareNumberIsStrict(a, q);
    assert '-' !in sa by { assert forall i :: 0 <= i < |sa| ==> IsDigit(sa[i]); }
    SplitWithoutSeparator(sa, '-');
    NumberOfNatToString(a);
  }

  datatype UserOutcome = UserUnauthenticated | UserRows(listings: seq<StoreListing>)

  /** The own-listings route's clause: always the caller's own listings; status whenever one is chosen. */
  function UserWhere(me: string, p: Params): (w: Where)
    ensures w.ownerIs == Some(me) && w.ownerIsNot.None?
    ensures w.status == Chosen(p.status)
    ensures w.kind == Chosen(p.material)
    ensures w.quantity == QuantityClause(p.quantity)
  {
    Where(Some(me), None, Chosen(p.status), Chosen(p.material), QuantityClause(p.quantity))
  }

  /** `GET /api/listings/user`. */
  function UserListings(session: Option<string>, p: Params, rows: seq<StoreListing>): (o: UserOutcome)
    ensures session.None? <==> o.UserUnauthenticated?
    ensures o.UserRows? ==> forall i :: 0 <= i < |o.listings| ==> o.listings[i].userId == session.value
    ensures o.UserRows? && Chosen(p.status).Some? ==>
      forall i :: 0 <= i < |o.listings| ==> o.listings[i].status == p.status.value
    ensures o.UserRows? ==> o.listings == FindMany(rows, UserWhere(session.value, p))
  {
    if session.None? then UserUnauthenticated else UserRows(FindMany(rows, UserWhere(session.value, p)))
  }

  /** The own-listings and nearby routes never return the same row to the same caller. */
  lemma UserAndNearbyDisjoint(me: string, p: Params, q: Params, row: StoreListing)
    ensures !(Matches(UserWhere(me, p), row) && Matches(NearbyWhere(me, q), row))
  {
  }

  /** `parseFloat(v)` of a request body value: strings are read as numerals, numbers are kept, everything else is `NaN`. */
  function ParseFloatValue(v: Json): (r: Option<real>)
    ensures v.JNum? ==> r == Some(v.n)
    ensures v.JStr? ==> r == ParseFloat(v.s)
    ensures !(v.JNum? || v.JStr?) ==> r.None?
  {
    match v
    case JNum(n) => Some(n)
    case JStr(s) => ParseFloat(s)
    case _ => None
  }

  /** The row `POST /api/listings` creates. Values the client sent are kept as sent. */
  datatype CreatedListing = CreatedListing(name: Json, kind: Json, quantity: Option<real>, latitude: Option<real>,
                                           longitude: Option<real>, address: Json, isAvailable: bool, userId: string,
                                           condition: string, status: string)

  datatype PostOutcome = PostUnauthenticated | InvalidJson | EmptyBody | MissingFields(fields: seq<Field>)
    | DatabaseError | Created(listing: CreatedListing)

  function PostStatus(o: PostOutcome): int {
    match o
    case PostUnauthenticated => 401
    case InvalidJson => 400
    case EmptyBody => 400
    case MissingFields(_) => 400
    case DatabaseError => 500
    case Created(_) => 201
  }

  /** A body field the route requires. */
  datatype Field = Name | Material | Quantity | Latitude | Longitude | Address

  /** The key of a field in the request body and in the error details. */
  function Key(f: Field): string {
    match f
    case Name => "name"
    case Material => "material"
    case Quantity => "quantity"
    case Latitude => "latitude"
    case Longitude => "longitude"
    case Address => "address"
  }

  /** The required fields in the order the route checks them. */
  const RequiredFields: seq<Field> := [Name, Material, Quantity, Latitude, Longitude, Address]

  /** Name, material and address must be truthy; the three numbers need only be defined. */
  predicate FieldPresent(body: Json, f: Field) {
    if f.Quantity? || f.Latitude? || f.Longitude? then Get(body, Key(f)) != JUndefined
    else TruthyValue(Get(body, Key(f)))
  }

  function AbsentFn(body: Json): Field -> bool {
    (f: Field) => !FieldPresent(body, f)
  }

  /** `missingFields`: the required fields the body lacks, in the order they are checked. */
  function MissingFieldsOf(body: Json): (fields: seq<Field>)
    ensures IsSubseq(fields, RequiredFields)
    ensures forall f: Field :: f in fields <==> !FieldPresent(body, f)
  {
    FilterIsSubseq(RequiredFields, AbsentFn(body));
    EveryFieldRequired();
    forall f: Field ensures f in Filter(RequiredFields, AbsentFn(body)) <==> !FieldPresent(body, f) {
      FilterMembers(RequiredFields, AbsentFn(body), f);
    }
    Filter(RequiredFields, AbsentFn(body))
  }

  lemma EveryFieldRequired()
    ensures forall f: Field :: f in RequiredFields
  {
    forall f: Field ensures f in RequiredFields {
      match f
      case Name => assert RequiredFields[0] == f;
      case Material => assert RequiredFields[1] == f;
      case Quantity => assert RequiredFields[2] == f;
      case Latitude => assert RequiredFields[3] == f;
      case Longitude => assert RequiredFields[4] == f;
      case Address => assert RequiredFields[5] == f;
    }
  }

  /**
   * `POST /api/listings` (second branch of the file's merge). `session` is the session user's id, `body` the
   * parsed JSON (`None` when it does not parse) and `stored` whether the database accepted the row.
   */
  function CreateListing(session: Option<string>, body: Option<Json>, stored: bool): (o: PostOutcome)
    ensures session.None? || session.value == "" <==> o.PostUnauthenticated?
    ensures o.InvalidJson? <==> (session.Some? && session.value != "" && body.None?)
    ensures o.EmptyBody? ==> body.Some? && !TruthyValue(body.value)
    ensures o.MissingFields? ==> o.fields != [] && o.fields == MissingFieldsOf(body.value)
    ensures o.Created? || o.DatabaseError? ==> body.Some? && TruthyValue(body.value) && MissingFieldsOf(body.value) == []
    ensures o.Created? ==>
      var b := body.value;
      o.listing == CreatedListing(Get(b, "name"), Get(b, "material"), ParseFloatValue(Get(b, "quantity")),
                                  ParseFloatValue(Get(b, "latitude")), ParseFloatValue(Get(b, "longitude")),
                                  Get(b, "address"), true, session.value, "New", "ACTIVE")
    ensures o.Created? <==> (stored && session.Some? && session.value != "" && body.Some? && TruthyValue(body.value)
      && MissingFieldsOf(body.value) == [])
  {
    if session.None? || session.value == "" then PostUnauthenticated
    else if body.None? then InvalidJson
    else if !TruthyValue(body.value) then EmptyBody
    else
      var b := body.value;
      var missing := MissingFieldsOf(b);
      if missing != [] then MissingFields(missing)
      else if !stored then DatabaseError
      else Created(CreatedListing(Get(b, "name"), Get(b, "material"), ParseFloatValue(Get(b, "quantity")),
                                  ParseFloatValue(Get(b, "latitude")), ParseFloatValue(Get(b, "longitude")),
                                  Get(b, "address"), true, session.value, "New", "ACTIVE"))
  }

  /** A body that is not an object (a number, a string, an array, `true`) lacks every field. */
  lemma NonObjectBodyMissesAll(b: Json)
    requires !b.JObject?
    ensures MissingFieldsOf(b) == RequiredFields
  {
    FilterAll(RequiredFields, AbsentFn(b));
  }

  datatype GetOutcome = NotSingle | Fetched(listing: Listings.Listing)

  function GetStatus(o: GetOutcome): int {
    if o.NotSingle? then 400 else 200
  }

  function IdIs(id: string): Listings.Listing -> bool {
    (l: Listings.Listing) => l.id == id
  }

  /** `GET` (first branch of the file's merge): `.eq("id", id).single()` fails unless exactly one row has the id. */
  function GetListing(rows: seq<Listings.Listing>, id: string): (o: GetOutcome)
    ensures o.Fetched? <==> Count(rows, IdIs(id)) == 1
    ensures o.Fetched? ==> o.listing in rows && o.listing.id == id
  {
    var found := Filter(rows, IdIs(id));
    FilterLength(rows, IdIs(id));
    if |found| == 1 then Fetched(found[0]) else NotSingle
  }

  /** With ids unique, a stored id is always found, and the row found is the stored one. */
  lemma GetListingFindsUniqueId(rows: seq<Listings.Listing>, k: int)
    requires 0 <= k < |rows|
    requires forall i, j :: 0 <= i < j < |rows| ==> rows[i].id != rows[j].id
    ensures GetListing(rows, rows[k].id) == Fetched(rows[k])
  {
    var id := rows[k].id;
    UniqueIdFilter(rows, k);
  }

  lemma {:induction false} UniqueIdFilter(rows: seq<Listings.Listing>, k: int)
    requires 0 <= k < |rows|
    requires forall i, j :: 0 <= i < j < |rows| ==> rows[i].id != rows[j].id
    ensures Filter(rows, IdIs(rows[k].id)) == [rows[k]]
    decreases |rows|
  {
    var id := rows[k].id;
    if k == 0 {
      FilterNone(rows[1..], IdIs(id));
    } else {
      assert rows[1..][k - 1] == rows[k];
      UniqueIdFilter(rows[1..], k - 1);
      assert rows[0].id != id;
    }
  }

  /** The arguments of the `complete_listing` database procedure. */
  datatype RpcCall = RpcCall(listingId: string, quantityMoved: Json, partnerCompany: Json)

  /** What the procedure returned: an error message or data. */
  datatype RpcResult = RpcError(message: string) | RpcData(data: Json)

  datatype PatchOutcome = ParseFailed | MissingId | PatchUnauthorized | RpcDone(call: RpcCall, result: RpcResult)

  function PatchStatus(o: PatchOutcome): int {
    match o
    case ParseFailed => 500
    case MissingId => 400
    case PatchUnauthorized => 401
    case RpcDone(_, RpcError(_)) => 400
    case RpcDone(_, RpcData(_)) => 200
  }

  /**
   * `PATCH` (first branch of the file's merge). The body is read first: one that does not parse, or `null`,
   * fails with 500. `user` is the authenticated user, if any; `rpc` is the database procedure.
   */
  function CompleteListing(body: Option<Json>, id: string, user: Option<string>, rpc: RpcCall -> RpcResult): (o: PatchOutcome)
    ensures o == ParseFailed <==> body.None? || body.value == JNull
    ensures o == MissingId <==> body.Some? && body.value != JNull && id == ""
    ensures o == PatchUnauthorized <==> body.Some? && body.value != JNull && id != "" && user.None?
    ensures o.RpcDone? ==>
      o.call == RpcCall(id, Get(body.value, "quantity_moved"), Get(body.value, "partner_company"))
      && o.result == rpc(o.call) && id != "" && user.Some?
  {
    if body.None? || body.value == JNull then ParseFailed
    else if id == "" then MissingId
    else if user.None? then PatchUnauthorized
    else
      var call := RpcCall(id, Get(body.value, "quantity_moved"), Get(body.value, "partner_company"));
      RpcDone(call, rpc(call))
  }

  /** The procedure is called exactly when the body is readable, the id present and the user signed in; the
      route answers 200 exactly when that call returns data. */
  lemma PatchCallsProcedureOnlyWhenAllowed(body: Option<Json>, id: string, user: Option<string>, rpc: RpcCall -> RpcResult)
    ensures CompleteListing(body, id, user, rpc).RpcDone? <==> body.Some? && body.value != JNull && id != "" && user.Some?
    ensures PatchStatus(CompleteListing(body, id, user, rpc)) == 200 <==>
      body.Some? && body.value != JNull && id != "" && user.Some?
      && rpc(RpcCall(id, Get(body.value, "quantity_moved"), Get(body.value, "partner_company"))).RpcData?
  {
  }

  /** Two readable bodies that agree on `quantity_moved` and `partner_company` complete a listing the same way:
      the route reads no other field. */
  lemma PatchReadsOnlyTwoFields(a: Json, b: Json, id: string, user: Option<string>, rpc: RpcCall -> RpcResult)
    ensures a != JNull && b != JNull
      && Get(a, "quantity_moved") == Get(b, "quantity_moved") && Get(a, "partner_company") == Get(b, "partner_company")
      ==> CompleteListing(Some(a), id, user, rpc) == CompleteListing(Some(b), id, user, rpc)
  {
  }
}

=== FILE: api_signup.dfy ===
/**
 * `POST /api/signup`: account creation against the ORM's user table. The table is a sequence of records; the
 * password hash and the new row's id come in as parameters.
 */
module ApiSignup {
  import opened Wrappers
  import opened JsText
  import opened JsNumber
  import opened Json

  /** A stored user. Text columns keep the JSON values the client sent. */
  datatype UserRecord = UserRecord(id: string, firstName: Json, lastName: Json, email: Json, password: string,
                                   company: Json, role: Json, zipCode: int, phone: Json)

  /** The part of the new user the response shows: no password, company, role, ZIP code or phone. */
  datatype PublicUser = PublicUser(id: string, email: Json, firstName: Json, lastName: Json)

  datatype SignupOutcome =
    | SignupMalformed
    | MissingRequired
    | InvalidZipCode
    | AlreadyExists
    | SignedUp(users: seq<UserRecord>, user: PublicUser)

  function SignupStatus(o: SignupOutcome): int {
    match o
    case SignupMalformed => 500
    case MissingRequired => 400
    case InvalidZipCode => 400
    case AlreadyExists => 400
    case SignedUp(_, _) => 201
  }

  /** `x.trunc()` for a real: the integer part, rounded toward zero. */
  function Trunc(x: real): (n: int)
    ensures 0.0 <= x ==> n as real <= x < n as real + 1.0
    ensures x < 0.0 ==> n as real - 1.0 < x <= n as real
  {
    if x >= 0.0 then x.Floor else -((-x).Floor)
  }

  /** `parseInt(v, 10)` of a body value: strings are scanned, numbers lose their fraction, the rest is `NaN`. */
  function ParseIntValue(v: Json): (r: Option<int>)
    ensures v.JStr? ==> r == ParseInt(v.s)
    ensures v.JNum? ==> r == Some(Trunc(v.n))
    ensures v.JBigInt? ==> r == Some(v.i)
    ensures v.JUndefined? || v.JNull? || v.JBool? || v.JObject? ==> r.None?
  {
    match v
    case JStr(s) => ParseInt(s)
    case JNum(n) => Some(Trunc(n))
    case JBigInt(i) => Some(i)
    case _ => None
  }

  /** Every field is required to be truthy, except the ZIP code, which need only be defined. */
  predicate HasRequired(body: Json) {
    && TruthyValue(Get(body, "firstName")) && TruthyValue(Get(body, "lastName"))
    && TruthyValue(Get(body, "email")) && TruthyValue(Get(body, "password"))
    && TruthyValue(Get(body, "company")) && TruthyValue(Get(body, "role"))
    && Get(body, "zipCode") != JUndefined && TruthyValue(Get(body, "phone"))
  }

  predicate EmailTaken(users: seq<UserRecord>, email: Json) {
    exists i :: 0 <= i < |users| && users[i].email == email
  }

  /**
   * The route. `body` is the parsed request (`None` when it does not parse), `hash` the password hash with cost
   * 10 and `newId` the id the database gives the new row. A body that does not parse or is `null` throws before
   * any check and ends in the catch-all 500.
   */
  function Signup(body: Option<Json>, users: seq<UserRecord>, hash: Json -> string, newId: string): (o: SignupOutcome)
    ensures o.SignupMalformed? <==> Unreadable(body)
    ensures o.MissingRequired? <==> !Unreadable(body) && !HasRequired(body.value)
    ensures o.InvalidZipCode? <==> !Unreadable(body) && HasRequired(body.value) && ParseIntValue(Get(body.value, "zipCode")).None?
    ensures o.AlreadyExists? ==> !Unreadable(body) && EmailTaken(users, Get(body.value, "email"))
    ensures o.SignedUp? ==> (
      var b := body.value;
      && HasRequired(b)
      && !EmailTaken(users, Get(b, "email"))
      && |o.users| == |users| + 1 && o.users[..|users|] == users
      && o.users[|users|].zipCode == ParseIntValue(Get(b, "zipCode")).value
      && o.users[|users|].password == hash(Get(b, "password"))
      && o.users[|users|].email == Get(b, "email")
      && o.user == PublicUser(newId, Get(b, "email"), Get(b, "firstName"), Get(b, "lastName")))
    ensures !Unreadable(body) && HasRequired(body.value) && ParseIntValue(Get(body.value, "zipCode")).Some? ==>
      (o.AlreadyExists? <==> EmailTaken(users, Get(body.value, "email")))
  {
    if Unreadable(body) then SignupMalformed
    else
      var b := body.value;
      if !HasRequired(b) then MissingRequired
      else
        var zip := ParseIntValue(Get(b, "zipCode"));
        if zip.None? then InvalidZipCode
        else if EmailTaken(users, Get(b, "email")) then AlreadyExists
        else
          var record := UserRecord(newId, Get(b, "firstName"), Get(b, "lastName"), Get(b, "email"),
                                   hash(Get(b, "password")), Get(b, "company"), Get(b, "role"), zip.value,
                                   Get(b, "phone"));
          SignedUp(users + [record], PublicUser(newId, Get(b, "email"), Get(b, "firstName"), Get(b, "lastName")))
  }

  /** Signing up twice with the same body fails the second time, whatever id the database would give. */
  lemma SecondSignupFails(body: Json, users: seq<UserRecord>, hash: Json -> string, id1: string, id2: string)
    ensures Signup(Some(body), users, hash, id1).SignedUp? ==>
      Signup(Some(body), Signup(Some(body), users, hash, id1).users, hash, id2) == AlreadyExists
  {
    if Signup(Some(body), users, hash, id1).SignedUp? {
      var after := Signup(Some(body), users, hash, id1).users;
      assert after[|users|].email == Get(body, "email");
    }
  }

  /** No two users share an email value. */
  predicate EmailsDistinct(users: seq<UserRecord>) {
    forall i, j :: 0 <= i < j < |users| ==> users[i].email != users[j].email
  }

  /** The route keeps emails unique: it only appends a user whose email no stored user has. */
  lemma SignupKeepsEmailsDistinct(body: Option<Json>, users: seq<UserRecord>, hash: Json -> string, newId: string)
    requires EmailsDistinct(users)
    ensures Signup(body, users, hash, newId).SignedUp? ==> EmailsDistinct(Signup(body, users, hash, newId).users)
  {
    var o := Signup(body, users, hash, newId);
    if o.SignedUp? {
      forall i, j | 0 <= i < j < |o.users| ensures o.users[i].email != o.users[j].email {
        if j == |users| {
          assert o.users[i] == users[i];
        } else {
          assert o.users[i] == users[i] && o.users[j] == users[j];
        }
      }
    }
  }

  /** A ZIP code sent as a string of digits is stored as the number it spells. */
  lemma DigitZipIsStored(body: Json, users: seq<UserRecord>, hash: Json -> string, newId: string, zip: nat)
    ensures Get(body, "zipCode") == JStr(NatToString(zip)) && Signup(Some(body), users, hash, newId).SignedUp? ==>
      Signup(Some(body), users, hash, newId).users[|users|].zipCode == zip
  {
    ParseIntOfIntToString(zip);
  }

  /** A value holds a bigint somewhere, which `JSON.stringify` refuses with a `TypeError`. */
  predicate HasBigInt(v: Json)
    decreases v
  {
    match v
    case JBigInt(_) => true
    case JArray(items) => exists i :: 0 <= i < |items| && HasBigInt(items[i])
    case JObject(members) => exists i :: 0 <= i < |members| && HasBigInt(members[i].1)
    case _ => false
  }

  /** The replacer of `safeStringify`, applied at every depth: bigints become their decimal text. */
  function Replacer(v: Json): (r: Json)
    decreases v
  {
    match v
    case JBigInt(i) => JStr(IntToString(i))
    case JArray(items) => JArray(seq(|items|, i requires 0 <= i < |items| => Replacer(items[i])))
    case JObject(members) =>
      JObject(seq(|members|, i requires 0 <= i < |members| => (members[i].0, Replacer(members[i].1))))
    case _ => v
  }

  /** After the replacer no bigint is left, at any depth. */
  lemma {:induction false} ReplacerRemovesBigInt(v: Json)
    ensures !HasBigInt(Replacer(v))
    decreases v
  {
    match v
    case JArray(items) =>
      forall i | 0 <= i < |items| ensures !HasBigInt(Replacer(items[i])) {
        ReplacerRemovesBigInt(items[i]);
      }
    case JObject(members) =>
      forall i | 0 <= i < |members| ensures !HasBigInt(Replacer(members[i].1)) {
        ReplacerRemovesBigInt(members[i].1);
      }
    case _ =>
  }

  /** What `JSON.stringify` produces: a `TypeError`, `undefined`, or text. */
  datatype Rendering = Threw | Omitted | Text(s: string)

  /** A string literal. Escaping is not modelled. */
  function Quote(s: string): string {
    "\"" + s + "\""
  }

  /** The texts of the members whose values render, as `"key":value`. */
  function MemberTexts(keys: seq<string>, parts: seq<Rendering>): seq<string>
    requires |keys| == |parts|
    decreases |parts|
  {
    if parts == [] then []
    else
      var front := MemberTexts(keys[..|keys| - 1], parts[..|parts| - 1]);
      var last := parts[|parts| - 1];
      if last.Text? then front + [Quote(keys[|keys| - 1]) + ":" + last.s] else front
  }

  /**
   * `JSON.stringify(v)` without indentation. `numText` renders a number; `undefined` is omitted from objects and
   * written as `null` inside arrays.
   */
  function Stringify(v: Json, numText: real -> string): (r: Rendering)
    ensures r.Threw? <==> HasBigInt(v)
    ensures r.Omitted? <==> v.JUndefined?
    decreases v
  {
    match v
    case JUndefined => Omitted
    case JNull => Text("null")
    case JBool(b) => Text(if b then "true" else "false")
    case JNum(n) => Text(numText(n))
    case JStr(s) => Text(Quote(s))
    case JBigInt(_) => Threw
    case JArray(items) =>
      var parts := seq(|items|, i requires 0 <= i < |items| => Stringify(items[i], numText));
      assert forall i :: 0 <= i < |items| ==> (parts[i].Threw? <==> HasBigInt(items[i]));
      if exists i :: 0 <= i < |parts| && parts[i].Threw? then Threw
      else Text("[" + Join(seq(|parts|, i requires 0 <= i < |parts| => if parts[i].Text? then parts[i].s else "null"), ",") + "]")
    case JObject(members) =>
      var parts := seq(|members|, i requires 0 <= i < |members| => Stringify(members[i].1, numText));
      assert forall i :: 0 <= i < |members| ==> (parts[i].Threw? <==> HasBigInt(members[i].1));
      if exists i :: 0 <= i < |parts| && parts[i].Threw? then Threw
      else Text("{" + Join(MemberTexts(Keys(members), parts), ",") + "}")
  }

  /** The message of the `TypeError` that `JSON.stringify` throws on a bigint. */
  const BigIntMessage := "Do not know how to serialize a BigInt"

  /**
   * `safeStringify`: for the acyclic values without `toJSON` methods or getters that `Json` describes, the
   * replacer guarantees that the fallback text is never produced.
   */
  function SafeStringify(v: Json, numText: real -> string): (r: Rendering)
    ensures !r.Threw?
    ensures r == Stringify(Replacer(v), numText)
    ensures v.JBigInt? ==> r == Text(Quote(IntToString(v.i)))
  {
    ReplacerRemovesBigInt(v);
    match Stringify(Replacer(v), numText)
    case Threw => Text("[Unserializable object: " + BigIntMessage + "]")
    case other => other
  }

  /** The replacer changes nothing in a value without bigints. */
  lemma {:induction false} ReplacerKeepsPlain(v: Json)
    requires !HasBigInt(v)
    ensures Replacer(v) == v
    decreases v
  {
    match v
    case JArray(items) =>
      forall i | 0 <= i < |items| ensures Replacer(items[i]) == items[i] {
        ReplacerKeepsPlain(items[i]);
      }
    case JObject(members) =>
      forall i | 0 <= i < |members| ensures Replacer(members[i].1) == members[i].1 {
        ReplacerKeepsPlain(members[i].1);
      }
    case _ =>
  }

  /** On a value without bigints `safeStringify` is plain `JSON.stringify`; on any other it still does not throw. */
  lemma SafeStringifyOfPlain(v: Json, numText: real -> string)
    ensures !HasBigInt(v) ==> SafeStringify(v, numText) == Stringify(v, numText)
    ensures HasBigInt(v) ==> Stringify(v, numText) == Threw && SafeStringify(v, numText) != Threw
  {
    if !HasBigInt(v) {
      ReplacerKeepsPlain(v);
    }
  }
}

=== FILE: api_users.dfy ===
/**
 * `POST /api/users`: account creation against the hosted auth service and its `user_profiles` table. The
 * service's answers are parameters; the route's calls are recorded as an effect log.
 */
module ApiUsers {
  import opened Wrappers
  import opened Json

  /** A call the route makes to the hosted service. */
  datatype Effect =
    | CreateAuthUser(email: Json, password: Json)
    | InsertProfile(row: ProfileRow)
    | DeleteAuthUser(id: string)

  /** The `user_profiles` row the route inserts. */
  datatype ProfileRow = ProfileRow(userId: string, email: Json, firstName: Json, lastName: Json, phoneNumber: Json,
                                   zipCode: Json, companyName: Json, role: Json, contactPreference: Json)

  /** What `auth.admin.createUser` answered. */
  datatype AuthAnswer = AuthFailed(message: string) | NoUser | AuthCreated(id: string)

  /** What the profile insert answered: an error, or the rows it returned. */
  datatype InsertAnswer = InsertFailed | Inserted(rows: seq<Json>)

  datatype UsersOutcome = UsersOutcome(status: int, error: string, profile: Json, effects: seq<Effect>)

  const ProfileFailure := "Failed to create user profile. Please try again."

  /** The profile row built from the request body for the new auth user. */
  function ProfileFor(id: string, b: Json): (row: ProfileRow)
    ensures row.userId == id && row.email == Get(b, "email")
  {
    ProfileRow(id, Get(b, "email"), Get(b, "firstName"), Get(b, "lastName"), Get(b, "phoneNumber"),
               Get(b, "zipCode"), Get(b, "companyName"), Get(b, "role"), Get(b, "contactPreference"))
  }

  /**
   * The route. `body` is `None` when the request does not parse; `auth` is the service's answer to the account
   * request and `insert` its answer to the profile insert. A body that does not parse or is `null` throws before
   * the service is called, and the catch answers 500.
   */
  function CreateUser(body: Option<Json>, auth: AuthAnswer, insert: InsertAnswer): (o: UsersOutcome)
    ensures Unreadable(body) ==> o.status == 500 && o.effects == []
    ensures !Unreadable(body) ==> |o.effects| >= 1 && o.effects[0] == CreateAuthUser(Get(body.value, "email"), Get(body.value, "password"))
    ensures !Unreadable(body) && auth.AuthFailed? ==> o.status == 400 && o.error == auth.message && |o.effects| == 1
    ensures !Unreadable(body) && auth.NoUser? ==> o.status == 400 && |o.effects| == 1
    ensures !Unreadable(body) && auth.AuthCreated? ==> (
      && |o.effects| >= 2
      && o.effects[1] == InsertProfile(ProfileFor(auth.id, body.value))
      && (o.status == 201 <==> insert.Inserted? && insert.rows != [])
      && (o.status == 201 ==> |o.effects| == 2 && o.profile == insert.rows[0])
      && (o.status != 201 ==> o.status == 500 && o.error == ProfileFailure && o.effects == o.effects[..2] + [DeleteAuthUser(auth.id)]))
  {
    if Unreadable(body) then UsersOutcome(500, "An unexpected error occurred. Please try again.", JUndefined, [])
    else
      var b := body.value;
      var create := CreateAuthUser(Get(b, "email"), Get(b, "password"));
      match auth
      case AuthFailed(message) => UsersOutcome(400, message, JUndefined, [create])
      case NoUser => UsersOutcome(400, "User creation failed. Please try again.", JUndefined, [create])
      case AuthCreated(id) =>
        var effects := [create, InsertProfile(ProfileFor(id, b))];
        if insert.InsertFailed? || insert.rows == [] then
          UsersOutcome(500, ProfileFailure, JUndefined, effects + [DeleteAuthUser(id)])
        else UsersOutcome(201, "", insert.rows[0], effects)
  }

  /** An auth user whose id the log created and never deleted. */
  predicate Kept(effects: seq<Effect>, id: string) {
    (exists i :: 0 <= i < |effects| && effects[i].InsertProfile? && effects[i].row.userId == id)
    && forall i :: 0 <= i < |effects| ==> effects[i] != DeleteAuthUser(id)
  }

  /**
   * No orphaned accounts: when the service created an auth user, the route either answers 201 with a profile
   * inserted for that user, or deletes the user again.
   */
  lemma NoOrphanedAuthUser(b: Json, id: string, insert: InsertAnswer)
    ensures var o := CreateUser(Some(b), AuthCreated(id), insert);
      o.status == 201 <==> Kept(o.effects, id)
  {
    var o := CreateUser(Some(b), AuthCreated(id), insert);
    if o.status == 201 {
      assert o.effects[1] == InsertProfile(ProfileFor(id, b));
    } else if !Unreadable(Some(b)) {
      assert o.effects[2] == DeleteAuthUser(id);
    }
  }
}

=== FILE: class_names.dfy ===
/** `cn`: a class attribute assembled from optional class names. */
module ClassNames {
  import opened Seqs
  import opened JsText

  /** An argument of `cn`: a class name, or one of the falsy placeholders a condition leaves behind. */
  datatype ClassArg = Class(name: string) | Undefined | Null | False

  predicate Truthy(a: ClassArg) {
    a.Class? && a.name != ""
  }

  function Names(args: seq<ClassArg>): (names: seq<string>)
    ensures |names| == |args|
    ensures forall i :: 0 <= i < |args| ==> names[i] == (if args[i].Class? then args[i].name else "")
  {
    seq(|args|, i requires 0 <= i < |args| => if args[i].Class? then args[i].name else "")
  }

  /** Class names as arguments again. */
  function Classes(names: seq<string>): (args: seq<ClassArg>)
    ensures |args| == |names|
  {
    seq(|names|, i requires 0 <= i < |names| => Class(names[i]))
  }

  /** The class names that survive `filter(Boolean)`, in order and with repeats. */
  function Kept(args: seq<ClassArg>): (names: seq<string>)
    ensures forall i :: 0 <= i < |names| ==> names[i] != ""
    ensures forall i :: 0 <= i < |args| && Truthy(args[i]) ==> args[i].name in names
    ensures forall n :: n in names ==> Class(n) in args
    ensures |names| == Count(args, Truthy)
    ensures IsSubseq(Classes(names), args)
  {
    var kept := Filter(args, Truthy);
    var names := Names(kept);
    FilterLength(args, Truthy);
    FilterIsSubseq(args, Truthy);
    assert Classes(names) == kept;
    assert forall n :: n in names ==> Class(n) in args by {
      forall n | n in names ensures Class(n) in args {
        var i :| 0 <= i < |names| && names[i] == n;
        assert kept[i] in args;
      }
    }
    assert forall i :: 0 <= i < |args| && Truthy(args[i]) ==> args[i].name in names by {
      forall i | 0 <= i < |args| && Truthy(args[i]) ensures args[i].name in names {
        var j :| 0 <= j < |kept| && kept[j] == args[i];
        assert names[j] == args[i].name;
      }
    }
    names
  }

  /** Keeping works argument by argument: a truthy head is kept in front of what the tail keeps. */
  lemma KeptCons(a: ClassArg, t: seq<ClassArg>)
    ensures Kept([a] + t) == (if Truthy(a) then [a.name] else []) + Kept(t)
  {
    assert ([a] + t)[1..] == t;
    var f := Filter(t, Truthy);
    if Truthy(a) {
      assert Filter([a] + t, Truthy) == [a] + f;
      assert Names([a] + f) == [a.name] + Names(f);
    } else {
      assert Filter([a] + t, Truthy) == f;
    }
  }

  /** `classes.filter(Boolean).join(' ')`. */
  function Cn(args: seq<ClassArg>): (r: string)
    ensures Kept(args) == [] ==> r == ""
  {
    Join(Kept(args), " ")
  }

  /** With no class name present the attribute is empty. */
  lemma CnOfFalsy(args: seq<ClassArg>)
    requires forall i :: 0 <= i < |args| ==> !Truthy(args[i])
    ensures Cn(args) == ""
  {
    FilterNone(args, Truthy);
  }

  /** Class names without spaces can be read back from the attribute by splitting on the space. */
  lemma CnSplitsBack(args: seq<ClassArg>)
    requires exists i :: 0 <= i < |args| && Truthy(args[i])
    requires forall i :: 0 <= i < |args| && args[i].Class? ==> ' ' !in args[i].name
    ensures SplitOn(Cn(args), ' ') == Kept(args)
  {
    var i :| 0 <= i < |args| && Truthy(args[i]);
    var kept := Kept(args);
    assert args[i].name in kept;
    forall j | 0 <= j < |kept| ensures ' ' !in kept[j] {
      assert Class(kept[j]) in args;
    }
    SplitJoin(kept, ' ');
  }

  /** A single class name is the whole attribute. */
  lemma CnOfOne(name: string)
    requires name != ""
    ensures Cn([Class(name)]) == name
  {
    assert Filter([Class(name)], Truthy) == [Class(name)];
  }
}

=== FILE: complete_listing_modal.dfy ===
/** The completion dialog: its form reset, the quantity-moved validation and the success message. */
module CompleteListingModal {
  import opened Wrappers
  import opened JsText
  import opened JsNumber
  import opened Listings

  /** The dialog's form state: chosen partner company, typed quantity, shown error. */
  datatype Form = Form(selectedCompany: string, quantityMoved: string, error: Option<string>)

  /** `resetForm`: the quantity starts at the listing's whole quantity; company and error are cleared. */
  function ResetForm(listing: Option<Listing>): (r: Form)
    ensures listing.Some? ==> ParseInt(r.quantityMoved) == Some(listing.value.quantity)
    ensures listing.None? ==> r.quantityMoved == ""
    ensures r.selectedCompany == "" && r.error == None
  {
    match listing
    case Some(l) => ParseIntOfIntToString(l.quantity); Form("", IntToString(l.quantity), None)
    case None => Form("", "", None)
  }

  const InvalidQuantityMessage := "Please enter a valid quantity greater than 0."

  function ExceedsMessage(l: Listing): string {
    "Cannot move more than the available quantity (" + IntToString(l.quantity) + " " + l.measurementType + ")."
  }

  /** What pressing "Complete Listing" does. */
  datatype Outcome =
    | MissingInput                       // a toast; nothing is sent
    | Rejected(message: string)          // an inline error; nothing is sent
    | Send(listingId: string, moved: real, partnerCompany: string)  // the PATCH request is issued

  /** `handleComplete`: the validation done before the completion request is sent. */
  function HandleComplete(form: Form, listing: Option<Listing>): (o: Outcome)
    ensures form.selectedCompany == "" || form.quantityMoved == "" || listing.None? ==> o == MissingInput
    ensures o.Send? ==>
      && listing.Some? && o.listingId == listing.value.id
      && form.selectedCompany != "" && o.partnerCompany == form.selectedCompany
      && ParseFloat(form.quantityMoved) == Some(o.moved)
      && 0.0 < o.moved <= listing.value.quantity as real
    ensures form.selectedCompany != "" && form.quantityMoved != "" && listing.Some? ==>
      match ParseFloat(form.quantityMoved)
      case None => o == Rejected(InvalidQuantityMessage)
      case Some(m) =>
        if m <= 0.0 then o == Rejected(InvalidQuantityMessage)
        else if m > listing.value.quantity as real then o == Rejected(ExceedsMessage(listing.value))
        else o == Send(listing.value.id, m, form.selectedCompany)
  {
    if form.selectedCompany == "" || form.quantityMoved == "" || listing.None? then MissingInput
    else
      var moved := ParseFloat(form.quantityMoved);
      if moved.None? || moved.value <= 0.0 then Rejected(InvalidQuantityMessage)
      else if moved.value > listing.value.quantity as real then Rejected(ExceedsMessage(listing.value))
      else Send(listing.value.id, moved.value, form.selectedCompany)
  }

  /** The error shown after pressing the button: set on a rejection, cleared when sending, kept on a toast. */
  function ErrorAfter(form: Form, listing: Option<Listing>): (e: Option<string>)
    ensures HandleComplete(form, listing).Rejected? ==> e == Some(HandleComplete(form, listing).message)
    ensures HandleComplete(form, listing).Send? ==> e == None
    ensures HandleComplete(form, listing).MissingInput? ==> e == form.error
  {
    match HandleComplete(form, listing)
    case MissingInput => form.error
    case Rejected(m) => Some(m)
    case Send(_, _, _) => None
  }

  /**
   * Opening the dialog and only choosing a partner moves the whole quantity: the pre-filled
   * quantity reads back as the listing's quantity, which passes both bounds when it is positive.
   */
  lemma ResetThenCompleteMovesEverything(l: Listing, company: string)
    requires company != ""
    requires l.quantity > 0
    ensures HandleComplete(ResetForm(Some(l)).(selectedCompany := company), Some(l)) == Send(l.id, l.quantity as real, company)
  {
    ParseFloatOfNatToString(l.quantity);
  }

  const PartialMessage := "Listing partially completed and new completed listing created."
  const FullMessage := "Listing fully completed."

  /** The success toast names a partial completion exactly when the server created a new completed record. */
  function SuccessMessage(newCompleted: Option<Listing>): (m: string)
    ensures m == PartialMessage <==> newCompleted.Some?
    ensures m == FullMessage <==> newCompleted.None?
  {
    if newCompleted.Some? then PartialMessage else FullMessage
  }
}

=== FILE: create_listing_modal.dfy ===
/** The create-listing form: address simplification, the record it submits, and its material and address rules. */
module CreateListingModal {
  import opened Wrappers
  import opened JsText

  const CountrySuffix := ", United States"

  /** `address.replace(/, United States$/, "")`: drops one trailing country name. */
  function SimplifyAddress(address: string): (r: string)
    ensures EndsWith(address, CountrySuffix) ==> r + CountrySuffix == address
    ensures !EndsWith(address, CountrySuffix) ==> r == address
  {
    if EndsWith(address, CountrySuffix) then address[..|address| - |CountrySuffix|] else address
  }

  /** Simplifying an address with the country appended gives the address back, even if it already ended so. */
  lemma SimplifyRoundTrip(address: string)
    ensures SimplifyAddress(address + CountrySuffix) == address
  {
    var s := address + CountrySuffix;
    assert s[|s| - |CountrySuffix|..] == CountrySuffix;
    assert s[..|s| - |CountrySuffix|] == address;
  }

  /** A map position as the address picker reports it: `[longitude, latitude]`. */
  datatype LngLat = LngLat(lng: real, lat: real)

  /** The signed-in user as the form sees it; `company` may be missing. */
  datatype CurrentUser = CurrentUser(id: string, name: string, email: string, phone: Option<string>, company: Option<string>)

  /** The partially filled listing the form edits. */
  datatype Draft = Draft(
    siteName: string,
    material: Option<string>,
    transactionType: Option<string>,
    quantity: Option<real>,
    measurementType: Option<string>,
    latitude: Option<real>,
    longitude: Option<real>,
    companyName: Option<string>
  )

  /** The form's state: the draft, the typed address and the picked position. */
  datatype FormState = FormState(draft: Draft, address: string, coordinates: Option<LngLat>)

  /** The record handed to `onCreateListing`. */
  datatype NewListing = NewListing(
    siteName: string,
    material: Option<string>,
    transactionType: Option<string>,
    quantity: Option<real>,
    measurementType: Option<string>,
    address: string,
    latitude: Option<real>,
    longitude: Option<real>,
    userId: string,
    userName: string,
    userEmail: string,
    userPhone: Option<string>,
    companyName: string,
    postedDate: string
  )

  /** `a || b` on optional strings: the first present, non-empty one. */
  function OrElse(a: Option<string>, b: string): string {
    if a.Some? && a.value != "" then a.value else b
  }

  /** The draft's initial state: empty fields, the user's company (or "") as company name. */
  function InitialDraft(user: CurrentUser): (d: Draft)
    ensures d.companyName == Some(OrElse(user.company, ""))
    ensures d.material.None? && d.quantity.None? && d.latitude.None? && d.longitude.None?
  {
    Draft("", None, None, None, None, None, None, Some(OrElse(user.company, "")))
  }

  /** `listingToCreate`: the draft, the simplified address, the picked position and the user's contact fields. */
  function ListingToCreate(s: FormState, user: CurrentUser, now: string): (n: NewListing)
    ensures n.address == SimplifyAddress(s.address)
    ensures s.coordinates.Some? ==> n.latitude == Some(s.coordinates.value.lat) && n.longitude == Some(s.coordinates.value.lng)
    ensures s.coordinates.None? ==> n.latitude.None? && n.longitude.None?
    ensures n.userId == user.id && n.userName == user.name && n.userEmail == user.email && n.userPhone == user.phone
    ensures n.companyName == OrElse(s.draft.companyName, OrElse(user.company, ""))
    ensures n.siteName == s.draft.siteName && n.material == s.draft.material && n.quantity == s.draft.quantity
    ensures n.measurementType == s.draft.measurementType && n.transactionType == s.draft.transactionType
  {
    NewListing(
      s.draft.siteName, s.draft.material, s.draft.transactionType, s.draft.quantity, s.draft.measurementType,
      SimplifyAddress(s.address),
      if s.coordinates.Some? then Some(s.coordinates.value.lat) else None,
      if s.coordinates.Some? then Some(s.coordinates.value.lng) else None,
      user.id, user.name, user.email, user.phone,
      OrElse(s.draft.companyName, OrElse(user.company, "")),
      now)
  }

  /** The effect on the measurement when the material changes: Topsoil is sold by the cubic yard, Structural Fill
      by the ton, and any other material keeps the current choice. */
  function MeasurementAfterMaterial(material: Option<string>, current: Option<string>): (m: Option<string>)
    ensures material == Some("Topsoil") ==> m == Some("Cubic Yards")
    ensures material == Some("Structural Fill") ==> m == Some("Tons")
    ensures !MeasurementLocked(material) ==> m == current
  {
    if material == Some("Topsoil") then Some("Cubic Yards")
    else if material == Some("Structural Fill") then Some("Tons")
    else current
  }

  /** The measurement selector is disabled exactly for the two materials with a fixed measurement. */
  predicate MeasurementLocked(material: Option<string>) {
    material == Some("Topsoil") || material == Some("Structural Fill")
  }

  /** Whatever is picked while the selector is locked, the material rule puts the fixed measurement back. */
  lemma LockedMeasurementIsFixed(material: Option<string>, a: Option<string>, b: Option<string>)
    requires MeasurementLocked(material)
    ensures MeasurementAfterMaterial(material, a) == MeasurementAfterMaterial(material, b)
  {
  }

  /** `handleAddressChange`: the address always changes; a picked position also sets the draft's coordinates. */
  function HandleAddressChange(s: FormState, newAddress: string, picked: Option<LngLat>): (t: FormState)
    ensures t.address == newAddress
    ensures picked.None? ==> t.coordinates == s.coordinates && t.draft == s.draft
    ensures picked.Some? ==>
      t.coordinates == picked && t.draft == s.draft.(latitude := Some(picked.value.lat), longitude := Some(picked.value.lng))
  {
    if picked.Some? then
      FormState(s.draft.(latitude := Some(picked.value.lat), longitude := Some(picked.value.lng)), newAddress, picked)
    else s.(address := newAddress)
  }

  /** Picking an address on the map and submitting stores that position, latitude first, and the simplified address. */
  lemma PickThenCreate(s: FormState, address: string, picked: LngLat, user: CurrentUser, now: string)
    ensures var n := ListingToCreate(HandleAddressChange(s, address, Some(picked)), user, now);
      n.latitude == Some(picked.lat) && n.longitude == Some(picked.lng) && n.address == SimplifyAddress(address)
  {
  }
}

=== FILE: dashboard_component.dfy ===
/** The older dashboard component: a boolean "my listings" tab and local completion. */
module DashboardComponent {
  import opened Wrappers
  import opened Seqs
  import opened Listings
  import opened TabFilters

  /** The per-listing test of `filteredListings(listings, isMyListings)`. */
  predicate ComponentKeeps(l: Listing, isMyListings: bool, currentUser: Option<string>, f: Filters) {
    && isMyListings == IsOwn(l, currentUser)
    && AttributesMatch(l, f)
    && (f.status == "all" || l.status == f.status)
  }

  function KeepFn(isMyListings: bool, currentUser: Option<string>, f: Filters): Listing -> bool {
    l => ComponentKeeps(l, isMyListings, currentUser, f)
  }

  /** `filteredListings`: own listings on the "my listings" tab, everyone else's otherwise, each with its distance. */
  function FilteredListings(
    ls: seq<Listing>, isMyListings: bool, currentUser: Option<string>, f: Filters,
    user: Option<LatLng>, dist: DistanceFn): (r: seq<Annotated>)
    ensures IsSubseq(Strip(r), ls)
    ensures forall i :: 0 <= i < |r| ==> r[i].distance == DistanceTo(r[i].listing, user, dist)
    ensures forall i :: 0 <= i < |r| ==> IsOwn(r[i].listing, currentUser) == isMyListings
    ensures forall i :: 0 <= i < |r| ==> AttributesMatch(r[i].listing, f)
    ensures f.status != "all" ==> forall i :: 0 <= i < |r| ==> r[i].listing.status == f.status
    ensures forall i :: 0 <= i < |ls| && ComponentKeeps(ls[i], isMyListings, currentUser, f) ==> ls[i] in Strip(r)
  {
    var kept := Filter(ls, KeepFn(isMyListings, currentUser, f));
    FilterIsSubseq(ls, KeepFn(isMyListings, currentUser, f));
    var r := Annotate(kept, user, dist);
    assert Strip(r) == kept;
    r
  }

  /** With every other filter at "all", the two tabs split the listings: together they have exactly as many. */
  lemma TabsPartition(ls: seq<Listing>, currentUser: Option<string>, user: Option<LatLng>, dist: DistanceFn)
    ensures
      var mine := FilteredListings(ls, true, currentUser, NoFilters, user, dist);
      var others := FilteredListings(ls, false, currentUser, NoFilters, user, dist);
      && |mine| + |others| == |ls|
      && (forall i :: 0 <= i < |ls| ==> ls[i] in Strip(mine) || ls[i] in Strip(others))
      && (forall l :: l in Strip(mine) ==> l !in Strip(others))
  {
    var p := KeepFn(true, currentUser, NoFilters);
    var q := KeepFn(false, currentUser, NoFilters);
    forall x: Listing ensures p(x) == !q(x) {
      assert QuantityRange.ClientKeeps(x.quantity, "all");
    }
    FilterLength(ls, p);
    FilterLength(ls, q);
    CountComplement(ls, p, q);
  }

  /** `handleCompleteListing` after the update succeeds: the matching listing becomes completed. */
  function CompleteListing(ls: seq<Listing>, id: string, quantityMoved: int, recipientCompany: string)
    : (r: seq<Listing>)
    ensures |r| == |ls|
    ensures forall i :: 0 <= i < |ls| && ls[i].id != id ==> r[i] == ls[i]
    ensures forall i :: 0 <= i < |ls| && ls[i].id == id ==>
      r[i] == ls[i].(status := "completed", quantityMoved := Some(quantityMoved),
                     recipientCompany := Some(recipientCompany))
  {
    seq(|ls|, i requires 0 <= i < |ls| =>
      if ls[i].id == id
      then ls[i].(status := "completed", quantityMoved := Some(quantityMoved),
                  recipientCompany := Some(recipientCompany))
      else ls[i])
  }

  /** After completion the listing is gone from the "active" status filter and shows under "completed". */
  lemma CompletedListingLeavesActiveFilter(
    ls: seq<Listing>, id: string, moved: int, company: string, currentUser: Option<string>, f: Filters,
    user: Option<LatLng>, dist: DistanceFn)
    ensures
      var after := CompleteListing(ls, id, moved, company);
      forall l :: l in Strip(FilteredListings(after, true, currentUser, f.(status := "active"), user, dist))
        ==> l.id != id
  {
  }
}

=== FILE: dashboard_page.dfy ===
/** The dashboard page: tab filtering with distance annotation, and the local list updates. */
module DashboardPage {
  import opened Wrappers
  import opened Seqs
  import opened Listings
  import opened TabFilters
  import ListingsView

  /** The per-listing test of `filteredListings` for a tab. */
  predicate PageKeeps(l: Listing, tab: string, currentUser: Option<string>, f: Filters) {
    && !(tab == "my-listings" && !IsOwn(l, currentUser))
    && !(tab == "active-listings" && (IsOwn(l, currentUser) || l.status != "active"))
    && !(tab == "my-listings" && f.status != "all" && l.status != f.status)
    && AttributesMatch(l, f)
  }

  function KeepFn(tab: string, currentUser: Option<string>, f: Filters): Listing -> bool {
    l => PageKeeps(l, tab, currentUser, f)
  }

  /**
   * `filteredListings(listings, tab)`: the non-null listings that pass the tab's tests, in order,
   * each annotated with its distance from the user.
   */
  function FilteredListings(
    ls: seq<Option<Listing>>, tab: string, currentUser: Option<string>, f: Filters,
    user: Option<LatLng>, dist: DistanceFn): (r: seq<Annotated>)
    ensures IsSubseq(Strip(r), Present(ls))
    ensures forall i :: 0 <= i < |r| ==> r[i].distance == DistanceTo(r[i].listing, user, dist)
    ensures forall i :: 0 <= i < |r| ==> AttributesMatch(r[i].listing, f)
    ensures tab == "my-listings" ==> forall i :: 0 <= i < |r| ==> currentUser == Some(r[i].listing.userId)
    ensures tab == "my-listings" && f.status != "all" ==>
      forall i :: 0 <= i < |r| ==> r[i].listing.status == f.status
    ensures tab == "active-listings" ==>
      forall i :: 0 <= i < |r| ==> !IsOwn(r[i].listing, currentUser) && r[i].listing.status == "active"
    ensures forall l :: l in Present(ls) && PageKeeps(l, tab, currentUser, f) ==> l in Strip(r)
  {
    var kept := Filter(Present(ls), KeepFn(tab, currentUser, f));
    FilterIsSubseq(Present(ls), KeepFn(tab, currentUser, f));
    var r := Annotate(kept, user, dist);
    assert Strip(r) == kept;
    r
  }

  /** The status selection matters on the "my-listings" tab only. */
  lemma {:induction false} StatusFilterOnlyOnMyListings(
    ls: seq<Option<Listing>>, tab: string, currentUser: Option<string>, f: Filters, status: string,
    user: Option<LatLng>, dist: DistanceFn)
    requires tab != "my-listings"
    ensures FilteredListings(ls, tab, currentUser, f, user, dist)
         == FilteredListings(ls, tab, currentUser, f.(status := status), user, dist)
  {
    var present := Present(ls);
    FilterCongruent(present, KeepFn(tab, currentUser, f), KeepFn(tab, currentUser, f.(status := status)));
  }

  /** No listing is shown on both the "my-listings" and the "active-listings" tab. */
  lemma TabsAreDisjoint(
    ls: seq<Option<Listing>>, currentUser: Option<string>, f: Filters, g: Filters,
    user: Option<LatLng>, dist: DistanceFn)
    ensures
      var mine := Strip(FilteredListings(ls, "my-listings", currentUser, f, user, dist));
      var others := Strip(FilteredListings(ls, "active-listings", currentUser, g, user, dist));
      forall l :: l in mine ==> l !in others
  {
  }

  /** `handleTabChange`: the status selection a tab starts with. */
  function StatusAfterTabChange(tab: string): (status: string)
    ensures tab == "my-listings" || tab == "active-listings" <==> status == "active"
    ensures status == "active" || status == "all"
  {
    if tab == "my-listings" then "active"
    else if tab == "active-listings" then "active"
    else "all"
  }

  /** After switching to either listing tab, whatever the previous selection, only active listings are shown. */
  lemma TabChangeShowsActiveOnly(
    ls: seq<Option<Listing>>, tab: string, currentUser: Option<string>, f: Filters,
    user: Option<LatLng>, dist: DistanceFn)
    ensures tab == "my-listings" || tab == "active-listings" ==>
      var r := FilteredListings(ls, tab, currentUser, f.(status := StatusAfterTabChange(tab)), user, dist);
      forall i :: 0 <= i < |r| ==> r[i].listing.status == "active"
  {
  }

  /** `handleUpdateListing`: the listing with the edited listing's id is replaced, nothing else changes. */
  function UpdateListing(ls: seq<Listing>, updated: Listing): (r: seq<Listing>)
    ensures |r| == |ls|
    ensures forall i :: 0 <= i < |ls| && ls[i].id != updated.id ==> r[i] == ls[i]
    ensures forall i :: 0 <= i < |ls| && ls[i].id == updated.id ==> r[i] == updated
  {
    ReplaceWhereId(ls, updated.id, updated)
  }

  /** `handleInactivateListing` after the database update succeeds. */
  function InactivateListing(ls: seq<Listing>, id: string): (r: seq<Listing>)
    ensures |r| == |ls|
    ensures forall i :: 0 <= i < |ls| && ls[i].id != id ==> r[i] == ls[i]
    ensures forall i :: 0 <= i < |ls| && ls[i].id == id ==> r[i] == ls[i].(status := "inactive")
  {
    SetStatusById(ls, id, "inactive")
  }

  /**
   * `handleCompleteListing` after the server answers: the completed listing is replaced by the
   * server's updated record and the new completed record, if any, is appended.
   */
  function CompleteListing(ls: seq<Listing>, listingId: string, updated: Listing, newCompleted: Option<Listing>)
    : (r: seq<Listing>)
    ensures |r| == |ls| + (if newCompleted.Some? then 1 else 0)
    ensures forall i :: 0 <= i < |ls| ==> r[i] == (if ls[i].id == listingId then updated else ls[i])
    ensures newCompleted.Some? ==> r[|ls|] == newCompleted.value
  {
    var replaced := ReplaceWhereId(ls, listingId, updated);
    match newCompleted
    case Some(c) => replaced + [c]
    case None => replaced
  }

  /** Applying the same edit twice is the same as applying it once. */
  lemma UpdateListingIdempotent(ls: seq<Listing>, updated: Listing)
    ensures UpdateListing(UpdateListing(ls, updated), updated) == UpdateListing(ls, updated)
  {
  }

  /** Inactivation is idempotent and leaves the ids of the list as they were. */
  lemma InactivateListingIdempotent(ls: seq<Listing>, id: string)
    ensures InactivateListing(InactivateListing(ls, id), id) == InactivateListing(ls, id)
    ensures forall i :: 0 <= i < |ls| ==> InactivateListing(ls, id)[i].id == ls[i].id
  {
  }

  /** A completion that moves the whole quantity creates no new record and is the same as an edit. */
  lemma FullCompletionIsUpdate(ls: seq<Listing>, updated: Listing)
    ensures CompleteListing(ls, updated.id, updated, None) == UpdateListing(ls, updated)
  {
  }

  /** The list view's completion handler, once its list is stored, computes the dashboard's list. */
  lemma ViewAndPageCompleteAlike(ls: seq<Listing>, updated: Listing, newCompleted: Option<Listing>)
    ensures ListingsView.CompleteListing(ls, updated, newCompleted) == CompleteListing(ls, updated.id, updated, newCompleted)
  {
  }
}

=== FILE: edit_listing_modal.dfy ===
/**
 * The edit-listing dialog. The file holds an unresolved merge: the first branch edits the hosted-database
 * listing and submits it itself; the second edits an ORM listing and hands it to `onSave`.
 */
module EditListingModal {
  import opened Wrappers
  import opened Listings
  import opened StoreListings
  import opened CreateListingModal

  /** The first branch's state: the listing being edited, the typed address, the picked position, the error. */
  datatype EditState = EditState(edited: Option<Listing>, address: string, coordinates: Option<LngLat>, error: Option<string>)

  /**
   * After the listing is fetched: the error cleared before the fetch stays cleared, and a position is kept only
   * when both coordinates are truthy, as `[lng, lat]`.
   */
  function LoadFetched(s: EditState, fetched: Listing): (t: EditState)
    ensures t.edited == Some(fetched) && t.address == fetched.address
    ensures t.coordinates.Some? <==> Truthy(fetched.latitude) && Truthy(fetched.longitude)
    ensures t.coordinates.Some? ==>
      t.coordinates.value.lat == fetched.latitude.value && t.coordinates.value.lng == fetched.longitude.value
    ensures t.error.None?
  {
    s.(edited := Some(fetched), address := fetched.address, error := None,
       coordinates := if Truthy(fetched.latitude) && Truthy(fetched.longitude)
         then Some(LngLat(fetched.longitude.value, fetched.latitude.value)) else None)
  }

  const NoListingMessage := "No valid listing provided for editing."

  /** Opening the dialog without a listing that has an id: only the error changes. */
  function OpenWithoutListing(s: EditState): (t: EditState)
    ensures t.error == Some(NoListingMessage)
    ensures t.edited == s.edited && t.address == s.address && t.coordinates == s.coordinates
  {
    s.(error := Some(NoListingMessage))
  }

  /** A later successful load clears the error left by an opening without a listing. */
  lemma LoadClearsOpenError(s: EditState, fetched: Listing)
    ensures OpenWithoutListing(s).error.Some?
    ensures LoadFetched(OpenWithoutListing(s), fetched).error.None?
  {
  }

  datatype SubmitOutcome = SubmitError(message: string) | Update(listing: Listing)

  /** `handleSubmit`: nothing to update without a listing with an id; otherwise the listing with the simplified
      address and the picked position (or no position). */
  function HandleSubmit(s: EditState): (o: SubmitOutcome)
    ensures o.SubmitError? <==> s.edited.None? || s.edited.value.id == ""
    ensures o.SubmitError? ==> o.message == "No valid listing data to update."
    ensures o.Update? ==> o.listing.id == s.edited.value.id && o.listing.address == SimplifyAddress(s.address)
    ensures o.Update? && s.coordinates.Some? ==>
      o.listing.latitude == Some(s.coordinates.value.lat) && o.listing.longitude == Some(s.coordinates.value.lng)
    ensures o.Update? && s.coordinates.None? ==> o.listing.latitude.None? && o.listing.longitude.None?
    ensures o.Update? ==>
      o.listing.(address := s.edited.value.address, latitude := s.edited.value.latitude,
                 longitude := s.edited.value.longitude) == s.edited.value
  {
    if s.edited.None? || s.edited.value.id == "" then SubmitError("No valid listing data to update.")
    else
      var c := s.coordinates;
      Update(s.edited.value.(address := SimplifyAddress(s.address),
                             latitude := if c.Some? then Some(c.value.lat) else None,
                             longitude := if c.Some? then Some(c.value.lng) else None))
  }

  /** `handleAddressChange`: without a picked position only the address changes. */
  function HandleAddressChange(s: EditState, newAddress: string, picked: Option<LngLat>): (t: EditState)
    ensures t.address == newAddress && t.error == s.error
    ensures picked.None? ==> t.coordinates == s.coordinates && t.edited == s.edited
    ensures picked.Some? ==> t.coordinates == picked
    ensures picked.Some? ==> (t.edited.Some? <==> s.edited.Some?)
    ensures picked.Some? && s.edited.Some? ==>
      t.edited.value == s.edited.value.(latitude := Some(picked.value.lat), longitude := Some(picked.value.lng))
  {
    if picked.None? then s.(address := newAddress)
    else
      s.(address := newAddress, coordinates := picked,
         edited := if s.edited.Some?
           then Some(s.edited.value.(latitude := Some(picked.value.lat), longitude := Some(picked.value.lng)))
           else None)
  }

  /** Loading a listing with a position and submitting it unchanged writes back the same position, with the
      address simplified; a listing whose latitude or longitude is 0 or missing is written back with neither. */
  lemma LoadThenSubmit(s: EditState, fetched: Listing)
    requires fetched.id != ""
    ensures var o := HandleSubmit(LoadFetched(s, fetched));
      && o.Update?
      && (Truthy(fetched.latitude) && Truthy(fetched.longitude) ==>
            o.listing == fetched.(address := SimplifyAddress(fetched.address)))
      && (!(Truthy(fetched.latitude) && Truthy(fetched.longitude)) ==>
            o.listing == fetched.(address := SimplifyAddress(fetched.address), latitude := None, longitude := None))
  {
  }

  /**
   * The second branch's `handleMapClick`: a click sets the position; `reverse` is the reverse geocoding answer,
   * whose place name then replaces the address.
   */
  function HandleMapClick(edited: Option<StoreListing>, click: Option<LngLat>, reverse: Option<string>)
    : (r: Option<StoreListing>)
    ensures edited.None? || click.None? ==> r == edited
    ensures edited.Some? && click.Some? ==>
      r.Some? && r.value.latitude == click.value.lat && r.value.longitude == click.value.lng
      && r.value.address == (if reverse.Some? then reverse.value else edited.value.address)
      && r.value.(latitude := edited.value.latitude, longitude := edited.value.longitude,
                  address := edited.value.address) == edited.value
  {
    if edited.Some? && click.Some? then
      var moved := edited.value.(latitude := click.value.lat, longitude := click.value.lng);
      Some(if reverse.Some? then moved.(address := reverse.value) else moved)
    else edited
  }

  /** The second branch's `handleSave`: the listing is handed over when there is one, and the dialog always closes. */
  datatype SaveEffects = SaveEffects(saved: Option<StoreListing>, closed: bool)

  function HandleSave(edited: Option<StoreListing>): (e: SaveEffects)
    ensures e.saved == edited
    ensures e.closed
  {
    SaveEffects(edited, true)
  }

  /**
   * The second branch's `handleAddressSelect`: the address is taken at once; `geocoded` is the forward geocoding
   * answer, which moves the position when it finds the address.
   */
  function HandleAddressSelect(edited: Option<StoreListing>, selected: string, geocoded: Option<LngLat>): (r: Option<StoreListing>)
    ensures edited.None? <==> r.None?
    ensures r.Some? ==> r.value.address == selected
    ensures r.Some? && geocoded.Some? ==> r.value.latitude == geocoded.value.lat && r.value.longitude == geocoded.value.lng
    ensures r.Some? ==> (
      r.value.(address := edited.value.address, latitude := edited.value.latitude, longitude := edited.value.longitude)
        == edited.value)
    ensures r.Some? && geocoded.None? ==> r.value.latitude == edited.value.latitude && r.value.longitude == edited.value.longitude
  {
    if edited.None? then None
    else
      var withAddress := edited.value.(address := selected);
      if geocoded.Some? then Some(withAddress.(latitude := geocoded.value.lat, longitude := geocoded.value.lng))
      else Some(withAddress)
  }

  /** Clicking the map and saving hands over the listing at the clicked position and, when found, its place name. */
  lemma ClickThenSave(l: StoreListing, click: LngLat, reverse: Option<string>)
    ensures HandleSave(HandleMapClick(Some(l), Some(click), reverse)).saved
      == Some(l.(latitude := click.lat, longitude := click.lng,
                 address := if reverse.Some? then reverse.value else l.address))
  {
  }

  /** Selecting an address and saving hands over the listing with that address and, when found, its position. */
  lemma SelectThenSave(l: StoreListing, selected: string, geocoded: Option<LngLat>)
    ensures HandleSave(HandleAddressSelect(Some(l), selected, geocoded)).saved
      == Some(if geocoded.Some? then l.(address := selected, latitude := geocoded.value.lat, longitude := geocoded.value.lng)
              else l.(address := selected))
  {
  }

  /** Picking an address in the first branch and submitting writes the simplified address at the picked position. */
  lemma ChangeThenSubmit(s: EditState, newAddress: string, picked: LngLat)
    requires s.edited.Some? && s.edited.value.id != ""
    ensures HandleSubmit(HandleAddressChange(s, newAddress, Some(picked)))
      == Update(s.edited.value.(address := SimplifyAddress(newAddress), latitude := Some(picked.lat),
                                longitude := Some(picked.lng)))
  {
  }
}

=== FILE: filter_options.dfy ===
/**
 * The filter panel. The file holds an unresolved merge: the first branch edits the legacy filter record
 * field by field; the second keeps string filters by key, reports each change to its parent, and can reset.
 */
module FilterOptions {
  import opened Wrappers
  import opened LegacyListings

  /** The first branch's `handleChange(key, value)`, one constructor per key of the filter record. */
  datatype FilterChange =
    | MaterialType(material: string)
    | MinQuantity(minimum: Option<int>)
    | MaxDistance(distance: real)
    | Status(status: string)

  /** `onFilterChange({ ...filters, [key]: value })`: the named field takes the value, the others keep theirs. */
  function HandleChange(f: LegacyFilters, change: FilterChange): (g: LegacyFilters)
    ensures change.MaterialType? ==> g.materialType == change.material
    ensures change.MinQuantity? ==> g.minQuantity == change.minimum
    ensures change.MaxDistance? ==> g.maxDistance == change.distance
    ensures change.Status? ==> g.status == change.status
    ensures !change.MaterialType? ==> g.materialType == f.materialType
    ensures !change.MinQuantity? ==> g.minQuantity == f.minQuantity
    ensures !change.MaxDistance? ==> g.maxDistance == f.maxDistance
    ensures !change.Status? ==> g.status == f.status
  {
    match change
    case MaterialType(m) => f.(materialType := m)
    case MinQuantity(q) => f.(minQuantity := q)
    case MaxDistance(d) => f.(maxDistance := d)
    case Status(s) => f.(status := s)
  }

  /** Setting a field to the value it already has changes nothing. */
  lemma HandleChangeIdempotent(f: LegacyFilters, change: FilterChange)
    ensures HandleChange(HandleChange(f, change), change) == HandleChange(f, change)
  {
  }

  /** The second branch's filters: a string value per filter key. */
  type KeyedFilters = map<string, string>

  /** What the panel reports to its parent. */
  datatype FilterEvent = FilterChanged(key: string, value: string) | FiltersCleared

  /** The panel's new filters and the calls it made to its parent, in order. */
  datatype PanelStep = PanelStep(filters: KeyedFilters, events: seq<FilterEvent>)

  /** The parent's filters after it receives the panel's calls: each change sets one key. */
  function Apply(parent: KeyedFilters, events: seq<FilterEvent>): KeyedFilters
    decreases |events|
  {
    if events == [] then parent
    else
      var next := if events[0].FilterChanged? then parent[events[0].key := events[0].value] else parent;
      Apply(next, events[1..])
  }

  /** `handleFilterChange`: only the named key changes, and the parent hears exactly that change. */
  function HandleFilterChange(filters: KeyedFilters, key: string, value: string): (step: PanelStep)
    ensures key in step.filters && step.filters[key] == value
    ensures forall k :: k != key ==> (k in step.filters <==> k in filters)
    ensures forall k :: k != key && k in filters ==> step.filters[k] == filters[k]
    ensures step.events == [FilterChanged(key, value)]
  {
    PanelStep(filters[key := value], [FilterChanged(key, value)])
  }

  /** A parent that agreed with the panel before a change agrees with it afterwards. */
  lemma ChangeKeepsParentInStep(filters: KeyedFilters, key: string, value: string)
    ensures Apply(filters, HandleFilterChange(filters, key, value).events) == HandleFilterChange(filters, key, value).filters
  {
    var step := HandleFilterChange(filters, key, value);
    assert step.events[1..] == [];
  }

  /** `handleClearFilters`: the panel's filters become the cleared object (status dropped when it is disabled),
      the parent is told each key once, in object order, and then that the filters were cleared. */
  function HandleClearFilters(disableStatus: bool): (step: PanelStep)
    ensures step.filters.Keys == {"distance", "material", "quantity"} + (if disableStatus then {} else {"status"})
    ensures step.filters["distance"] == "10" && step.filters["material"] == "all" && step.filters["quantity"] == "all"
    ensures !disableStatus ==> step.filters["status"] == "all"
    ensures |step.events| == (if disableStatus then 4 else 5) && step.events[|step.events| - 1] == FiltersCleared
    ensures forall i :: 0 <= i < |step.events| - 1 ==>
      step.events[i].FilterChanged? && step.events[i].key in step.filters
      && step.filters[step.events[i].key] == step.events[i].value
    ensures forall k :: k in step.filters ==>
      exists i :: 0 <= i < |step.events| - 1 && step.events[i] == FilterChanged(k, step.filters[k])
  {
    var m := map["distance" := "10", "material" := "all", "quantity" := "all"];
    var changes := [FilterChanged("distance", "10"), FilterChanged("material", "all"), FilterChanged("quantity", "all")];
    if disableStatus then
      var e := changes + [FiltersCleared];
      assert e[0] == changes[0] && e[1] == changes[1] && e[2] == changes[2];
      PanelStep(m, e)
    else
      var e := [FilterChanged("status", "all")] + changes + [FiltersCleared];
      assert e[1] == changes[0] && e[2] == changes[1] && e[3] == changes[2];
      var f := m["status" := "all"];
      assert forall k :: k in f ==> k == "status" || k in m;
      assert e[0] == FilterChanged("status", f["status"]);
      PanelStep(f, e)
  }

  /** After a reset the parent holds the cleared values for every cleared key and keeps its other keys. */
  lemma ClearResetsParent(parent: KeyedFilters, disableStatus: bool)
    ensures Apply(parent, HandleClearFilters(disableStatus).events) == parent + HandleClearFilters(disableStatus).filters
  {
    var step := HandleClearFilters(disableStatus);
    var e := step.events;
    var p0 := if disableStatus then parent else parent["status" := "all"];
    var rest := if disableStatus then e else e[1..];
    assert Apply(parent, e) == Apply(p0, rest);
    assert rest == [FilterChanged("distance", "10"), FilterChanged("material", "all"), FilterChanged("quantity", "all"),
                    FiltersCleared];
    var p1 := p0["distance" := "10"];
    var p2 := p1["material" := "all"];
    var p3 := p2["quantity" := "all"];
    assert Apply(p0, rest) == Apply(p1, rest[1..]);
    assert Apply(p1, rest[1..]) == Apply(p2, rest[2..]);
    assert Apply(p2, rest[2..]) == Apply(p3, rest[3..]);
    assert Apply(p3, rest[3..]) == Apply(p3, rest[4..]);
    assert rest[4..] == [];
    assert p3 == parent + step.filters;
  }
}

=== FILE: js_number.dfy ===
/**
 * JavaScript's string-to-number conversions over the decimal grammar
 *   numeral ::= ('+' | '-')? digit+ ('.' digit*)?
 * `None` stands for `NaN`.
 */
module JsNumber {
  import opened Wrappers
  import opened JsText

  predicate AllDigits(s: string) {
    forall i :: 0 <= i < |s| ==> IsDigit(s[i])
  }

  function DigitValue(c: char): (d: nat)
    requires IsDigit(c)
    ensures d < 10
  {
    c as int - '0' as int
  }

  /** The value of a run of decimal digits, most significant first. */
  function DigitsValue(ds: string): nat
    requires AllDigits(ds)
    decreases |ds|
  {
    if ds == [] then 0 else DigitsValue(ds[..|ds| - 1]) * 10 + DigitValue(ds[|ds| - 1])
  }

  /** The value of the digits after a decimal point. */
  function FractionValue(ds: string): real
    requires AllDigits(ds)
    decreases |ds|
  {
    if ds == [] then 0.0 else (DigitValue(ds[0]) as real + FractionValue(ds[1..])) / 10.0
  }

  /** The run of digits at the start of `s`. */
  function LeadingDigits(s: string): (ds: string)
    ensures |ds| <= |s| && ds == s[..|ds|]
    ensures AllDigits(ds)
    ensures |ds| < |s| ==> !IsDigit(s[|ds|])
    decreases |s|
  {
    if s == [] || !IsDigit(s[0]) then "" else [s[0]] + LeadingDigits(s[1..])
  }

  /** A numeral read from the start of a string: sign, digits before and after the point, characters used. */
  datatype Numeral = Numeral(negative: bool, whole: string, fraction: string, length: nat)

  predicate WellFormed(n: Numeral) {
    |n.whole| > 0 && AllDigits(n.whole) && AllDigits(n.fraction)
  }

  /** The longest numeral at the start of `s`, if it starts with one. */
  function ScanNumeral(s: string): (r: Option<Numeral>)
    ensures r.Some? ==> WellFormed(r.value) && 0 < r.value.length <= |s|
  {
    var sign: nat := if |s| > 0 && (s[0] == '+' || s[0] == '-') then 1 else 0;
    var whole := LeadingDigits(s[sign..]);
    if whole == "" then None
    else
      var after := sign + |whole|;
      var negative := sign == 1 && s[0] == '-';
      if after < |s| && s[after] == '.' then
        var fraction := LeadingDigits(s[after + 1..]);
        Some(Numeral(negative, whole, fraction, after + 1 + |fraction|))
      else
        Some(Numeral(negative, whole, "", after))
  }

  function Value(n: Numeral): real
    requires WellFormed(n)
  {
    var magnitude := DigitsValue(n.whole) as real + FractionValue(n.fraction);
    if n.negative then -magnitude else magnitude
  }

  /** `Number(s)`: the empty string is 0, a whole numeral is its value, anything else is NaN. */
  function Number(s: string): Option<real>
  {
    if s == "" then Some(0.0)
    else
      match ScanNumeral(s)
      case Some(n) => if n.length == |s| then Some(Value(n)) else None
      case None => None
  }

  /** `parseFloat(s)`: the value of the longest leading numeral, NaN when there is none. */
  function ParseFloat(s: string): Option<real>
  {
    match ScanNumeral(s)
    case Some(n) => Some(Value(n))
    case None => None
  }

  /** `parseInt(s, 10)`: the value of the leading optionally signed digit run, NaN when there is none. */
  function ParseInt(s: string): Option<int>
  {
    match ScanNumeral(s)
    case Some(n) => var m: int := DigitsValue(n.whole); Some(if n.negative then -m else m)
    case None => None
  }

  /** JavaScript truthiness of a number: neither 0 nor NaN. */
  predicate Truthy(x: Option<real>) {
    x.Some? && x.value != 0.0
  }

  /** The rendering of a natural number reads back as that number. */
  lemma {:induction false} DigitsValueOfNatToString(n: nat)
    ensures DigitsValue(NatToString(n)) == n
    decreases n
  {
    if n >= 10 {
      var s := NatToString(n);
      DigitsValueOfNatToString(n / 10);
      assert s[..|s| - 1] == NatToString(n / 10);
    }
  }

  /** The leading digits of a digit string are the whole string. */
  lemma {:induction false} LeadingDigitsOfDigits(ds: string)
    requires AllDigits(ds)
    ensures LeadingDigits(ds) == ds
    decreases |ds|
  {
    if ds != [] {
      LeadingDigitsOfDigits(ds[1..]);
      assert ds == [ds[0]] + ds[1..];
    }
  }

  /** A leading digit run stops at the first character that is not a digit. */
  lemma {:induction false} LeadingDigitsStop(ds: string, rest: string)
    requires AllDigits(ds)
    requires rest != [] && !IsDigit(rest[0])
    ensures LeadingDigits(ds + rest) == ds
    decreases |ds|
  {
    if ds == [] {
      assert ds + rest == rest;
    } else {
      assert (ds + rest)[1..] == ds[1..] + rest;
      LeadingDigitsStop(ds[1..], rest);
      assert ds == [ds[0]] + ds[1..];
    }
  }

  /** A non-empty digit string scans as an unsigned numeral with no fraction that uses all of it. */
  lemma ScanDigits(ds: string)
    requires |ds| > 0 && AllDigits(ds)
    ensures ScanNumeral(ds) == Some(Numeral(false, ds, "", |ds|))
  {
    assert ds[0..] == ds;
    LeadingDigitsOfDigits(ds);
  }

  /** `Number(String(n))` is `n` for every natural number. */
  lemma NumberOfNatToString(n: nat)
    ensures Number(NatToString(n)) == Some(n as real)
  {
    ScanDigits(NatToString(n));
    DigitsValueOfNatToString(n);
  }

  /** `parseFloat(String(n))` is `n` for every natural number. */
  lemma ParseFloatOfNatToString(n: nat)
    ensures ParseFloat(NatToString(n)) == Some(n as real)
  {
    ScanDigits(NatToString(n));
    DigitsValueOfNatToString(n);
  }

  /** `parseInt(String(n), 10)` is `n` for every integer: the rendering round-trips. */
  lemma ParseIntOfIntToString(n: int)
    ensures ParseInt(IntToString(n)) == Some(n)
  {
    if n < 0 {
      var m: nat := -n;
      var ds := NatToString(m);
      var s := IntToString(n);
      assert s == "-" + ds;
      assert s[1..] == ds;
      LeadingDigitsOfDigits(ds);
      DigitsValueOfNatToString(m);
    } else {
      ScanDigits(NatToString(n));
      DigitsValueOfNatToString(n);
    }
  }

  /** A digit string followed by a character that is neither a digit nor a point is NaN to `Number`. */
  lemma NumberOfTrailingJunk(ds: string, junk: char)
    requires |ds| > 0 && AllDigits(ds)
    requires !IsDigit(junk) && junk != '.'
    ensures Number(ds + [junk]) == None
  {
    var s := ds + [junk];
    assert s[0..] == s;
    LeadingDigitsStop(ds, [junk]);
  }
}

=== FILE: js_text.dfy ===
/** The few JavaScript string operations the application relies on, over ASCII text. */
module JsText {

  predicate IsUpper(c: char) { 'A' <= c <= 'Z' }
  predicate IsLower(c: char) { 'a' <= c <= 'z' }
  predicate IsDigit(c: char) { '0' <= c <= '9' }
  predicate IsAlpha(c: char) { IsUpper(c) || IsLower(c) }

  /** ASCII `toLowerCase` of one character. */
  function LowerChar(c: char): (r: char)
    ensures IsUpper(c) ==> IsLower(r)
    ensures !IsUpper(c) ==> r == c
  {
    if IsUpper(c) then (c as int + 32) as char else c
  }

  /** ASCII `toUpperCase` of one character. */
  function UpperChar(c: char): (r: char)
    ensures IsLower(c) ==> IsUpper(r)
    ensures !IsLower(c) ==> r == c
  {
    if IsLower(c) then (c as int - 32) as char else c
  }

  function ToLower(s: string): (r: string)
    ensures |r| == |s|
    ensures forall i :: 0 <= i < |s| ==> !IsUpper(r[i])
  {
    seq(|s|, i requires 0 <= i < |s| => LowerChar(s[i]))
  }

  function ToUpper(s: string): (r: string)
    ensures |r| == |s|
    ensures forall i :: 0 <= i < |s| ==> !IsLower(r[i])
  {
    seq(|s|, i requires 0 <= i < |s| => UpperChar(s[i]))
  }

  /** Lower-casing is idempotent, so two strings that lower-case alike stay alike. */
  lemma ToLowerIdempotent(s: string)
    ensures ToLower(ToLower(s)) == ToLower(s)
  {
  }

  /** Upper-casing a lower-case letter and lower-casing it again gives the letter back. */
  lemma UpperLowerRoundTrip(c: char)
    requires !IsUpper(c)
    ensures LowerChar(UpperChar(c)) == c
  {
  }

  /** `s.replace(/\D/g, '')`: the ASCII digits of `s`, in order. */
  function Digits(s: string): (r: string)
    ensures |r| <= |s|
    ensures forall i :: 0 <= i < |r| ==> IsDigit(r[i])
    decreases |s|
  {
    if s == [] then ""
    else (if IsDigit(s[0]) then [s[0]] else "") + Digits(s[1..])
  }

  /** Stripping non-digits from a string of digits changes nothing. */
  lemma {:induction false} DigitsOfDigits(s: string)
    requires forall i :: 0 <= i < |s| ==> IsDigit(s[i])
    ensures Digits(s) == s
    decreases |s|
  {
    if s != [] {
      DigitsOfDigits(s[1..]);
      assert s == [s[0]] + s[1..];
    }
  }

  /** Digits distributes over concatenation. */
  lemma {:induction false} DigitsAppend(a: string, b: string)
    ensures Digits(a + b) == Digits(a) + Digits(b)
    decreases |a|
  {
    if a == [] {
      assert a + b == b;
    } else {
      assert (a + b)[1..] == a[1..] + b;
      DigitsAppend(a[1..], b);
    }
  }

  /** `s.split(c)` for a one-character separator: at least one part, no part holds the separator. */
  function SplitOn(s: string, c: char): (r: seq<string>)
    ensures |r| >= 1
    ensures forall i :: 0 <= i < |r| ==> c !in r[i]
    decreases |s|
  {
    if s == [] then [""]
    else
      var rest := SplitOn(s[1..], c);
      if s[0] == c then [""] + rest
      else [[s[0]] + rest[0]] + rest[1..]
  }

  /** `parts.join(sep)`. */
  function Join(parts: seq<string>, sep: string): string
    decreases |parts|
  {
    if parts == [] then ""
    else if |parts| == 1 then parts[0]
    else parts[0] + sep + Join(parts[1..], sep)
  }

  /** Splitting and joining again with the same separator is the identity. */
  lemma {:induction false} JoinSplit(s: string, c: char)
    ensures Join(SplitOn(s, c), [c]) == s
    decreases |s|
  {
    if s != [] {
      var rest := SplitOn(s[1..], c);
      JoinSplit(s[1..], c);
      if s[0] == c {
        assert SplitOn(s, c) == [""] + rest;
        assert ([""] + rest)[1..] == rest;
        assert s == [c] + s[1..];
      } else {
        var parts := [[s[0]] + rest[0]] + rest[1..];
        assert SplitOn(s, c) == parts;
        if |rest| == 1 {
          assert s == [s[0]] + rest[0];
        } else {
          assert parts[1..] == rest[1..];
          assert Join(rest, [c]) == rest[0] + [c] + Join(rest[1..], [c]);
          assert s == [s[0]] + s[1..];
        }
      }
    }
  }

  /** Joining separator-free parts and splitting again gives the parts back. */
  lemma {:induction false} SplitJoin(parts: seq<string>, c: char)
    requires parts != []
    requires forall i :: 0 <= i < |parts| ==> c !in parts[i]
    ensures SplitOn(Join(parts, [c]), c) == parts
    decreases |parts|
  {
    if |parts| == 1 {
      SplitWithoutSeparator(parts[0], c);
    } else {
      SplitJoin(parts[1..], c);
      SplitAtFirst(parts[0], c, Join(parts[1..], [c]));
      assert parts == [parts[0]] + parts[1..];
    }
  }

  /** A string without the separator splits into itself. */
  lemma {:induction false} SplitWithoutSeparator(s: string, c: char)
    ensures c !in s ==> SplitOn(s, c) == [s]
    decreases |s|
  {
    if s != [] && c !in s {
      SplitWithoutSeparator(s[1..], c);
      assert s == [s[0]] + s[1..];
    }
  }

  /** A separator after a separator-free prefix ends the first part there. */
  lemma {:induction false} SplitAtFirst(a: string, c: char, b: string)
    requires c !in a
    ensures SplitOn(a + [c] + b, c) == [a] + SplitOn(b, c)
    decreases |a|
  {
    if a == [] {
      assert a + [c] + b == [c] + b;
      assert ([c] + b)[1..] == b;
    } else {
      var s := a + [c] + b;
      assert s[1..] == a[1..] + [c] + b;
      SplitAtFirst(a[1..], c, b);
      assert s[0] == a[0];
      assert a == [a[0]] + a[1..];
    }
  }

  /** `s.endsWith(suffix)`. */
  predicate EndsWith(s: string, suffix: string) {
    |suffix| <= |s| && s[|s| - |suffix|..] == suffix
  }

  /** JavaScript's index normalisation for `slice`: negative counts from the end, clamped to `[0, len]`. */
  function SliceIndex(i: int, len: nat): (r: nat)
    ensures r <= len
    ensures 0 <= i <= len ==> r == i
  {
    if i < 0 then (if len + i < 0 then 0 else len + i)
    else if i > len then len
    else i
  }

  /** `xs.slice(start, end)`. */
  function Slice<T>(xs: seq<T>, start: int, end: int): (r: seq<T>)
    ensures |r| <= |xs|
  {
    var s := SliceIndex(start, |xs|);
    var e := SliceIndex(end, |xs|);
    if s < e then xs[s..e] else []
  }

  /** `xs.slice(-n)` for a positive `n`: the last `n` elements, or all of them when there are fewer. */
  lemma SliceLast<T>(xs: seq<T>, n: nat)
    requires n > 0
    ensures Slice(xs, -(n as int), |xs|) == if |xs| <= n then xs else xs[|xs| - n..]
  {
  }

  /** Code-unit lexicographic order, the order `localeCompare` gives to strings of digits and dashes. */
  predicate LexLe(a: string, b: string)
    decreases |a|
  {
    a == [] || (b != [] && (a[0] < b[0] || (a[0] == b[0] && LexLe(a[1..], b[1..]))))
  }

  lemma {:induction false} LexLeTotal(a: string, b: string)
    ensures LexLe(a, b) || LexLe(b, a)
    decreases |a|
  {
    if a != [] && b != [] && a[0] == b[0] {
      LexLeTotal(a[1..], b[1..]);
    }
  }

  lemma {:induction false} LexLeAntisymmetric(a: string, b: string)
    requires LexLe(a, b) && LexLe(b, a)
    ensures a == b
    decreases |a|
  {
    if a != [] {
      LexLeAntisymmetric(a[1..], b[1..]);
      assert a == [a[0]] + a[1..] && b == [b[0]] + b[1..];
    }
  }

  lemma {:induction false} LexLeTransitive(a: string, b: string, c: string)
    requires LexLe(a, b) && LexLe(b, c)
    ensures LexLe(a, c)
    decreases |a|
  {
    if a != [] && a[0] == b[0] && b[0] == c[0] {
      LexLeTransitive(a[1..], b[1..], c[1..]);
    }
  }

  function DigitChar(d: nat): (c: char)
    requires d < 10
    ensures IsDigit(c)
  {
    ('0' as int + d) as char
  }

  /** The decimal rendering of a natural number (`String(n)`). */
  function NatToString(n: nat): (r: string)
    ensures |r| >= 1
    ensures forall i :: 0 <= i < |r| ==> IsDigit(r[i])
    decreases n
  {
    if n < 10 then [DigitChar(n)] else NatToString(n / 10) + [DigitChar(n % 10)]
  }

  /** The decimal rendering of an integer (`String(n)`, `n.toString()`). */
  function IntToString(n: int): (r: string)
    ensures |r| >= 1
    ensures n >= 0 ==> forall i :: 0 <= i < |r| ==> IsDigit(r[i])
  {
    if n < 0 then "-" + NatToString(-n) else NatToString(n)
  }
}

=== FILE: json.dfy ===
/** JSON-like JavaScript values as request bodies and responses carry them, with truthiness and property lookup. */
module Json {
  import opened Wrappers

  /** A JavaScript value of the kinds the routes read or write. Object members keep their order. */
  datatype Json =
    | JUndefined
    | JNull
    | JBool(b: bool)
    | JNum(n: real)
    | JStr(s: string)
    | JBigInt(i: int)
    | JArray(items: seq<Json>)
    | JObject(members: seq<(string, Json)>)

  /** A request body a route can read: `None` when it does not parse; destructuring `null` throws a `TypeError`. */
  predicate Unreadable(body: Option<Json>) {
    body.None? || body.value.JNull? || body.value.JUndefined?
  }

  /** JavaScript truthiness: `undefined`, `null`, `false`, `0`, `0n` and `""` are falsy. */
  predicate TruthyValue(v: Json) {
    match v
    case JUndefined => false
    case JNull => false
    case JBool(b) => b
    case JNum(n) => n != 0.0
    case JStr(s) => s != ""
    case JBigInt(i) => i != 0
    case JArray(_) => true
    case JObject(_) => true
  }

  /** `v[key]` on a non-null value: the last member with that key, `undefined` when there is none. */
  function Get(v: Json, key: string): (r: Json)
    ensures !v.JObject? ==> r == JUndefined
  {
    if v.JObject? then Lookup(v.members, key) else JUndefined
  }

  function Lookup(members: seq<(string, Json)>, key: string): (r: Json)
    ensures r != JUndefined ==> exists i :: 0 <= i < |members| && members[i] == (key, r)
    ensures (forall i :: 0 <= i < |members| ==> members[i].0 != key) ==> r == JUndefined
    decreases |members|
  {
    if members == [] then JUndefined
    else if members[|members| - 1].0 == key then members[|members| - 1].1
    else Lookup(members[..|members| - 1], key)
  }

  /** The keys of an object's members, in order. */
  function Keys(members: seq<(string, Json)>): (ks: seq<string>)
    ensures |ks| == |members|
    ensures forall i :: 0 <= i < |members| ==> ks[i] == members[i].0
  {
    seq(|members|, i requires 0 <= i < |members| => members[i].0)
  }

  /** The members with every value under `key` replaced by `value`. */
  function Replace(members: seq<(string, Json)>, key: string, value: Json): (r: seq<(string, Json)>)
    ensures |r| == |members|
    ensures forall i :: 0 <= i < |members| ==> r[i] == (if members[i].0 == key then (key, value) else members[i])
  {
    seq(|members|, i requires 0 <= i < |members| => if members[i].0 == key then (key, value) else members[i])
  }

  lemma {:induction false} LookupReplace(members: seq<(string, Json)>, key: string, value: Json, k: string)
    ensures Lookup(Replace(members, key, value), k)
      == if k == key && exists i :: 0 <= i < |members| && members[i].0 == key then value else Lookup(members, k)
    decreases |members|
  {
    if members != [] {
      var front := members[..|members| - 1];
      assert Replace(members, key, value)[..|members| - 1] == Replace(front, key, value);
      LookupReplace(front, key, value, k);
      if members[|members| - 1].0 != key {
        assert (exists i :: 0 <= i < |members| && members[i].0 == key)
          == (exists i :: 0 <= i < |front| && front[i].0 == key) by {
          if exists i :: 0 <= i < |members| && members[i].0 == key {
            var i :| 0 <= i < |members| && members[i].0 == key;
            assert front[i].0 == key;
          }
        }
      }
    }
  }

  lemma LookupAppend(members: seq<(string, Json)>, key: string, value: Json, k: string)
    ensures Lookup(members + [(key, value)], k) == if k == key then value else Lookup(members, k)
  {
    assert (members + [(key, value)])[..|members|] == members;
  }

  /** `{ ...obj, [key]: value }`: an existing key keeps its place and takes the value, a new one is appended. */
  function Put(members: seq<(string, Json)>, key: string, value: Json): (r: seq<(string, Json)>)
    ensures Lookup(r, key) == value
    ensures forall k :: k != key ==> Lookup(r, k) == Lookup(members, k)
    ensures |r| == |members| || (|r| == |members| + 1 && r[|members|] == (key, value))
    ensures forall i :: 0 <= i < |members| ==> r[i].0 == members[i].0
  {
    if exists i :: 0 <= i < |members| && members[i].0 == key then
      var r := Replace(members, key, value);
      LookupReplace(members, key, value, key);
      forall k | k != key ensures Lookup(r, k) == Lookup(members, k) {
        LookupReplace(members, key, value, k);
      }
      r
    else
      LookupAppend(members, key, value, key);
      forall k | k != key ensures Lookup(members + [(key, value)], k) == Lookup(members, k) {
        LookupAppend(members, key, value, k);
      }
      members + [(key, value)]
  }
}

=== FILE: legacy_listings.dfy ===
/**
 * The older seller-centred screens: "My Listings" and "Available Listings". Their listing and filter records
 * come from a shared types module that is not part of this model; only the fields these screens read are kept.
 */
module LegacyListings {
  import opened Wrappers
  import opened Seqs

  /** A listing as these screens see it. `name` holds the material; `distance` may be missing. */
  datatype LegacyListing = LegacyListing(id: string, sellerId: string, name: string, quantity: int,
                                         distance: Option<real>, status: string)

  /** The filter record. `minQuantity` comes from `parseInt`, so it can be `NaN` (`None`). */
  datatype LegacyFilters = LegacyFilters(materialType: string, minQuantity: Option<int>, maxDistance: real,
                                         status: string)

  /** `listing.distance || 0`. */
  function DistanceOrZero(l: LegacyListing): real {
    if l.distance.Some? then l.distance.value else 0.0
  }

  /** The material, quantity and distance tests both screens share. A `NaN` minimum admits nothing. */
  predicate SharedKeeps(l: LegacyListing, f: LegacyFilters) {
    (f.materialType == "all" || l.name == f.materialType)
    && f.minQuantity.Some? && l.quantity >= f.minQuantity.value
    && DistanceOrZero(l) <= f.maxDistance
  }

  function MyKeeps(f: LegacyFilters): LegacyListing -> bool {
    (l: LegacyListing) => SharedKeeps(l, f) && l.status == f.status
  }

  /** `filteredListings` of "My Listings". */
  function MyListings(ls: seq<LegacyListing>, f: LegacyFilters): (r: seq<LegacyListing>)
    ensures IsSubseq(r, ls)
    ensures forall i :: 0 <= i < |r| ==> r[i].status == f.status
    ensures forall i :: 0 <= i < |r| ==> f.minQuantity.Some? && r[i].quantity >= f.minQuantity.value
    ensures forall i :: 0 <= i < |r| ==> f.materialType == "all" || r[i].name == f.materialType
    ensures forall i :: 0 <= i < |r| ==> DistanceOrZero(r[i]) <= f.maxDistance
    ensures forall l :: l in ls && SharedKeeps(l, f) && l.status == f.status ==> l in r
  {
    FilterIsSubseq(ls, MyKeeps(f));
    Filter(ls, MyKeeps(f))
  }

  function AvailableKeeps(currentUser: string, f: LegacyFilters): LegacyListing -> bool {
    (l: LegacyListing) => l.sellerId != currentUser && SharedKeeps(l, f)
  }

  /** `filteredListings` of "Available Listings": other sellers' listings, whatever their status. */
  function AvailableListings(ls: seq<LegacyListing>, currentUser: string, f: LegacyFilters): (r: seq<LegacyListing>)
    ensures IsSubseq(r, ls)
    ensures forall i :: 0 <= i < |r| ==> r[i].sellerId != currentUser
    ensures forall i :: 0 <= i < |r| ==> f.minQuantity.Some? && r[i].quantity >= f.minQuantity.value
    ensures forall i :: 0 <= i < |r| ==> f.materialType == "all" || r[i].name == f.materialType
    ensures forall i :: 0 <= i < |r| ==> DistanceOrZero(r[i]) <= f.maxDistance
    ensures forall l :: l in ls && l.sellerId != currentUser && SharedKeeps(l, f) ==> l in r
  {
    FilterIsSubseq(ls, AvailableKeeps(currentUser, f));
    Filter(ls, AvailableKeeps(currentUser, f))
  }

  /** A listing without a distance passes the distance test whenever the limit is not negative. */
  lemma MissingDistancePasses(l: LegacyListing, f: LegacyFilters)
    requires l.distance.None? && f.maxDistance >= 0.0
    requires f.materialType == "all" && f.minQuantity == Some(0) && l.quantity >= 0
    ensures SharedKeeps(l, f)
  {
  }

  /** A minimum quantity that did not parse hides every listing on both screens. */
  lemma UnparsedMinimumHidesAll(ls: seq<LegacyListing>, currentUser: string, f: LegacyFilters)
    requires f.minQuantity.None?
    ensures MyListings(ls, f) == [] && AvailableListings(ls, currentUser, f) == []
  {
  }

  /** Available listings ignore status: a listing passing "My Listings" for another seller also passes there. */
  lemma MyListingsOfOthersAreAvailable(ls: seq<LegacyListing>, currentUser: string, f: LegacyFilters)
    requires forall i :: 0 <= i < |ls| ==> ls[i].sellerId != currentUser
    ensures IsSubseq(MyListings(ls, f), AvailableListings(ls, currentUser, f))
  {
    FilterStronger(ls, MyKeeps(f), AvailableKeeps(currentUser, f));
  }
}

=== FILE: list_view_item.dfy ===
/** One row of the list view: which actions it offers, its badges, and its status label and colour. */
module ListViewItem {
  import opened Wrappers
  import opened JsText
  import opened Listings

  /** The buttons a row can show. */
  datatype Action = Edit | Complete | Inactivate | ToggleDetails

  /** The row's buttons, in display order. A row on the available tab belongs to someone else. */
  function Actions(status: string, isAvailableListings: bool): (r: seq<Action>)
    ensures Edit in r <==> !isAvailableListings && status != "completed"
    ensures Complete in r <==> !isAvailableListings && status != "completed"
    ensures Inactivate in r <==> !isAvailableListings && status == "active"
    ensures ToggleDetails in r <==> isAvailableListings
    ensures |r| <= 3
  {
    if isAvailableListings then [ToggleDetails]
    else
      (if status != "completed" then [Edit, Complete] else [])
      + (if status == "active" then [Inactivate] else [])
  }

  /** An own completed listing offers nothing; another user's listing offers only the details toggle. */
  lemma ActionsByOwnership(status: string)
    ensures Actions("completed", false) == []
    ensures Actions(status, true) == [ToggleDetails]
    ensures Actions("active", false) == [Edit, Complete, Inactivate]
  {
  }

  /** `toggleExpand`. */
  function ToggleExpand(isExpanded: bool): (r: bool)
    ensures r != isExpanded
  {
    !isExpanded
  }

  /** The toggle button's text: it names what pressing it will do to the details block. */
  function ToggleLabel(isExpanded: bool): (text: string)
    ensures text == "Hide Details" || text == "Show Details"
  {
    if isExpanded then "Hide Details" else "Show Details"
  }

  /** The contact block inside the details: shown on the available tab while the row is expanded. */
  predicate ShowsContact(isAvailableListings: bool, isExpanded: bool) {
    isAvailableListings && isExpanded
  }

  /**
   * The button reads "Hide Details" exactly while the details block (shown when `isExpanded`) is open, each
   * press flips both, and a row showing the contact block is one that offers the toggle.
   */
  lemma ToggleFlipsDetails(status: string, isAvailableListings: bool, isExpanded: bool)
    ensures ToggleLabel(isExpanded) == "Hide Details" <==> isExpanded
    ensures ToggleLabel(ToggleExpand(isExpanded)) != ToggleLabel(isExpanded)
    ensures ShowsContact(isAvailableListings, isExpanded) ==> ToggleDetails in Actions(status, isAvailableListings)
  {
  }

  const ActiveColor := "bg-green-100 text-green-800"
  const CompletedColor := "bg-blue-100 text-blue-800"
  const InactiveColor := "bg-gray-100 text-gray-800"

  /** `getStatusColor`. */
  function StatusColor(status: string): (c: string)
    ensures status !in {"active", "completed"} <==> c == InactiveColor
  {
    match status
    case "active" => ActiveColor
    case "completed" => CompletedColor
    case "inactive" => InactiveColor
    case _ => InactiveColor
  }

  /** The three known statuses get three different colours; every other status looks like an inactive one. */
  lemma ColorDistinguishesStatus(a: string, b: string)
    ensures StatusColor(a) == StatusColor(b) <==>
      a == b || (a !in {"active", "completed"} && b !in {"active", "completed"})
  {
    assert ActiveColor != CompletedColor && ActiveColor != InactiveColor && CompletedColor != InactiveColor by {
      assert ActiveColor[3] != CompletedColor[3] && ActiveColor[5] != InactiveColor[5];
      assert CompletedColor[3] != InactiveColor[3];
    }
  }

  /** `status.charAt(0).toUpperCase() + status.slice(1)`. */
  function StatusLabel(status: string): (shown: string)
    ensures |shown| == |status|
    ensures status != "" ==> shown[0] == UpperChar(status[0]) && shown[1..] == status[1..]
  {
    if status == "" then "" else [UpperChar(status[0])] + status[1..]
  }

  /** Lower-casing the first letter of the label gives the status back when it started lower-case. */
  lemma StatusLabelRoundTrip(status: string)
    requires status != "" && !IsUpper(status[0])
    ensures [LowerChar(StatusLabel(status)[0])] + StatusLabel(status)[1..] == status
  {
    UpperLowerRoundTrip(status[0]);
    assert status == [status[0]] + status[1..];
  }

  /** The "Moved" badge: shown while the listing is not completed and something has been moved. */
  predicate ShowsMovedBadge(l: Listing) {
    l.status != "completed" && l.quantityMoved.Some? && l.quantityMoved.value > 0
  }

  /** The "Traded with" line: shown for completed listings with a partner company. */
  predicate ShowsTradedWith(l: Listing) {
    l.status == "completed" && l.partnerCompany.Some? && l.partnerCompany.value != ""
  }

  /** The transaction badge reads "Import" only for that exact type; everything else reads "Export". */
  function TransactionBadge(l: Listing): (badge: string)
    ensures badge == "Import" <==> l.transactionType == Some("Import")
    ensures badge == "Import" || badge == "Export"
  {
    if l.transactionType == Some("Import") then "Import" else "Export"
  }

  /** A row never shows both the moved badge and the traded-with line. */
  lemma BadgesExclusive(l: Listing)
    ensures !(ShowsMovedBadge(l) && ShowsTradedWith(l))
  {
  }
}

=== FILE: listing.dfy ===
/**
 * The listing record shared by the dashboard pages and components (the hosted-database
 * shape), the distance annotation added for display, and the local list updates that the
 * dashboards apply after an edit, an inactivation or a completion.
 */
module Listings {
  import opened Wrappers
  import opened Seqs

  /** A posted offer of a construction material. Optional columns are `Option`s. */
  datatype Listing = Listing(
    id: string,
    userId: string,
    userName: string,
    userEmail: string,
    userPhone: Option<string>,
    siteName: string,
    companyName: Option<string>,
    material: string,
    quantity: int,
    quantityMoved: Option<int>,
    measurementType: string,
    address: string,
    status: string,
    createdAt: string,
    latitude: Option<real>,
    longitude: Option<real>,
    transactionType: Option<string>,
    partnerCompany: Option<string>,
    recipientCompany: Option<string>
  )

  /** A great-circle distance `(lat1, lon1, lat2, lon2) -> miles`; the formula itself is not modelled. */
  type DistanceFn = (real, real, real, real) -> real

  /** The user's home location as `[latitude, longitude]`, as geocoded from the ZIP code. */
  datatype LatLng = LatLng(lat: real, lng: real)

  /** A listing as displayed: the record plus its distance from the user, when known. */
  datatype Annotated = Annotated(listing: Listing, distance: Option<real>)

  /** JavaScript truthiness of an optional coordinate: present and not 0. */
  predicate Truthy(x: Option<real>) {
    x.Some? && x.value != 0.0
  }

  /** The distance shown for one listing: known only with user coordinates and two truthy listing coordinates. */
  function DistanceTo(l: Listing, user: Option<LatLng>, dist: DistanceFn): (d: Option<real>)
    ensures d.Some? <==> user.Some? && Truthy(l.latitude) && Truthy(l.longitude)
    ensures d.Some? ==> d.value == dist(user.value.lat, user.value.lng, l.latitude.value, l.longitude.value)
  {
    if user.Some? && Truthy(l.latitude) && Truthy(l.longitude) then
      Some(dist(user.value.lat, user.value.lng, l.latitude.value, l.longitude.value))
    else None
  }

  /** `.map(listing => ({...listing, distance}))`. */
  function Annotate(ls: seq<Listing>, user: Option<LatLng>, dist: DistanceFn): (r: seq<Annotated>)
    ensures |r| == |ls|
    ensures forall i :: 0 <= i < |ls| ==> r[i].listing == ls[i] && r[i].distance == DistanceTo(ls[i], user, dist)
  {
    seq(|ls|, i requires 0 <= i < |ls| => Annotated(ls[i], DistanceTo(ls[i], user, dist)))
  }

  /** The records under the annotations. */
  function Strip(r: seq<Annotated>): (ls: seq<Listing>)
    ensures |ls| == |r|
    ensures forall i :: 0 <= i < |r| ==> ls[i] == r[i].listing
  {
    seq(|r|, i requires 0 <= i < |r| => r[i].listing)
  }

  predicate IsPresent(x: Option<Listing>) {
    x.Some?
  }

  /** The listings as optional entries again. */
  function Somes(ls: seq<Listing>): (r: seq<Option<Listing>>)
    ensures |r| == |ls|
  {
    seq(|ls|, i requires 0 <= i < |ls| => Some(ls[i]))
  }

  /** `.filter(listing => !!listing)`: drop the null entries, keep the rest in order. */
  function Present(ls: seq<Option<Listing>>): (r: seq<Listing>)
    ensures |r| <= |ls|
    ensures forall i :: 0 <= i < |ls| && ls[i].Some? ==> ls[i].value in r
    ensures forall x :: x in r ==> Some(x) in ls
    ensures Somes(r) == Filter(ls, IsPresent)
    ensures IsSubseq(Somes(r), ls)
    ensures |r| == Count(ls, IsPresent)
    decreases |ls|
  {
    if ls == [] then []
    else
      var rest := Present(ls[1..]);
      var r := (if ls[0].Some? then [ls[0].value] else []) + rest;
      assert Somes(r) == (if ls[0].Some? then [ls[0]] else []) + Somes(rest);
      FilterIsSubseq(ls, IsPresent);
      FilterLength(ls, IsPresent);
      r
  }

  /** `ls.map(l => l.id === id ? replacement : l)`. */
  function ReplaceWhereId(ls: seq<Listing>, id: string, replacement: Listing): (r: seq<Listing>)
    ensures |r| == |ls|
    ensures forall i :: 0 <= i < |ls| ==> r[i] == (if ls[i].id == id then replacement else ls[i])
  {
    seq(|ls|, i requires 0 <= i < |ls| => if ls[i].id == id then replacement else ls[i])
  }

  /** `ls.map(l => l.id === id ? {...l, status} : l)`. */
  function SetStatusById(ls: seq<Listing>, id: string, status: string): (r: seq<Listing>)
    ensures |r| == |ls|
    ensures forall i :: 0 <= i < |ls| ==> r[i] == (if ls[i].id == id then ls[i].(status := status) else ls[i])
  {
    seq(|ls|, i requires 0 <= i < |ls| => if ls[i].id == id then ls[i].(status := status) else ls[i])
  }
}

=== FILE: listing_list.dfy ===
/** The card grid of listings: phone formatting, the material colour scheme and the tab filter. */
module ListingList {
  import opened Seqs
  import opened JsText
  import opened StoreListings

  /** `formatPhoneNumber`: exactly ten digits become `ddd-ddd-dddd`; anything else is shown as given. */
  function FormatPhoneNumber(phone: string): (r: string)
    ensures |Digits(phone)| == 10 ==>
      |r| == 12 && r[3] == '-' && r[7] == '-'
      && r[..3] + r[4..7] + r[8..] == Digits(phone)
    ensures |Digits(phone)| != 10 ==> r == phone
  {
    var d := Digits(phone);
    if |d| == 10 then d[..3] + "-" + d[3..6] + "-" + d[6..] else phone
  }

  /** A dash between two strings is dropped by digit stripping. */
  lemma DigitsSkipDash(a: string, b: string)
    ensures Digits(a + "-" + b) == Digits(a) + Digits(b)
  {
    DigitsAppend(a, "-" + b);
    assert a + "-" + b == a + ("-" + b);
    assert ("-" + b)[1..] == b;
  }

  /** Dashes between groups of digits are dropped again by digit stripping. */
  lemma DigitsOfDashed(x: string, y: string, z: string)
    requires forall i :: 0 <= i < |x| ==> IsDigit(x[i])
    requires forall i :: 0 <= i < |y| ==> IsDigit(y[i])
    requires forall i :: 0 <= i < |z| ==> IsDigit(z[i])
    ensures Digits(x + "-" + y + "-" + z) == x + y + z
  {
    DigitsOfDigits(x);
    DigitsOfDigits(y);
    DigitsOfDigits(z);
    DigitsSkipDash(x, y);
    DigitsSkipDash(x + "-" + y, z);
  }

  /** Formatting never changes the digits of a number, in either branch. */
  lemma FormatKeepsDigits(phone: string)
    ensures Digits(FormatPhoneNumber(phone)) == Digits(phone)
  {
    var d := Digits(phone);
    if |d| == 10 {
      DigitsOfDashed(d[..3], d[3..6], d[6..]);
      assert d[..3] + d[3..6] + d[6..] == d;
    }
  }

  /** Formatting an already formatted number changes nothing. */
  lemma FormatIdempotent(phone: string)
    ensures FormatPhoneNumber(FormatPhoneNumber(phone)) == FormatPhoneNumber(phone)
  {
    FormatKeepsDigits(phone);
    var r := FormatPhoneNumber(phone);
    if |Digits(phone)| == 10 {
      var d := Digits(phone);
      assert r == d[..3] + "-" + d[3..6] + "-" + d[6..];
    }
  }

  const SoilScheme := "bg-gradient-to-br from-[#8B4513]/20 to-[#8B4513]/30 border-[#8B4513]/40 text-[#3d1d00]"
  const GravelScheme := "bg-gradient-to-br from-gray-100 to-gray-200 border-gray-300 text-gray-900"
  const SandScheme := "bg-gradient-to-br from-yellow-50 to-yellow-100 border-yellow-200 text-yellow-900"
  const ConcreteScheme := "bg-gradient-to-br from-slate-100 to-slate-200 border-slate-300 text-slate-900"
  const DefaultScheme := "bg-gradient-to-br from-white to-gray-100 border-gray-300 text-gray-900"

  /** `getColorScheme`: chosen by the lower-cased material type. */
  function ColorScheme(kind: string): (scheme: string)
    ensures ToLower(kind) !in {"soil", "gravel", "sand", "concrete"} ==> scheme == DefaultScheme
    ensures ToLower(kind) == "soil" ==> scheme == SoilScheme
  {
    match ToLower(kind)
    case "soil" => SoilScheme
    case "gravel" => GravelScheme
    case "sand" => SandScheme
    case "concrete" => ConcreteScheme
    case _ => DefaultScheme
  }

  /** The colour scheme ignores letter case. */
  lemma ColorSchemeIgnoresCase(a: string, b: string)
    requires ToLower(a) == ToLower(b)
    ensures ColorScheme(a) == ColorScheme(b)
  {
  }

  lemma ColorSchemeOfLowered(kind: string)
    ensures ColorScheme(ToLower(kind)) == ColorScheme(kind)
  {
    ToLowerIdempotent(kind);
  }

  function TabKeeps(isUserListings: bool): StoreListing -> bool {
    (l: StoreListing) => if isUserListings then l.status != "DELETED" else l.status == "ACTIVE"
  }

  /** The listings shown on a tab: the user's tab hides deleted ones, the available tab shows only active ones. */
  function ShownListings(ls: seq<StoreListing>, isUserListings: bool): (r: seq<StoreListing>)
    ensures IsSubseq(r, ls)
    ensures isUserListings ==> forall i :: 0 <= i < |r| ==> r[i].status != "DELETED"
    ensures !isUserListings ==> forall i :: 0 <= i < |r| ==> r[i].status == "ACTIVE"
    ensures isUserListings ==> forall l :: l in ls && l.status != "DELETED" ==> l in r
    ensures !isUserListings ==> forall l :: l in ls && l.status == "ACTIVE" ==> l in r
  {
    FilterIsSubseq(ls, TabKeeps(isUserListings));
    Filter(ls, TabKeeps(isUserListings))
  }

  /** What the available tab shows is a subsequence of what the user's tab shows. */
  lemma AvailableWithinUserTab(ls: seq<StoreListing>)
    ensures IsSubseq(ShownListings(ls, false), ShownListings(ls, true))
  {
    FilterStronger(ls, TabKeeps(false), TabKeeps(true));
  }
}

=== FILE: listings_view.dfy ===
/** The list view: its own status filter, nine listings per page, and the pagination buttons. */
module ListingsView {
  import opened Wrappers
  import opened Seqs
  import opened JsText
  import opened Listings
  import CompleteListingModal

  const ListingsPerPage: nat := 9

  predicate ViewKeeps(l: Listing, statusFilter: string, showCompleted: bool) {
    (statusFilter == "all" || l.status == statusFilter) && (if showCompleted then l.status == "completed" else true)
  }

  function KeepFn(statusFilter: string, showCompleted: bool): Listing -> bool {
    l => ViewKeeps(l, statusFilter, showCompleted)
  }

  /** `filteredListings`: the status selection and the completed-only switch, order kept. */
  function StatusFiltered(ls: seq<Listing>, statusFilter: string, showCompleted: bool): (r: seq<Listing>)
    ensures IsSubseq(r, ls)
    ensures statusFilter == "all" && !showCompleted ==> r == ls
    ensures showCompleted ==> forall i :: 0 <= i < |r| ==> r[i].status == "completed"
    ensures statusFilter != "all" ==> forall i :: 0 <= i < |r| ==> r[i].status == statusFilter
    ensures forall i :: 0 <= i < |ls| && ViewKeeps(ls[i], statusFilter, showCompleted) ==> ls[i] in r
  {
    FilterIsSubseq(ls, KeepFn(statusFilter, showCompleted));
    if statusFilter == "all" && !showCompleted then
      FilterAll(ls, KeepFn(statusFilter, showCompleted));
      Filter(ls, KeepFn(statusFilter, showCompleted))
    else
      Filter(ls, KeepFn(statusFilter, showCompleted))
  }

  /**
   * The completed-only switch with no status selection shows what selecting "completed" shows; combined
   * with any other status it shows nothing.
   */
  lemma CompletedOnlyIsCompletedStatus(ls: seq<Listing>, status: string)
    ensures StatusFiltered(ls, "all", true) == StatusFiltered(ls, "completed", false)
    ensures status != "all" && status != "completed" ==> StatusFiltered(ls, status, true) == []
  {
    FilterCongruent(ls, KeepFn("all", true), KeepFn("completed", false));
    if status != "all" && status != "completed" {
      FilterNone(ls, KeepFn(status, true));
    }
  }

  /** `Math.ceil(count / 9)`: the fewest pages of nine that hold `count` listings. */
  function TotalPages(count: nat): (pages: nat)
    ensures pages * ListingsPerPage >= count
    ensures pages > 0 ==> (pages - 1) * ListingsPerPage < count
    ensures pages == 0 <==> count == 0
  {
    (count + ListingsPerPage - 1) / ListingsPerPage
  }

  /** `filteredListings.slice(page * 9 - 9, page * 9)`: the listings shown on page `page`. */
  function Page<T>(xs: seq<T>, page: int): (r: seq<T>)
    ensures |r| <= ListingsPerPage
    ensures 1 <= page <= TotalPages(|xs|) ==> |r| > 0
    ensures page > TotalPages(|xs|) ==> r == []
    ensures page >= 1 ==>
      var first := (page - 1) * ListingsPerPage;
      var last := page * ListingsPerPage;
      r == xs[(if first <= |xs| then first else |xs|)..(if last <= |xs| then last else |xs|)]
  {
    Slice(xs, page * ListingsPerPage - ListingsPerPage, page * ListingsPerPage)
  }

  /** Pages 1 through `k`, one after the other. */
  function PagesUpTo<T>(xs: seq<T>, k: nat): seq<T>
    decreases k
  {
    if k == 0 then [] else PagesUpTo(xs, k - 1) + Page(xs, k)
  }

  /** The first `k` pages are exactly the first `9k` listings. */
  lemma {:induction false} PagesUpToIsPrefix<T>(xs: seq<T>, k: nat)
    ensures PagesUpTo(xs, k) == xs[..if k * ListingsPerPage <= |xs| then k * ListingsPerPage else |xs|]
    decreases k
  {
    if k > 0 {
      PagesUpToIsPrefix(xs, k - 1);
    }
  }

  /** Reading pages 1 through the last one shows every listing once, in order. */
  lemma PagesCoverAll<T>(xs: seq<T>)
    ensures PagesUpTo(xs, TotalPages(|xs|)) == xs
  {
    PagesUpToIsPrefix(xs, TotalPages(|xs|));
  }

  /** Which pagination controls are shown and which are disabled. */
  datatype Controls = Controls(visible: bool, previousDisabled: bool, nextDisabled: bool)

  function PaginationControls(page: int, totalPages: nat): (c: Controls)
    ensures c.visible <==> totalPages > 1
    ensures c.previousDisabled <==> page == 1
    ensures c.nextDisabled <==> page == totalPages
  {
    Controls(totalPages > 1, page == 1, page == totalPages)
  }

  datatype Click = Previous | Next

  /** `paginate(currentPage -/+ 1)` when the clicked button is enabled; a disabled button does nothing. */
  function Navigate(page: int, totalPages: nat, click: Click): int {
    var c := PaginationControls(page, totalPages);
    match click
    case Previous => if c.previousDisabled then page else page - 1
    case Next => if c.nextDisabled then page else page + 1
  }

  /** Starting from a page in range, the buttons never lead out of pages 1..totalPages. */
  lemma NavigationStaysInRange(page: int, totalPages: nat, click: Click)
    requires 1 <= page <= totalPages
    ensures 1 <= Navigate(page, totalPages, click) <= totalPages
  {
  }

  /**
   * `handleCompleteListing` as evidently intended, with the updated list stored: the listing with the
   * updated record's id is replaced and the new completed record, if any, is appended.
   */
  function CompleteListing(ls: seq<Listing>, updated: Listing, newCompleted: Option<Listing>): (r: seq<Listing>)
    ensures |r| == |ls| + (if newCompleted.Some? then 1 else 0)
    ensures forall i :: 0 <= i < |ls| ==> r[i] == (if ls[i].id == updated.id then updated else ls[i])
    ensures newCompleted.Some? ==> r[|ls|] == newCompleted.value
  {
    var replaced := ReplaceWhereId(ls, updated.id, updated);
    if newCompleted.Some? then replaced + [newCompleted.value] else replaced
  }

  /** The view's success toast is the partial-completion text exactly when its intended list grows by the new record. */
  lemma ToastMatchesListGrowth(ls: seq<Listing>, updated: Listing, newCompleted: Option<Listing>)
    ensures CompleteListingModal.SuccessMessage(newCompleted) == CompleteListingModal.PartialMessage
      <==> |CompleteListing(ls, updated, newCompleted)| == |ls| + 1
    ensures CompleteListingModal.SuccessMessage(newCompleted) == CompleteListingModal.FullMessage
      <==> |CompleteListing(ls, updated, newCompleted)| == |ls|
  {
  }

  /** The view's own state: the page shown and the status selection. */
  datatype View = View(page: int, statusFilter: string)

  /** Choosing a status as written: only the selection changes, the page number stays where it was. */
  function SelectStatusAsWritten(v: View, status: string): (w: View)
    ensures w.statusFilter == status
    ensures w.page == v.page
  {
    v.(statusFilter := status)
  }

  /**
   * Once the new selection leaves fewer pages than the page shown, the view shows an empty page, reads
   * "Page p of n" with p > n, and the still-enabled Next button moves further away; Previous goes back one.
   */
  lemma StalePageAfterStatusChange(ls: seq<Listing>, v: View, status: string, showCompleted: bool)
    ensures
      var w := SelectStatusAsWritten(v, status);
      var n := TotalPages(|StatusFiltered(ls, status, showCompleted)|);
      w.page > n ==>
        && Page(StatusFiltered(ls, status, showCompleted), w.page) == []
        && !PaginationControls(w.page, n).nextDisabled
        && Navigate(w.page, n, Next) == w.page + 1
        && Navigate(w.page, n, Previous) == (if w.page == 1 then 1 else w.page - 1)
  {
  }

  /**
   * The concrete case: on page 2, a selection that leaves one listing shows an empty page, and with a single
   * page the pagination controls are hidden, so no button leads back to the listing.
   */
  lemma StrandedOnEmptyPage(l: Listing)
    ensures
      var w := SelectStatusAsWritten(View(2, "active"), "all");
      var xs := StatusFiltered([l], "all", false);
      && xs == [l]
      && Page(xs, w.page) == []
      && !PaginationControls(w.page, TotalPages(|xs|)).visible
  {
  }

  /** Choosing a status with the page reset to the first one. */
  function SelectStatus(v: View, status: string): (w: View)
    ensures w.statusFilter == status
    ensures w.page == 1
  {
    View(1, status)
  }

  /** After a status choice that resets the page, any listing that passes the selection is on the page shown,
      and the buttons keep the page in range. */
  lemma SelectStatusShowsListings(ls: seq<Listing>, v: View, status: string, showCompleted: bool, click: Click)
    ensures
      var w := SelectStatus(v, status);
      var xs := StatusFiltered(ls, status, showCompleted);
      xs != [] ==>
        && Page(xs, w.page) != []
        && 1 <= w.page <= TotalPages(|xs|)
        && 1 <= Navigate(w.page, TotalPages(|xs|), click) <= TotalPages(|xs|)
  {
    var xs := StatusFiltered(ls, status, showCompleted);
    if xs != [] {
      NavigationStaysInRange(1, TotalPages(|xs|), click);
    }
  }

  /**
   * `handleCompleteListing` as written: the updated list is built and discarded (the call that would store it
   * is commented out and `listings` is a prop), so the view keeps showing the list it was given; only the
   * success toast appears.
   */
  function CompleteListingAsWritten(ls: seq<Listing>, updated: Listing, newCompleted: Option<Listing>)
    : (r: (seq<Listing>, string))
    ensures r.0 == ls
    ensures r.1 == CompleteListingModal.PartialMessage <==> newCompleted.Some?
  {
    (ls, CompleteListingModal.SuccessMessage(newCompleted))
  }

  /** A completion the server reports is not reflected in the view: the completed listing still shows its old status. */
  lemma CompletionNotShown(l: Listing)
    requires l.status != "completed"
    ensures CompleteListingAsWritten([l], l.(status := "completed"), None).0[0].status != "completed"
    ensures CompleteListing([l], l.(status := "completed"), None)[0].status == "completed"
  {
    assert CompleteListing([l], l.(status := "completed"), None)[0].status == "completed";
  }
}

=== FILE: quantity_range.dfy ===
/**
 * The quantity-range filter strings ("0-5000", "50000+", "all") and how the client-side
 * filters read them: `const [min, max] = range.split("-").map(Number)`.
 */
module QuantityRange {
  import opened Wrappers
  import opened JsText
  import opened JsNumber

  /** The destructured bounds; `None` is `NaN` (an unparsable part) or `undefined` (a missing part). */
  datatype Bounds = Bounds(min: Option<real>, max: Option<real>)

  /** `range.split("-").map(Number)` destructured as `[min, max]`. */
  function ParseRange(range: string): (b: Bounds)
    ensures b.min == Number(SplitOn(range, '-')[0])
    ensures '-' !in range ==> b.max == None
  {
    var parts := SplitOn(range, '-');
    SplitWithoutSeparator(range, '-');
    Bounds(Number(parts[0]), if |parts| >= 2 then Number(parts[1]) else None)
  }

  /**
   * The client rule: with a truthy max, keep `min <= q <= max`; otherwise keep `q > min`.
   * A comparison with `NaN` is false, so a `NaN` bound never rejects.
   */
  predicate ClientKeeps(q: int, range: string) {
    range == "all" ||
    var b := ParseRange(range);
    if Truthy(b.max) then
      !((b.min.Some? && (q as real) < b.min.value) || (q as real) > b.max.value)
    else
      !(b.min.Some? && (q as real) <= b.min.value)
  }

  /** "a-b" with b nonzero keeps exactly the quantities from a to b inclusive. */
  lemma RangeIsInclusive(a: nat, b: nat, q: int)
    requires b > 0
    ensures ClientKeeps(q, NatToString(a) + "-" + NatToString(b)) <==> a <= q <= b
  {
    var range := NatToString(a) + "-" + NatToString(b);
    BoundsOfPair(a, b);
  }

  /** "a-b" reads back as the two numbers. */
  lemma BoundsOfPair(a: nat, b: nat)
    ensures ParseRange(NatToString(a) + "-" + NatToString(b)) == Bounds(Some(a as real), Some(b as real))
  {
    var sa := NatToString(a);
    var sb := NatToString(b);
    assert '-' !in sa by { assert forall i :: 0 <= i < |sa| ==> IsDigit(sa[i]); }
    assert '-' !in sb by { assert forall i :: 0 <= i < |sb| ==> IsDigit(sb[i]); }
    assert sa + "-" + sb == sa + ['-'] + sb;
    SplitAtFirst(sa, '-', sb);
    SplitWithoutSeparator(sb, '-');
    NumberOfNatToString(a);
    NumberOfNatToString(b);
  }

  /** A bare number "a" has no max, so it keeps only quantities strictly above a. */
  lemma BareNumberIsStrict(a: nat, q: int)
    ensures ClientKeeps(q, NatToString(a)) <==> q > a
  {
    var sa := NatToString(a);
    assert '-' !in sa by { assert forall i :: 0 <= i < |sa| ==> IsDigit(sa[i]); }
    NumberOfNatToString(a);
    SplitWithoutSeparator(sa, '-');
    assert sa != "all" by { assert IsDigit(sa[0]); }
  }

  /** "a+" (the "50000+" option) parses its min as `NaN`, so it keeps every quantity. */
  lemma PlusSuffixKeepsAll(a: nat, q: int)
    ensures ClientKeeps(q, NatToString(a) + "+")
  {
    var sa := NatToString(a);
    var range := sa + "+";
    assert '-' !in range by { assert forall i :: 0 <= i < |sa| ==> IsDigit(sa[i]); }
    SplitWithoutSeparator(range, '-');
    NumberOfTrailingJunk(sa, '+');
  }
}

=== FILE: seqs.dfy ===
/** Order-preserving filtering and counting over sequences, shared by every list view. */
module Seqs {

  /** `Array.prototype.filter`: the elements of `s` that satisfy `p`, in their original order. */
  function Filter<T>(s: seq<T>, p: T -> bool): (r: seq<T>)
    ensures |r| <= |s|
    ensures forall i :: 0 <= i < |r| ==> p(r[i]) && r[i] in s
    ensures forall i :: 0 <= i < |s| && p(s[i]) ==> s[i] in r
    decreases |s|
  {
    if s == [] then []
    else (if p(s[0]) then [s[0]] else []) + Filter(s[1..], p)
  }

  /** `a` can be obtained from `b` by deleting elements: an order-preserving subsequence. */
  predicate IsSubseq<T(==)>(a: seq<T>, b: seq<T>)
    decreases |b|
  {
    if b == [] then a == []
    else (a != [] && a[0] == b[0] && IsSubseq(a[1..], b[1..])) || IsSubseq(a, b[1..])
  }

  /** The number of elements of `s` that satisfy `p`. */
  function Count<T>(s: seq<T>, p: T -> bool): nat
    decreases |s|
  {
    if s == [] then 0 else (if p(s[0]) then 1 else 0) + Count(s[1..], p)
  }

  /** Filtering keeps the original order and deletes only elements. */
  lemma {:induction false} FilterIsSubseq<T>(s: seq<T>, p: T -> bool)
    ensures IsSubseq(Filter(s, p), s)
    decreases |s|
  {
    if s != [] {
      FilterIsSubseq(s[1..], p);
      var r := Filter(s, p);
      if p(s[0]) {
        assert r == [s[0]] + Filter(s[1..], p);
        assert r[1..] == Filter(s[1..], p);
      } else {
        assert r == Filter(s[1..], p);
      }
    }
  }

  /** A subsequence is never longer and holds no element that is not in the original. */
  lemma {:induction false} SubseqElements<T>(a: seq<T>, b: seq<T>)
    requires IsSubseq(a, b)
    ensures |a| <= |b|
    ensures forall x :: x in a ==> x in b
    ensures multiset(a) <= multiset(b)
    decreases |b|
  {
    if b != [] {
      if a != [] && a[0] == b[0] && IsSubseq(a[1..], b[1..]) {
        SubseqElements(a[1..], b[1..]);
        assert a == [a[0]] + a[1..];
        assert b == [b[0]] + b[1..];
      } else {
        SubseqElements(a, b[1..]);
        assert b == [b[0]] + b[1..];
      }
    }
  }

  /** The length of a filter is the number of elements that pass. */
  lemma {:induction false} FilterLength<T>(s: seq<T>, p: T -> bool)
    ensures |Filter(s, p)| == Count(s, p)
    decreases |s|
  {
    if s != [] {
      FilterLength(s[1..], p);
    }
  }

  /** A predicate and its negation split a sequence: their counts add up to its length. */
  lemma {:induction false} CountComplement<T>(s: seq<T>, p: T -> bool, q: T -> bool)
    requires forall x :: p(x) == !q(x)
    ensures Count(s, p) + Count(s, q) == |s|
    decreases |s|
  {
    if s != [] {
      CountComplement(s[1..], p, q);
    }
  }

  /** Filtering by two predicates that agree on every element gives the same result. */
  lemma {:induction false} FilterCongruent<T>(s: seq<T>, p: T -> bool, q: T -> bool)
    requires forall i :: 0 <= i < |s| ==> p(s[i]) == q(s[i])
    ensures Filter(s, p) == Filter(s, q)
    decreases |s|
  {
    if s != [] {
      FilterCongruent(s[1..], p, q);
    }
  }

  /** Filtering with a predicate that every element satisfies changes nothing. */
  lemma {:induction false} FilterAll<T>(s: seq<T>, p: T -> bool)
    requires forall i :: 0 <= i < |s| ==> p(s[i])
    ensures Filter(s, p) == s
    decreases |s|
  {
    if s != [] {
      FilterAll(s[1..], p);
      assert s == [s[0]] + s[1..];
    }
  }

  /** An element survives filtering exactly when it is in the sequence and passes. */
  lemma FilterMembers<T>(s: seq<T>, p: T -> bool, x: T)
    ensures x in Filter(s, p) <==> x in s && p(x)
  {
    var r := Filter(s, p);
    if x in r {
      var i :| 0 <= i < |r| && r[i] == x;
    }
    if x in s && p(x) {
      var i :| 0 <= i < |s| && s[i] == x;
    }
  }

  /** Filtering with a predicate that no element satisfies leaves nothing. */
  lemma {:induction false} FilterNone<T>(s: seq<T>, p: T -> bool)
    requires forall i :: 0 <= i < |s| ==> !p(s[i])
    ensures Filter(s, p) == []
    decreases |s|
  {
    if s != [] {
      FilterNone(s[1..], p);
    }
  }

  /** Count over a concatenation. */
  lemma {:induction false} CountAppend<T>(a: seq<T>, b: seq<T>, p: T -> bool)
    ensures Count(a + b, p) == Count(a, p) + Count(b, p)
    decreases |a|
  {
    if a != [] {
      assert (a + b)[1..] == a[1..] + b;
      CountAppend(a[1..], b, p);
    } else {
      assert a + b == b;
    }
  }

  /** Two predicates that no element satisfies together count at most the whole sequence. */
  lemma {:induction false} CountDisjoint<T>(s: seq<T>, p: T -> bool, q: T -> bool)
    requires forall i :: 0 <= i < |s| ==> !(p(s[i]) && q(s[i]))
    ensures Count(s, p) + Count(s, q) <= |s|
    decreases |s|
  {
    if s != [] {
      CountDisjoint(s[1..], p, q);
    }
  }

  /** Filtering by a predicate that is stronger on every element keeps a subsequence of what the weaker one keeps. */
  lemma {:induction false} FilterStronger<T>(s: seq<T>, p: T -> bool, q: T -> bool)
    requires forall i :: 0 <= i < |s| && p(s[i]) ==> q(s[i])
    ensures IsSubseq(Filter(s, p), Filter(s, q))
    decreases |s|
  {
    if s != [] {
      assert forall i :: 0 <= i < |s[1..]| ==> s[1..][i] == s[i + 1];
      FilterStronger(s[1..], p, q);
      var a := Filter(s, p);
      var b := Filter(s, q);
      if p(s[0]) {
        assert a[1..] == Filter(s[1..], p);
        assert b[1..] == Filter(s[1..], q);
      } else if q(s[0]) {
        assert a == Filter(s[1..], p);
        assert b[1..] == Filter(s[1..], q);
      } else {
        assert a == Filter(s[1..], p);
        assert b == Filter(s[1..], q);
      }
    }
  }
}

=== FILE: signup_form.dfy ===
/**
 * The account sign-up form: its email check, its field updates and its submit guard. Form data is the JSON
 * object the form posts, kept in insertion order.
 */
module SignUpForm {
  import opened Wrappers
  import opened JsText
  import opened Json

  /** A character the local part of an address may hold. */
  predicate LocalChar(c: char) {
    IsAlpha(c) || IsDigit(c) || c in ".!#$%&'*+/=?^_`{|}~-"
  }

  /** A character a domain label may hold. */
  predicate DomainChar(c: char) {
    IsAlpha(c) || IsDigit(c) || c == '-'
  }

  /** Labels of domain characters separated by single dots: no empty label, no dot at either end. */
  predicate DomainOk(d: string) {
    && |d| > 0
    && DomainChar(d[0]) && DomainChar(d[|d| - 1])
    && (forall i :: 0 <= i < |d| ==> DomainChar(d[i]) || d[i] == '.')
    && (forall i :: 0 <= i < |d| - 1 && d[i] == '.' ==> d[i + 1] != '.')
  }

  /** `s` splits at `k` into a local part, the `@` and a domain. */
  predicate SplitsAt(s: string, k: int) {
    0 <= k < |s| && s[k] == '@' && (forall i :: 0 <= i < k ==> LocalChar(s[i])) && DomainOk(s[k + 1..])
  }

  /** What the address pattern describes: a non-empty local part, an `@`, and a dotted domain. */
  predicate EmailShape(s: string) {
    exists k :: 0 < k < |s| && SplitsAt(s, k)
  }

  /** The states of the matcher for the address pattern. */
  datatype State = LocalStart | InLocal | DomainStart | InDomain | Rejected

  function Step(q: State, c: char): State {
    match q
    case LocalStart => if LocalChar(c) then InLocal else Rejected
    case InLocal => if LocalChar(c) then InLocal else if c == '@' then DomainStart else Rejected
    case DomainStart => if DomainChar(c) then InDomain else Rejected
    case InDomain => if DomainChar(c) then InDomain else if c == '.' then DomainStart else Rejected
    case Rejected => Rejected
  }

  function Run(q: State, s: string): State
    decreases |s|
  {
    if s == [] then q else Run(Step(q, s[0]), s[1..])
  }

  /** `isValidEmail`: the address pattern, matched against the whole string. */
  function IsValidEmail(s: string): (ok: bool)
    ensures ok <==> EmailShape(s)
  {
    ValidEmailIsShaped(s);
    Run(LocalStart, s) == InDomain
  }

  lemma {:induction false} RejectedStays(s: string)
    ensures Run(Rejected, s) == Rejected
    decreases |s|
  {
    if s != [] { RejectedStays(s[1..]); }
  }

  /** After a domain character, the rest finishes the domain exactly when that character followed by it is one. */
  lemma {:induction false} DomainRun(s: string)
    ensures Run(DomainStart, s) == InDomain <==> DomainOk(s)
    ensures Run(InDomain, s) == InDomain <==> DomainOk("a" + s)
    decreases |s|
  {
    if s != [] {
      var c, t := s[0], s[1..];
      assert s == [c] + t;
      DomainRun(t);
      RejectedStays(t);
      assert ("a" + s)[1..] == s;
      if DomainChar(c) {
        DomainOkHead(c, t);
        DomainOkHead('a', s);
      } else if c == '.' {
        DomainOkAfterDot(t);
      } else {
        assert !DomainChar(("a" + s)[1]);
      }
    }
  }

  /** The first character of a domain can be exchanged for any other domain character. */
  lemma DomainOkHead(c: char, t: string)
    requires DomainChar(c)
    ensures DomainOk([c] + t) <==> DomainOk("a" + t)
  {
    var x, y := [c] + t, "a" + t;
    assert forall i :: 0 < i < |x| ==> x[i] == y[i];
  }

  /** A dot after a domain character continues the domain exactly when a domain follows it. */
  lemma DomainOkAfterDot(t: string)
    ensures DomainOk("a." + t) <==> DomainOk(t)
  {
    var x := "a." + t;
    assert forall i :: 0 <= i < |t| ==> x[i + 2] == t[i];
    if DomainOk(t) {
      forall i | 0 <= i < |x| - 1 && x[i] == '.' ensures x[i + 1] != '.' {
        if i >= 2 { assert x[i + 1] == t[i - 1]; }
      }
    }
    if DomainOk(x) {
      assert |t| > 0;
      assert x[1] == '.' && x[2] != '.';
      forall i | 0 <= i < |t| - 1 && t[i] == '.' ensures t[i + 1] != '.' {
        assert x[i + 2] == '.';
      }
    }
  }

  /** A local character in front moves the split one place. */
  lemma SplitsAfterLocal(c: char, t: string, k: int)
    requires LocalChar(c) && 0 <= k
    ensures SplitsAt([c] + t, k + 1) <==> SplitsAt(t, k)
  {
    var s := [c] + t;
    assert forall i :: 0 <= i < |t| ==> s[i + 1] == t[i];
    if k < |t| {
      assert s[k + 2..] == t[k + 1..];
      if SplitsAt(t, k) {
        forall i | 0 <= i < k + 1 ensures LocalChar(s[i]) { if i > 0 { assert s[i] == t[i - 1]; } }
      }
    }
  }

  lemma SplitsAfterLocalAny(c: char, t: string)
    requires LocalChar(c)
    ensures (exists k :: SplitsAt([c] + t, k)) <==> (exists k :: SplitsAt(t, k))
  {
    var s := [c] + t;
    if exists k :: SplitsAt(s, k) {
      var k :| SplitsAt(s, k);
      assert k > 0 by { assert s[0] == c && c != '@'; }
      SplitsAfterLocal(c, t, k - 1);
    }
    if exists k :: SplitsAt(t, k) {
      var k :| SplitsAt(t, k);
      SplitsAfterLocal(c, t, k);
    }
  }

  lemma SplitsAfterAt(t: string)
    ensures (exists k :: SplitsAt("@" + t, k)) <==> DomainOk(t)
  {
    var s := "@" + t;
    assert s[1..] == t;
    assert SplitsAt(s, 0) == DomainOk(t);
    forall k | 0 < k ensures !SplitsAt(s, k) {
      if k < |s| { assert !LocalChar(s[0]); }
    }
  }

  lemma NoSplitAfterOther(c: char, t: string)
    requires !LocalChar(c) && c != '@'
    ensures !exists k :: SplitsAt([c] + t, k)
  {
    var s := [c] + t;
    forall k | 0 <= k ensures !SplitsAt(s, k) {
      if 0 < k < |s| { assert !LocalChar(s[0]); }
    }
  }

  /** The local part runs up to the `@`; from inside it the matcher accepts exactly what splits there. */
  lemma {:induction false} LocalRun(s: string)
    ensures Run(InLocal, s) == InDomain <==> exists k :: SplitsAt(s, k)
    decreases |s|
  {
    if s != [] {
      var c, t := s[0], s[1..];
      assert s == [c] + t;
      if LocalChar(c) {
        LocalRun(t);
        SplitsAfterLocalAny(c, t);
      } else if c == '@' {
        DomainRun(t);
        SplitsAfterAt(t);
      } else {
        RejectedStays(t);
        NoSplitAfterOther(c, t);
      }
    }
  }

  /** The matcher accepts exactly the strings of the address shape. */
  lemma ValidEmailIsShaped(s: string)
    ensures Run(LocalStart, s) == InDomain <==> EmailShape(s)
  {
    if s != [] {
      var c, t := s[0], s[1..];
      assert s == [c] + t;
      LocalRun(t);
      RejectedStays(t);
      if LocalChar(c) {
        if EmailShape(s) {
          var k :| 0 < k < |s| && SplitsAt(s, k);
          SplitsAfterLocal(c, t, k - 1);
        }
        if exists k :: SplitsAt(t, k) {
          var k :| SplitsAt(t, k);
          SplitsAfterLocal(c, t, k);
        }
      } else {
        forall k | 0 < k ensures !SplitsAt(s, k) {
          if k < |s| { assert !LocalChar(s[0]); }
        }
      }
    }
  }

  const InvalidEmailMessage := "Please enter a valid email address."

  /** The form's fields, its error line and whether a request is in flight. */
  datatype FormState = FormState(data: seq<(string, Json)>, error: string, loading: bool)

  function Field(s: FormState, name: string): Json {
    Lookup(s.data, name)
  }

  /** Every field starts empty except the contact preference, which starts at 'Email'. */
  function InitialForm(): (s: FormState)
    ensures Field(s, "contactPreference") == JStr("Email")
    ensures |s.data| == 9 && forall i :: 0 <= i < 8 ==> s.data[i].1 == JStr("")
    ensures s.error == "" && !s.loading
  {
    FormState([("firstName", JStr("")), ("lastName", JStr("")), ("email", JStr("")), ("phoneNumber", JStr("")),
               ("zipCode", JStr("")), ("companyName", JStr("")), ("role", JStr("")), ("password", JStr("")),
               ("contactPreference", JStr("Email"))], "", false)
  }

  /** A form nobody has typed into is refused: its empty address fails validation, so nothing is posted. */
  lemma InitialFormIsRefused()
    ensures HandleSubmit(InitialForm()) == Refused(FormState(InitialForm().data, InvalidEmailMessage, false))
  {
    var d := InitialForm().data;
    assert forall i :: 0 <= i < |d| && d[i].0 == "email" ==> d[i].1 == JStr("");
    assert !IsValidEmail("");
  }

  /** `handleChange`: the field takes the value; only an email edit re-checks the address. */
  function HandleChange(s: FormState, name: string, value: string): (r: FormState)
    ensures Field(r, name) == JStr(value)
    ensures forall other :: other != name ==> Field(r, other) == Field(s, other)
    ensures name == "email" ==> (r.error == "" <==> IsValidEmail(value))
    ensures name == "email" && !IsValidEmail(value) ==> r.error == InvalidEmailMessage
    ensures name != "email" ==> r.error == s.error
    ensures r.loading == s.loading
  {
    var data := Put(s.data, name, JStr(value));
    if name == "email" then FormState(data, if IsValidEmail(value) then "" else InvalidEmailMessage, s.loading)
    else FormState(data, s.error, s.loading)
  }

  /** `handleRoleChange` and `handleContactPreferenceChange`: a select sets its field and nothing else. */
  function HandleSelect(s: FormState, name: string, value: string): (r: FormState)
    requires name == "role" || name == "contactPreference"
    ensures Field(r, name) == JStr(value)
    ensures forall other :: other != name ==> Field(r, other) == Field(s, other)
    ensures r.error == s.error && r.loading == s.loading
  {
    FormState(Put(s.data, name, JStr(value)), s.error, s.loading)
  }

  /** The outcome of pressing submit: the form refuses, or it posts its data to the account route. */
  datatype SubmitStep = Refused(state: FormState) | Posted(state: FormState, body: Json)

  /** `handleSubmit` up to the request: an address that fails validation stops it there. */
  function HandleSubmit(s: FormState): (step: SubmitStep)
    ensures step.Refused? <==> !(Field(s, "email").JStr? && IsValidEmail(Field(s, "email").s))
    ensures step.Refused? ==> step.state == FormState(s.data, InvalidEmailMessage, false)
    ensures step.Posted? ==> step.body == JObject(s.data) && step.state == FormState(s.data, "", true)
  {
    var email := Field(s, "email");
    if email.JStr? && IsValidEmail(email.s) then Posted(FormState(s.data, "", true), JObject(s.data))
    else Refused(FormState(s.data, InvalidEmailMessage, false))
  }

  /** Where the form goes once the route answered. */
  datatype Landing = SuccessPage | Stay(state: FormState)

  /** After the response: success moves on; a failure shows the route's error, or a fallback. */
  function HandleResponse(s: FormState, ok: bool, answer: Json): (l: Landing)
    ensures ok <==> l.SuccessPage?
    ensures l.Stay? ==> !l.state.loading && l.state.data == s.data
    ensures l.Stay? && Get(answer, "error").JStr? && Get(answer, "error").s != "" ==> l.state.error == Get(answer, "error").s
    ensures l.Stay? && !TruthyValue(Get(answer, "error")) ==> l.state.error == "Failed to create user"
  {
    if ok then SuccessPage
    else
      var e := Get(answer, "error");
      Stay(FormState(s.data, if e.JStr? && e.s != "" then e.s else "Failed to create user", false))
  }

  /** Typing a valid address and submitting posts the form with that address. */
  lemma TypedAddressIsPosted(s: FormState, email: string)
    requires IsValidEmail(email)
    ensures var step := HandleSubmit(HandleChange(s, "email", email));
      step.Posted? && Get(step.body, "email") == JStr(email)
  {
  }

  /** An address the validation rejects never leaves the form. */
  lemma InvalidAddressIsNotPosted(s: FormState, email: string)
    requires !EmailShape(email)
    ensures HandleSubmit(HandleChange(s, "email", email)).Refused?
  {
  }
}

=== FILE: store_listing.dfy ===
/**
 * The listing row of the ORM-backed part of the application (the `Listing` table with its owner
 * joined in), as returned by the listing routes and rendered by the card grid.
 */
module StoreListings {
  import opened Wrappers

  /** The owner's contact columns joined into a listing row. */
  datatype Owner = Owner(email: string, phone: string, firstName: string, lastName: Option<string>)

  /** One row of the `Listing` table. `kind` is the `type` column (the material). */
  datatype StoreListing = StoreListing(
    id: string,
    userId: string,
    name: string,
    kind: string,
    quantity: int,
    latitude: real,
    longitude: real,
    address: string,
    status: string,
    isAvailable: bool,
    condition: string,
    owner: Owner
  )
}

=== FILE: tab_filters.dfy ===
/** The sidebar filters shared by the dashboard page and the dashboard component. */
module TabFilters {
  import opened Wrappers
  import opened JsText
  import opened Listings
  import QuantityRange

  /** Transaction ("all" | "import" | "export"), material, quantity range and status selections. */
  datatype Filters = Filters(transaction: string, material: string, quantity: string, status: string)

  const NoFilters := Filters("all", "all", "all", "all")

  /** `listing.transaction_type?.toLowerCase() ?? "export"`: a missing type reads as "export". */
  function TransactionOf(l: Listing): string {
    match l.transactionType
    case Some(t) => ToLower(t)
    case None => "export"
  }

  /** The transaction, material and quantity conditions, which both dashboards apply on every tab. */
  predicate AttributesMatch(l: Listing, f: Filters) {
    && (f.transaction == "all" || TransactionOf(l) == f.transaction)
    && (f.material == "all" || l.material == f.material)
    && QuantityRange.ClientKeeps(l.quantity, f.quantity)
  }

  /** `listing.user_id === currentUser?.id`; with no current user nothing is one's own. */
  predicate IsOwn(l: Listing, currentUser: Option<string>) {
    currentUser == Some(l.userId)
  }
}

=== FILE: wrappers.dfy ===
/** Option: the model's stand-in for JavaScript's `null`, `undefined` and `NaN`. */
module Wrappers {

  /** `None` is an absent value: `null`, `undefined`, or a number that parsed to `NaN`. */
  datatype Option<+T> = None | Some(value: T) {

    /** The value, or `default` when absent (JavaScript's `x ?? default`). */
    function GetOr(default: T): T {
      match this
      case Some(v) => v
      case None => default
    }
  }
}
